=== FILE: README.md ===
# PerlToPHP token rules in Dafny

PerlToPHP converts Perl modules to PHP. It parses a module into a PPI-style
tree of elements, runs two passes over the tokens, then renders the tree. The
first pass, `anaContext`, gives every token an evaluation context: scalar,
array, hash, string or neutral. The second pass, `genCode`, rewrites each token
that is not yet converted into PHP text. A rule may also cancel elements,
which then render as nothing, or edit its neighbours. Both passes for the leaf
elements live in `PpiToken.php`, and this project models that file:

- **Context rules** (`Contexts`): the context rule of every token class, and a
  left-to-right pass (`InferRun`) that applies them over a run of tokens.
- **Operators** (`Operators`): word operators become symbols and `->` is
  dropped before a non-word. `=~` and `!~` become `preg_match` or
  `preg_replace` (`cvtRegEx`), `x` becomes `str_repeat` (`cvtStrRepeat`) and
  `-e` becomes `file_exists` (`cvtFileExists`).
- **Symbols** (`Symbols`): sigils, package paths and `$self`, plus the
  array-index (`$#x`) and magic-variable subclasses.
- **Literals** (`Quotes`, `Numbers`): double-quoted strings, regexps, `qw(...)`
  lists, `qq` strings (which become heredocs), and the removal of the closing
  `1;` of a module.
- **Casts** (`Casts`): `@` and `$#` become counts in scalar context and
  vanish in other contexts.
- **Words** (`Words`, `Headers`, `Conditionals`): the bareword dispatch and
  its keyword rules.
  - `my` declarations, sub headers and package headers.
  - Postfix `if`/`unless`, `foreach`, `use`/`require`, `goto`, `last`/`next`.
  - `split`, and the builtins whose missing argument is made explicit
    (`convertWordWithArg`).
- **Comments** (`Banner`): the state machine that turns a `#####` banner
  into a `/** … */` doc comment.

The tree is seen as the linear stream of its elements in document order
(`Tokens.Node`). An element carries its class, its text, its delimiters, its
context and the `canceled` and `converted` flags. The rendered text of a
stream (`Tokens.Text`) joins the text of the elements that are not canceled.
What a rule reads from the tree beyond the stream is passed in as a value:
parent classes, sibling tests, the rendered text of an operand. The same goes
for the helpers that live in the base class, such as camel-casing
(`cvtCamelCase`) and the package-name mapping (`cvtPackageName`), which are
passed as functions. Where the program prints a diagnostic and exits, or
calls a method on a missing element, the model returns a `Failure`.

Regular expressions are modelled by what they match on the inputs the rule
sees. `\s` is PCRE's white space (space, `\t`, `\n`, `\v`, `\f`, `\r`) and
`trim` uses PHP's set (space, `\t`, `\n`, `\r`, `\0`, `\v`). A greedy
`(.*)::(.*)` splits at the last `::`.

Behaviour the model keeps as the code has it:

- A regexp literal has no context rule of its own. It gets the default token
  context, copied from its left neighbour (or scalar after a line feed).
- The postfix `if`/`unless` rule keeps the code's parentheses test (`ConditionalAt`). A corrected version (`ConditionalFixed`) sits beside it, see Findings.
- The `1;` removal applies to any number statement at the top of the document
  that is followed by `;` and a line feed. Neither its value nor its place at
  the end of the module is checked.
- `last` and `next` comment out any word that follows them. Only `goto` and
  labels rename the reserved `EXIT`.
- In array context a cast's `{…}` block is dropped when its text holds a
  braced scalar `{$name}` anywhere. Otherwise the braces become parentheses.
- The test that chooses `explode` for `split` looks for `(`, `)`, `.` and
  `*`. The backslash is not in the class, because the single-quoted PHP
  string collapses `\\` into a single `\` that escapes `(`.

## Model

| member | source | states |
|---|---|---|
| Tokens.Convert | PpiToken.php:697-699 | a converted element is left as it is; otherwise it takes the rule's text and is marked converted, and its class, context, flags and delimiters are kept |
| Tokens.ConvertIdempotent | PpiToken.php:697-699 | running a rule again on an element already converted changes nothing |
| Tokens.CancelAt | PpiToken.php:155-157 | canceling one element cancels exactly that element and never un-cancels anything |
| Tokens.CancelRange | PpiToken.php:960-965 | canceling a range marks exactly the elements inside it, leaves all others equal, and preserves kinds |
| Tokens.CancelRangeText | PpiToken.php:155-157 | canceling a range removes exactly that range's text from the rendered stream |
| Tokens.SetContentAt | PpiToken.php:1036-1038 | editing a neighbour changes only that neighbour's text, without marking it converted |
| Tokens.NextSemicolon | PpiToken.php:960-965 | finds the first statement terminator at or after a position, or reports that none exists |
| Markers.PlaceholderText | PpiToken.php:96-100 | reading a placeholder back gives a text that rebuilds it |
| Markers.PlaceholderRoundTrip | PpiToken.php:96-100 | the original text is recovered from the `$fake/*check:…*/` placeholder |
| Markers.CheckCommentText | PpiToken.php:263-265 | reading a review comment back gives a text that rebuilds it |
| Markers.CheckCommentRoundTrip | PpiToken.php:263-265 | the original text is recovered from the `/*check:…*/` comment |
| Markers.CallArgumentOf | PpiToken.php:1081-1083 | the argument of an emitted call `fn(…)` is recovered from the call text |
| Strings.Replace | PpiToken.php:55 | `str_replace` leaves unchanged any text that does not contain the needle's first character |
| Strings.ReplaceCharLength | PpiToken.php:55 | replacing a character by an m-character text grows the text by m - 1 for each occurrence |
| Strings.ReplaceRoundTrip | PpiToken.php:55 | replacing the inserted text back by the character restores the original, when the insertion begins or ends with that character |
| Strings.Split | PpiToken.php:525 | `explode` gives one item more than there are separators, no item contains the separator, and joining the items restores the text |
| Strings.SplitOfJoin | PpiToken.php:525-528 | `explode` undoes `implode` when no item contains the separator |
| Strings.JoinIndented | PpiToken.php:1011-1016 | joining with a line feed plus indentation equals joining with a bare line feed after indenting every item except the first |
| Strings.Trim | PpiToken.php:1151 | the trimmed text neither starts nor ends with a character from PHP's trim set |
| Strings.RTrim | PpiToken.php:474 | a prefix of the text whose removed tail consists only of trim characters, ending in a non-trim character |
| Strings.LTrim | PpiToken.php:1151 | a suffix of the text whose removed head consists only of trim characters, starting with a non-trim character |
| Strings.TrimPadded | PpiToken.php:1151 | trim removes exactly the padding around a core that does not begin or end with padding |
| Strings.CollapseKeepsVisible | PpiToken.php:1162-1163 | collapsing white-space runs keeps every other character, in order |
| Strings.CollapseShape | PpiToken.php:1162-1163 | after collapsing, the only white space left is single spaces |
| Strings.CollapseIdempotent | PpiToken.php:1162-1163 | collapsing twice is the same as collapsing once |
| Strings.CollapseFixed | PpiToken.php:1162-1163 | a text already made of single spaces is left unchanged |
| Strings.CollapseAppend | PpiToken.php:1162-1163 | collapsing distributes over a concatenation whose join point is not inside a white-space run |
| Strings.SplitAtLast | PpiToken.php:942-948 | the greedy `(.*)::(.*)` split rebuilds the text, splits at the last separator, and fails only when there is no separator |
| Strings.SplitAtLastColonFree | PpiToken.php:607-610 | when the part after a `::` holds no colon, that `::` is the split point |
| Strings.Lower | PpiToken.php:928 | `strtolower` keeps the length and lowers each character |
| Strings.UcFirst | PpiToken.php:954 | `ucfirst` upper-cases the first character and keeps the rest |
| Strings.Spaces | PpiToken.php:1009 | `str_repeat(' ', n)` is n spaces |
| Contexts.Classify | PpiToken.php:182-202 | the context rule fails exactly on an unknown cast; when it copies a neighbour's context, the result is one of the two neighbour contexts |
| Contexts.CommaAlwaysScalar | PpiToken.php:277-284 | a comma is scalar whatever surrounds it |
| Contexts.OperatorContexts | PpiToken.php:274-298 | `=` copies the left operand's context, `.` is string and chained, and every other non-comma operator is scalar and chained |
| Contexts.CastContexts | PpiToken.php:182-202 | `@` copies the previous element's context, `%` is hash, `\` is neutral, `$#` is scalar, and any other cast fails |
| Contexts.MyAndReturnContexts | PpiToken.php:663-688 | `my` is array exactly when a parenthesis follows; `return` is array exactly when its parenthesised group has a comma child |
| Contexts.FixedRulesIgnoreNeighbours | PpiToken.php:638-661 | every rule that does not look at its neighbours gives the same decision wherever the token stands |
| Contexts.DecisionSet | PpiToken.php:36-44 | a rule's decision is set whenever every context it may copy is set |
| Contexts.PrevNonWs | PpiToken.php:42 | finds the nearest earlier element that is not white space, with only white space in between |
| Contexts.RuleFrame | PpiToken.php:36-44 | whether a token's rule holds depends only on the contexts already given to the tokens before it |
| Contexts.InferRun | PpiToken.php:36-44 | the pass fails exactly when the run holds an unknown cast; otherwise every token satisfies its rule, every comma is scalar, and a run anchored at a set context leaves no token unset |
| Operators.StripModifiers | PpiToken.php:372 | removing the modifiers takes off exactly a run of word characters before an optional final line feed: the text is the result's body, that run and the kept line feed, and the body does not end in a word character |
| Operators.WordRunStart | PpiToken.php:372 | finds the start of the run of word characters that ends at a given position |
| Operators.ParenAssignAt | PpiToken.php:389-391 | a match of the `(\s*(\$\w+)\s*=` idiom gives a scalar name |
| Operators.ParenAssignTarget | PpiToken.php:389-391 | the target is the scalar of the leftmost position where the `(\s*(\$\w+)\s*=` idiom matches, with no match before it; when it matches nowhere there is no target |
| Operators.FirstAssign | PpiToken.php:389 | the leftmost position at or after a given start where the idiom matches, with no match between the start and it, or one past the end when there is none |
| Operators.WordOperatorTable | PpiToken.php:304-324 | the seven word operators map to `===`, `!==`, `<`, `>`, `!`, `&&` and `\|\|` |
| Operators.WordOperatorIgnoresSite | PpiToken.php:304-324 | a word operator's rewrite depends on its own text only |
| Operators.OtherOperatorsUnchanged | PpiToken.php:300-343 | an operator with no rule keeps its text |
| Operators.ArrowKeptBeforeWord | PpiToken.php:325-330 | `->` survives exactly when a word follows it, and is canceled otherwise |
| Operators.NegatedMatch | PpiToken.php:402-411 | `!~` on a match negates the `=~` result; on a substitution the negation is ignored |
| Operators.SubstitutionAssignsBack | PpiToken.php:366-400 | a substitution converts exactly when its body can be split; the result is `T = preg_replace(…)`, where `T` is the trimmed subject or the scalar of a parenthesised assignment in it, and the call's arguments read back as the single-quoted trimmed pattern, the single-quoted trimmed replacement and the trimmed subject |
| Operators.RegexMatchConverts | PpiToken.php:402-411 | a match always converts, into a `preg_match` call wrapped in `! (…)` for `!~`; the call's arguments read back as the trimmed pattern, then the trimmed subject |
| Operators.StrRepeatCall | PpiToken.php:420-428 | `x` always converts, and the `str_repeat` arguments are the two operands, untrimmed and in order |
| Operators.FileExistsCall | PpiToken.php:348-352 | `-e` always converts, and the `file_exists` argument is its right operand |
| Operators.RegexBind | PpiToken.php:354-415 | a match always converts; a substitution converts exactly when its body can be split at the delimiter |
| Operators.OperatorCode | PpiToken.php:300-343 | the operator is canceled exactly when it is `->` with no word after it; a word operator, `x` and `-e` are always rewritten, and so are `=~` and `!~` on a match |
| Symbols.Desigil | PpiToken.php:565-595 | `@` and `%` become `$`, `@ISA`/`@EXPORT` are commented out, `&` is removed, and every other name is kept |
| Symbols.SigilsMerge | PpiToken.php:565-619 | without a path, a scalar, an array and a hash of the same name meet in one PHP variable, and a function loses its `&` |
| Symbols.ExportListsCommentedOut | PpiToken.php:571-574 | `@ISA` and `@EXPORT` become the texts `//@ISA` and `//@EXPORT` before name conversion, and come out as exactly those comments when camel-casing leaves them alone |
| Symbols.SelfIsThis | PpiToken.php:621-624 | `$self`, `@self` and `%self` become `$this` |
| Symbols.QualifiedScalar | PpiToken.php:597-616 | `$Pkg::name` becomes the converted package path followed by `::$name` |
| Symbols.QualifiedName | PpiToken.php:597-619 | `Pkg::name` becomes the converted package path followed by `::name` |
| Symbols.ArrayIndexForms | PpiToken.php:69-81 | the array index fails exactly when the text does not start with `$#`; otherwise it is the count of the array minus one |
| Symbols.MagicPlaceholderRoundTrip | PpiToken.php:89-106 | a special variable becomes a placeholder from which the original text is recovered |
| Symbols.NoPathConcat | PpiToken.php:598 | two texts without `::` create one only where they are joined |
| Symbols.SymbolCode | PpiToken.php:560-631 | the result is never `$self`: the object reference always comes out as `$this` |
| Symbols.ArrayIndexCode | PpiToken.php:69-81 | the conversion fails exactly when the text does not start with `$#` |
| Symbols.MagicCode | PpiToken.php:89-106 | no contract of its own; MagicPlaceholderRoundTrip states that the placeholder comes out and gives the original text back |
| Quotes.DoubleQuoteFlagsOnly | PpiToken.php:49-60 | outside a sub, flagging only inserts a marker after each `$`, so removing the markers restores the string; inside a sub nothing changes |
| Quotes.RegexpRoundTrip | PpiToken.php:167-177 | the quoted regexp gives back its text, and it is longer by two quotes plus one backslash per quote |
| Quotes.LineEnd | PpiToken.php:524 | finds the end of the line that PCRE's `.` stops at |
| Quotes.LastClose | PpiToken.php:524 | finds the last `)` before the line end, where the greedy `(.*)\)` backtracks to |
| Quotes.QuoteEach | PpiToken.php:526-528 | quotes every item in single quotes, keeping the count and order |
| Quotes.QwBodyOfList | PpiToken.php:524 | the list text of a one-line `qw(…)` is what lies between the parentheses |
| Quotes.QwWords | PpiToken.php:521-533 | words separated by single spaces come out as one quoted item each |
| Quotes.QwPaddedAsWritten | PpiToken.php:524-528 | as written, each padding space inside the parentheses adds an empty item |
| Quotes.NonEmpty | PpiToken.php:525 | the filtered list holds no empty item |
| Quotes.NonEmptyKeeps | PpiToken.php:525 | a list without empty items passes the filter unchanged |
| Quotes.Empties | PpiToken.php:525 | n empty items |
| Quotes.PaddedJoin | PpiToken.php:525 | the padded list text is the words with one empty item per padding space |
| Quotes.QwFixedPadded | PpiToken.php:524-528 | with empty items dropped, any padding gives exactly the words |
| Quotes.InterpolateIsHeredoc | PpiToken.php:1283-1297 | the `qq` body becomes a heredoc around its unescaped text |
| Quotes.InterpolatePlain | PpiToken.php:1289-1293 | a body without backslashes is copied into the heredoc unchanged |
| Quotes.RegexpCode | PpiToken.php:167-177 | the result is a single-quoted string, and a literal without a quote appears between the quotes unchanged |
| Quotes.DoubleQuoteCode | PpiToken.php:49-60 | a string without `$` is left unchanged, inside a sub or not |
| Quotes.QwCode | PpiToken.php:521-533 | text the `qw\s*\((.*)\)` pattern does not match is kept; a match becomes an array literal `[ … ]` |
| Quotes.InterpolateCode | PpiToken.php:1283-1297 | no contract of its own; InterpolateIsHeredoc states that the result is the heredoc of the unescaped body |
| Numbers.NumberAt | PpiToken.php:144-161 | the number rule only cancels elements |
| Numbers.NumberOutcomes | PpiToken.php:150-158 | exactly on the top-level `number ; newline` pattern the three elements are canceled; elsewhere the stream is unchanged, and the rule fails only when the stream ends inside the pattern |
| Numbers.TrailerTextRemoved | PpiToken.php:150-158 | removing the trailer removes exactly its text, and the text before and after it renders as before |
| Numbers.NestedNumberKept | PpiToken.php:150-152 | a number below the top level, or not first in its statement, is never removed |
| Casts.Inner | PpiToken.php:225 | the block text without its first and last character |
| Casts.LastIndexIsCountMinusOne | PpiToken.php:238-240 | `$#` is the `@` count minus one, with the same follower edit, and both fail together |
| Casts.ScalarCountForms | PpiToken.php:216-236 | in scalar context a count fails exactly without a block or symbol after it; it counts the symbol, or the block's interior, and consumes it |
| Casts.ArrayContextDropsCast | PpiToken.php:242-259 | outside scalar context the cast vanishes, never fails, and a following block loses its braces or gets parentheses |
| Casts.OtherCastsMarked | PpiToken.php:263-265 | every other cast becomes a review comment from which it is recovered, and the follower is left alone |
| Casts.LastIndexAlwaysCounts | PpiToken.php:195-196 | the context rule makes `$#` scalar wherever it stands, so it always becomes a count |
| Casts.BracedScalarFound | PpiToken.php:252 | the braced-scalar test finds `{$name}` anywhere in the block text |
| Casts.EditFollower | PpiToken.php:220-259 | `Keep` leaves the follower as it is; both count edits and `DropBraces` cancel it; `DropBraces` and `Parenthesise` mark it converted, and `Parenthesise` sets its delimiters to `(` and `)` without canceling it; its class, text and context never change and nothing is un-canceled |
| Casts.CastCode | PpiToken.php:205-269 | the cast fails exactly when it is `@` or `$#` in scalar context with neither a block nor a symbol after it; outside scalar context those two casts vanish; the follower is edited only by those two casts with a block or symbol after them, and consumed only in scalar context |
| Words.HashKeysQuoted | PpiToken.php:706-720 | a word in hash-key position is quoted whatever it is, and quoting is idempotent |
| Words.NamesCamelCased | PpiToken.php:722-727 | a word that is not reserved is only camel-cased |
| Words.RenamedBuiltins | PpiToken.php:754-770 | a reserved word in a statement is renamed in place exactly when it is `unshift`, `push`, `length` or `elsif`, to `array_unshift`, `array_push`, `strlen` or `elseif` |
| Words.KilledWords | PpiToken.php:778-781 | `STDERR` and `local` are removed together with their white space |
| Words.UnruledKeywordKept | PpiToken.php:729-791 | a keyword in a statement keeps its text exactly when the switch has no rule for it; `return` is one |
| Words.ContextBuiltinsHaveRules | PpiToken.php:641-661 | every array-context builtin has a rule that produces a PHP array call, `preg_split`/`explode` or `unset`, and the string and scalar builtins map to their PHP names |
| Words.ConstructorIdiom | PpiToken.php:919-934 | `Pkg::new` after an `=`, in any letter case, becomes `new Pkg`; not after an `=` it keeps the converted path |
| Words.OnlyConstructorIdiomChanges | PpiToken.php:919-934 | the converted path is changed only after an `=` and when it ends in `\` and `new` in some letter case, and then into `new` and the class path |
| Words.WithArgForms | PpiToken.php:1067-1085 | with no argument the word is recovered from a placeholder; with a list it is kept; otherwise the trimmed argument is recovered from the call |
| Words.SplitChoosesExplode | PpiToken.php:1042-1062 | `explode` is chosen exactly for a quoted separator without pattern characters, and `preg_split` otherwise |
| Words.GotoAt | PpiToken.php:1244-1250 | `goto` renames only the label after it, and renames it the way a label is renamed |
| Words.LabelMatchesGoto | PpiToken.php:117-125 | a label and a `goto` naming it are renamed alike |
| Words.LoopControlAt | PpiToken.php:1255-1274 | `last`/`next` become `break`/`continue`, a word after them is commented out, and nothing else changes |
| Words.LoopLabelKept | PpiToken.php:1259-1261 | the commented-out label is recovered from the comment |
| Words.ForeachAt | PpiToken.php:1181-1211 | the foreach rule only rewrites and cancels |
| Words.ForeachShape | PpiToken.php:1181-1211 | the rule succeeds exactly on `foreach [my] $var (…)`; it cancels everything from `my` or the variable to the end of the list's subtree, leaves every other element unchanged, and the header names the list and the variable in PHP order |
| Words.Freeze | PpiToken.php:1228-1232 | marking elements converted leaves their text alone |
| Words.UseCommentsOutRest | PpiToken.php:1216-1237 | after `use Foo`, the rest of the statement up to the terminator is wrapped in `/*…*/` with its text unchanged and frozen, and nothing after it changes |
| Words.UsePlain | PpiToken.php:1222-1223 | `use Foo;` only renames the keyword |
| Words.KeywordRuleOf | PpiToken.php:729-791 | a word has no rule exactly when it is not one of the switch's cases, and the kill rule is exactly `STDERR` and `local` |
| Words.WordDispatch | PpiToken.php:697-798 | the package-path rule applies exactly to words holding `::`; only `STDERR` and `local` are killed; a keyword rule that reads neighbours runs only for a reserved word in a statement that the switch names |
| Words.QuoteBare | PpiToken.php:800-811 | the result starts with a quote; the word is kept exactly when it already starts with one, and otherwise it appears between single quotes |
| Words.PackageNameCode | PpiToken.php:919-934 | the helper's path is changed only after an `=`, and then into a `new` expression |
| Words.WithArgCode | PpiToken.php:1067-1085 | without an argument the word is recovered from the placeholder left in its place |
| Words.SplitCode | PpiToken.php:1042-1062 | the function is `explode` or `preg_split`, and `explode` only for a quoted operand |
| Words.LabelCode | PpiToken.php:117-125 | no label comes out as PHP's reserved `EXIT:`, and only `EXIT:` is changed |
| Words.UseAt | PpiToken.php:1216-1237 | the rule fails exactly when no terminator follows the module name; on success everything before the keyword is unchanged and the keyword reads `use` |
| Headers.Assignments | PpiToken.php:1015 | one `= null;` assignment per declared variable, in order |
| Headers.BuildDeclaration | PpiToken.php:1009-1017 | the string-building loop computes the declaration text |
| Headers.DeclarationLines | PpiToken.php:1009-1017 | read line by line, the declaration is the first assignment, then each further assignment after the indentation |
| Headers.MyOutcomes | PpiToken.php:968-1040 | outside a sub `my` always becomes `private`; a list is taken apart exactly when nothing initialises it; a bare single variable gets `= null` exactly when a terminator follows it |
| Headers.DropReceiver | PpiToken.php:902-905 | a leading `$self` or `$this` argument is dropped and nothing else |
| Headers.SubHeaderParams | PpiToken.php:909-910 | split at the commas, the parameter text of a named sub returns its arguments in order, without the receiver |
| Headers.ReceiverDropped | PpiToken.php:899-910 | a method's header is the header its other arguments give |
| Headers.NamespacedHeaderLines | PpiToken.php:942-955 | a qualified package gives a namespace line, a blank line, the class line for the part after the last `::`, and `{` |
| Headers.GlobalClassHeader | PpiToken.php:942-955 | an unqualified package is a class in the global namespace |
| Headers.EmptyNamespaceOmitted | PpiToken.php:951-953 | a package path that PHP's `empty` rejects (`""` or `"0"`) gets no namespace line |
| Headers.PackageAt | PpiToken.php:936-966 | the package rule only rewrites and cancels |
| Headers.NameAfter | PpiToken.php:941 | finds the first element after the keyword that is not white space |
| Headers.PackageHidesStatement | PpiToken.php:960-965 | after the keyword, nothing up to and including the terminator renders |
| Headers.PackageLeavesHeaderOnly | PpiToken.php:950-965 | the keyword becomes the class header, and everything before it and after the terminator is untouched |
| Headers.MyCode | PpiToken.php:968-1040 | `my` becomes `private` exactly outside a sub; a declaration is made only for a list with no initialiser, and it is the declaration text of the list's variables; the terminator is initialised only when no list follows and the element after next is `;` |
| Headers.SubHeader | PpiToken.php:813-915 | the rule fails exactly when the parent is neither a sub nor a variable statement; a named sub's parameter text is its arguments, receiver dropped, joined with `, ` |
| Headers.ClassHeader | PpiToken.php:942-955 | the header starts with the namespace line or the class line and ends with a line feed and the opening brace |
| Conditionals.NeedSwitchMeans | PpiToken.php:1096-1117 | the keyword is a statement modifier exactly when code before it is reached across skipped elements only |
| Conditionals.NeedSwitch | PpiToken.php:1096-1117 | no contract of its own; NeedSwitchMeans states when the backward scan finds code |
| Conditionals.StatementStartIsLone | PpiToken.php:1096-1117 | a keyword right after a terminator or block, with only white space between, opens its own statement |
| Conditionals.LoneAt | PpiToken.php:1119-1136 | the lone form only rewrites |
| Conditionals.LoneUnless | PpiToken.php:1119-1136 | a lone `unless` fails exactly without a condition group; on success it reads `if`, the group renders as the negation of its interior, and nothing else changes |
| Conditionals.LoneIfUnchanged | PpiToken.php:1119-1136 | any other lone keyword leaves the stream as it is |
| Conditionals.TrailStart | PpiToken.php:1151 | finds where the trailing white space begins |
| Conditionals.DropTerminator | PpiToken.php:1151 | the result is a prefix of the text |
| Conditionals.DropTerminatorTail | PpiToken.php:1151 | the removed tail is exactly a `;` followed by white space, and only such a tail is removed |
| Conditionals.ParenthesisedAsWritten | PpiToken.php:1152-1154 | as written, the condition is kept exactly when it starts with `(`, and is otherwise wrapped in one pair of parentheses; either way it starts with `(` |
| Conditionals.Parenthesised | PpiToken.php:1152-1154 | the corrected test (see Findings): the condition is kept exactly when it is already one parenthesised group, and is otherwise wrapped in one pair of parentheses |
| Conditionals.ParenthesisedEncloses | PpiToken.php:1152-1154 | a balanced condition ends up as one parenthesised group, and one that already is such a group is kept |
| Conditionals.OpenParenNotEnclosed | PpiToken.php:1152-1154 | as written, `($a) && $b` is left unwrapped and is not one group |
| Conditionals.TidyCondition | PpiToken.php:1151-1163 | on a condition with no padding and single spaces, followed by `;`, the parentheses test is the only step that changes it, as written and corrected |
| Conditionals.ModifierConditionAsWritten | PpiToken.php:1151-1163 | as written, a tidy condition that starts with `(` is taken over unchanged, so one that is not a single group, such as `($a) && $b`, stays not one group |
| Conditionals.ExampleTidy | PpiToken.php:1151-1163 | the condition of `$x = 1 if ($a) && $b;` has no padding and single spaces, so the two lemmas above apply to it |
| Conditionals.ModifierConditionFixed | PpiToken.php:1151-1163 | corrected, a balanced tidy condition always ends up as one group, wrapped exactly when it is not one already |
| Conditionals.CollapseAbsorbsLineFeeds | PpiToken.php:1158-1163 | turning line feeds into spaces first changes nothing once white space is collapsed |
| Conditionals.CollapsedOneLine | PpiToken.php:1158-1163 | a collapsed text has no line feed |
| Conditionals.UnlessNegatesIf | PpiToken.php:1155-1157 | the `unless` condition is `(! C)`, where C is the condition `if` would get, as written and corrected |
| Conditionals.ConditionText | PpiToken.php:1151-1163 | as written, the rebuilt condition holds no line feed |
| Conditionals.ConditionTextFixed | PpiToken.php:1151-1163 | the corrected condition holds no line feed either |
| Conditionals.NegationCollapse | PpiToken.php:1155-1163 | collapsing white space does not reach across the negation |
| Conditionals.PostfixLines | PpiToken.php:1165-1168 | the rebuilt statement is three lines: the `if`, the body indented one level deeper, and the closing brace |
| Conditionals.ConditionalAt | PpiToken.php:1091-1176 | the rule as written, with its own parentheses test, only rewrites and cancels |
| Conditionals.ConditionalFixed | PpiToken.php:1091-1176 | the rule with the corrected parentheses test only rewrites and cancels |
| Conditionals.Place | PpiToken.php:1144-1173 | the keyword takes the rebuilt text, the operands before and after it and a terminator after the condition are canceled, and nothing else changes |
| Conditionals.ModifierRebuilt | PpiToken.php:1139-1173 | a modifier inside a statement holds the rebuilt `if`, its terminator is canceled, and the stream renders as the text before the statement, the rebuilt `if`, then the text after the terminator |
| Conditionals.PlaceText | PpiToken.php:1144-1173 | rebuilding over a statement renders the stream with the whole statement replaced by the rebuilt text |
| Conditionals.ModifierOutsideStatement | PpiToken.php:1139-1141 | a modifier whose parent is not a statement is left alone |
| Banner.HashRun | PpiToken.php:446-447 | finds the end of the run of `#` |
| Banner.FramedText | PpiToken.php:472-479 | a framed `# text #` line yields its indentation, which is white space only, and its text, and the two rebuild the start of the line |
| Banner.LastFrameEnd | PpiToken.php:472-479 | the greedy `(.*)` takes the last frame end |
| Banner.RunFrom | PpiToken.php:452-498 | the loop keeps the stream length and stops at or after its start; a closed run stops at an element |
| Banner.RunMonotone | PpiToken.php:452-498 | the loop only rewrites and cancels |
| Banner.RunAfterStop | PpiToken.php:452-498 | everything after the element where the loop stopped is unchanged |
| Banner.RunBeforeStart | PpiToken.php:482-494 | everything before the two elements ahead of the loop's start is unchanged |
| Banner.RunPassed | PpiToken.php:452-458 | every element the loop passed over is a comment or a line feed |
| Banner.RunOpen | PpiToken.php:452-458 | an open run stopped at the first element that is neither a comment nor a line feed, changed nothing before its start, and kept the text at the stop |
| Banner.RunClosed | PpiToken.php:482-494 | a closed run ends on a closing line that now reads ` */` and is converted |
| Banner.RunKeepsEarlierContent | PpiToken.php:452-498 | the loop never changes the text of an element before its start |
| Banner.RunRewritesText | PpiToken.php:472-479 | every framed text line the loop passed over now reads the rewritten text the line classifier gives for it |
| Banner.CloseAt | PpiToken.php:482-494 | the closing line becomes ` */`, and only it and the two elements before it may change |
| Banner.StepFrame | PpiToken.php:461-479 | one step changes only its element and, for a blank first line, the line feed after it |
| Banner.BannerAt | PpiToken.php:439-508 | the comment rule only rewrites and cancels |
| Banner.ConvertedCommentKept | PpiToken.php:441 | a comment that is already converted is left exactly as it is, by the rule as written and by the corrected rule |
| Banner.PlainComment | PpiToken.php:441-442 | a comment not yet converted that opens no banner only has its `#` turned into `//` |
| Banner.ClosedBanner | PpiToken.php:482-494 | a closed banner ends in ` */` with nothing after it changed, and the as-written and corrected rules agree |
| Banner.BannerRewritesLines | PpiToken.php:442-503 | on any banner the rule succeeds unless the block is left open at the end of the document; the opening comment then reads `/**` and every framed text line of the block reads its rewritten text |
| Banner.UnclosedBannerAppends | PpiToken.php:500-503 | as written, on any input whose block is left open before some element, that element is no comment or line feed and gains the closing `\n */\n`, and nothing behind it changes |
| Banner.UnclosedBannerAsWritten | PpiToken.php:500-503 | as written, an unclosed block gets its closing text on the code element after it |
| Banner.UnclosedBannerNeverClosed | PpiToken.php:500-503 | as written, the shown text of an unclosed block is never closed |
| Banner.BannerFixed | PpiToken.php:439-508 | the corrected rule only rewrites and cancels |
| Banner.FixedClosesBeforeCode | PpiToken.php:500-503 | the corrected rule closes an open block on its last shown element, and the code after it keeps its text |
| Banner.FixedClosesShape | PpiToken.php:500-503 | on a banner line, one framed text line and code, the corrected rule appends `\n */\n` to the block's last line feed and leaves the code element as it was |
| Banner.UnclosedExampleShape | PpiToken.php:446-479 | `#####`, a line feed, `# text #`, a line feed and a code token form that shape, with ` * text` as the rewritten line |
| Banner.UnclosedExampleClosesCode | PpiToken.php:500-503 | as written, on `#####`, `# text #` and any code token, the code token's text gains `\n */\n` |
| Banner.UnclosedExampleOpen | PpiToken.php:500-503 | as written, on the same input the block shows `/**\n * text\n` and no closing |
| Banner.UnclosedExampleFixed | PpiToken.php:500-503 | corrected, on the same input the block shows `/**\n * text\n\n */\n` and the code token is unchanged |
| Banner.LastLive | PpiToken.php:500-503 | finds the last element of the block that is still shown |
| Banner.NameDropped | PpiToken.php:476-478 | the old `Name - description` convention loses the name and dash, and the description keeps the line's indentation |
| Banner.DropName | PpiToken.php:476-478 | dropping the name never lengthens the line and keeps its leading ` *` |
| Banner.LineOf | PpiToken.php:458-494 | a line feed is passed through, a rewritten text line starts with ` *`, and a closing line is a run of `#` followed by white space only |
| Banner.FramedLine | PpiToken.php:461-472 | a line `#W X#`, with W white space and X starting with a visible character and holding no line feed, is no blank line and yields W and X |
| Banner.FramedLineRewritten | PpiToken.php:472-479 | such a comment line is rewritten to ` *`, W and X without its trailing white space, less a leading `Name - ` |
| Banner.Step | PpiToken.php:461-479 | one step keeps the stream length; StepFrame states which elements it may change |
| Banner.LineShapes | PpiToken.php:461-494 | the three line shapes are recognised on the lines a banner is drawn with |
| Banner.BannerOpeners | PpiToken.php:446-447 | five `#` open a banner and four do not |

## Left out

- Tree navigation (`prev`, `next`, `parent`, siblings, `getNextNonWs`, `peekAhead`) lives in the element base class, which is not part of this model. A rule sees what it reads as parameters or as positions in the stream.
- Camel-casing, the package-name mapping, `isReservedWord`, `isWithinSub`, `getIndent`, `getLeftArg`/`getRightArg` and `getRecursiveContent` are base-class helpers, so they are parameters.
- `killContentAndWs` and `cancelAll` cancel a subtree whose extent depends on the tree, so they are results of the rules (`KillWithWs`, `CancelAll`) and are not applied to the stream.
- The delimiter split of a substitution (the look-behind regex at PpiToken.php:380-381) is a parameter, because its behaviour on escaped delimiters depends on PCRE backtracking.
- The discovery of a sub's arguments (PpiToken.php:826-896) walks statements of the tree. The argument list is a parameter, and only the header built from it is modelled.
- `preWs`, the leading white space an element keeps, is formatting and is not modelled. This includes the modifier rule copying the left operand's `preWs` to the keyword (PpiToken.php:1149).
- The extents of a modifier's operands come from `getLeftArg`/`getRightArg`, so they are positions in the site (`leftStart`, `after`). The rule cancels the elements between them, which is what absorbing the operands into the rebuilt statement does to the rendered text.
- `print` diagnostics and `exit` codes become `Failure` values with a message. The differing exit status of the unknown-cast path (`exit(0)`) is not kept.
- Once converted, the `qq` rule returns nothing. Its converted case is not modelled.
- `.` in the `(.*)::(.*)` splits is taken to match any character. The names it is applied to hold no line feed.
- `insertLeftText` is modelled as inserting a new, already converted element into the stream.
- Banner.RunOpen: states that the element where the loop stopped keeps its text, not its whole record. Its converted flag is not described.
- Banner.RunClosed: states the closing line's text and flag, not the blank line the step may remove before it. `CloseAt` states which elements may change.
- The banner loop is proved generic over its line classifier (`cls`). The classifier the rule uses is `LineOf`, and its regexes are modelled on the line shapes a banner is drawn with.
- `cvtFileExists` (PpiToken.php:348-352) returns nothing and does not call the base `genCode`, so in the program a `-e` operator is not marked converted and hands back no text to a caller that renders it through `genCode` (PpiToken.php:892, 1003). The model treats `-e` like the other rewrites: it takes its text and is marked converted.
- Characters are bytes: a Dafny `char` stands for one byte of the PHP string. `strtolower`, `ucfirst`, `trim` and the PCRE classes (used without `/u`) act on single bytes, and no multi-byte encoding is modelled.
- Numbers.NumberAt: `isSemicolon() == ';'` compares a boolean with a non-empty string in PHP, which is the boolean itself. The model uses the boolean.

## Findings

| source | as written | input that shows it | evidently intended | confidence | as-written member | corrected member |
|---|---|---|---|---|---|---|
| PpiToken.php:524-528 | `explode(' ', …)` on the text inside `qw( … )` turns every padding space into an empty item | `qw( a b )` becomes `[ '', 'a', 'b', '' ]` | one quoted item per word: `[ 'a', 'b' ]` | not executed | Quotes.QwPaddedAsWritten | Quotes.QwFixedPadded |
| PpiToken.php:500-503 | a block still open when the loop stops gets `\n */\n` appended to the element the loop stopped at, which is the code after the block | `#####`, `# text #`, `sub`: the closing text is appended to `sub`, and the doc comment itself is never closed | the closing text ends the block, before the code | not executed | Banner.UnclosedExampleClosesCode | Banner.FixedClosesBeforeCode |
| PpiToken.php:1152-1154 | a condition is wrapped in parentheses only when its first character is not `(`, so `($a) && $b` is left as it is | `$x = 1 if ($a) && $b;` gives `if ($a) && $b {` | the whole condition is one parenthesised group: `if (($a) && $b) {` | not executed | Conditionals.ModifierConditionAsWritten | Conditionals.ModifierConditionFixed |

=== FILE: banner.dfy ===
/** Comment tokens (`genCode` of the comment class): `#` becomes `//`, and
    a banner block — a line of five or more `#`, framed text lines, a line
    of `#` — becomes a PHPDoc comment `/** … */`. */
module Banner {
  import opened Wrappers
  import opened Strings
  import opened Tokens

  // ---------------------------------------------------------------------
  // The line patterns

  /** `preg_replace('/^#/', '//', …)` */
  function Hashless(c: string): string {
    if |c| > 0 && c[0] == '#' then "//" + c[1..] else c
  }

  /** The text before `$` matches: a final line feed may follow it. */
  function BeforeEnd(s: string): string {
    if |s| > 0 && s[|s| - 1] == '\n' then s[..|s| - 1] else s
  }

  /** `^#\s*#$`: an empty framed line. */
  predicate BlankLine(s: string) {
    var t := BeforeEnd(s);
    |t| >= 2 && t[0] == '#' && t[|t| - 1] == '#' && AllSpace(t[1..|t| - 1])
  }

  /** `^#+\s*$`: a line of `#` only, closing the banner. */
  predicate CloseLine(s: string) {
    |s| >= 1 && s[0] == '#' && AllSpace(s[HashRun(s, 0)..])
  }

  /** End of the run of `#` starting at `k`. */
  function HashRun(s: string, k: nat): (e: nat)
    requires k <= |s|
    ensures k <= e <= |s|
    ensures forall j :: k <= j < e ==> s[j] == '#'
    ensures e == |s| || s[e] != '#'
    decreases |s| - k
  {
    if k < |s| && s[k] == '#' then HashRun(s, k + 1) else k
  }

  /** Where the closing `#` of a framed line may sit in `rest`: a `#` with
      no line feed before it (`.` stops at a line feed) and only
      whitespace after it. */
  predicate FrameEnd(rest: string, p: nat) {
    p < |rest| && rest[p] == '#' && '\n' !in rest[..p] && AllSpace(rest[p + 1..])
  }

  /** The greedy `(.*)` takes the last such position below `k`. */
  function LastFrameEnd(rest: string, k: nat): (r: Option<nat>)
    requires k <= |rest|
    ensures r.Some? ==> r.value < k && FrameEnd(rest, r.value)
    ensures r.Some? ==> forall q: nat :: r.value < q < k ==> !FrameEnd(rest, q)
    ensures r.None? ==> forall q: nat :: q < k ==> !FrameEnd(rest, q)
    decreases k
  {
    if k == 0 then None
    else if FrameEnd(rest, k - 1) then Some(k - 1)
    else LastFrameEnd(rest, k - 1)
  }

  /** `^#(\s+)(.*)#\s*$`: the indentation W and the text X of a framed
      line. The whitespace run is maximal, as the greedy `\s+` leaves
      nothing `(.*)` could use. */
  function FramedText(s: string): (r: Option<(string, string)>)
    ensures r.Some? ==> |r.value.0| > 0 && AllSpace(r.value.0)
    ensures r.Some? ==> 1 + |r.value.0| + |r.value.1| < |s|
    ensures r.Some? ==> s[..1 + |r.value.0| + |r.value.1|] == "#" + r.value.0 + r.value.1
  {
    if |s| >= 1 && s[0] == '#' then
      var w := SpanSpace(s, 1);
      if w == 1 then None
      else
        var rest := s[w..];
        match LastFrameEnd(rest, |rest|)
        case None => None
        case Some(p) =>
          assert s[..w + p] == "#" + s[1..w] + rest[..p];
          Some((s[1..w], rest[..p]))
    else None
  }

  /** `preg_replace('/^(\s+\*\s+)\w+ - /', '\1', …)`: the old
      `Name - description` convention loses its `Name - `. */
  function DropName(c: string): (r: string)
    ensures |r| <= |c|
    ensures StartsWith(c, " *") ==> StartsWith(r, " *")
  {
    var a := SpanSpace(c, 0);
    if a == 0 || a == |c| || c[a] != '*' then c
    else
      var b := SpanSpace(c, a + 1);
      var e := SpanWord(c, b);
      if b == a + 1 || e == b || !StartsWith(c[e..], " - ") then c
      else c[..b] + c[e + 3..]
  }

  /** `^\s*\*\s*$`: a blank doc-comment line. */
  predicate StarOnly(s: string) {
    var k := SpanSpace(s, 0);
    k < |s| && s[k] == '*' && AllSpace(s[k + 1..])
  }

  /** How the loop treats one element of the block. */
  datatype Line =
    | PassLine                 // line feeds and comments matching no pattern
    | Blank
    | TextLine(text: string)   // the rewritten text line
    | Close

  function LineOf(n: Node): (r: Line)
    ensures n.kind.Newline? ==> r.PassLine?
    ensures r.TextLine? ==> StartsWith(r.text, " *")
    ensures r.Close? ==> CloseLine(n.content)
  {
    if n.kind.Newline? then PassLine
    else if BlankLine(n.content) then Blank
    else match FramedText(n.content)
      case Some((w, x)) =>
        var c := " *" + w + RTrim(x);
        assert c[..2] == " *";
        TextLine(DropName(c))
      case None => if CloseLine(n.content) then Close else PassLine
  }

  /** A framed line `#W X#`, with W white space and X starting with a
      visible character and holding no line feed, yields W and X. */
  lemma FramedLine(w: string, x: string)
    requires |w| > 0 && AllSpace(w)
    requires |x| > 0 && !IsSpace(x[0]) && '\n' !in x
    ensures FramedText("#" + w + x + "#") == Some((w, x))
    ensures !BlankLine("#" + w + x + "#")
  {
    var s := "#" + w + x + "#";
    var e := SpanSpace(s, 1);
    assert s[1 + |w|] == x[0];
    assert forall k :: 1 <= k < 1 + |w| ==> s[k] == w[k - 1];
    assert e == 1 + |w|;
    var rest := s[e..];
    assert rest == x + "#";
    assert rest[..|x|] == x;
    assert FrameEnd(rest, |x|);
    assert s[1..e] == w;
    assert BeforeEnd(s) == s;
    assert s[1..|s| - 1][|w|] == x[0];
  }

  /** So a comment holding a framed line becomes ` *`, the indentation and
      the text with its trailing white space removed, less a leading
      `Name - `. */
  lemma FramedLineRewritten(n: Node, w: string, x: string)
    requires !n.kind.Newline? && n.content == "#" + w + x + "#"
    requires |w| > 0 && AllSpace(w)
    requires |x| > 0 && !IsSpace(x[0]) && '\n' !in x
    ensures LineOf(n) == TextLine(DropName(" *" + w + RTrim(x)))
  {
    FramedLine(w, x);
  }

  /** The classifier looks at an element's class and text only. */
  lemma LineOfByText(a: Node, b: Node)
    requires a.kind == b.kind && a.content == b.content
    ensures LineOf(a) == LineOf(b)
  {
  }

  // ---------------------------------------------------------------------
  // The loop

  /** Where the loop stopped: the stream, the element it stopped at and
      whether the block is still open. */
  datatype Run = Run(nodes: seq<Node>, stop: nat, open: bool)

  function Rewrite(n: Node, text: string): Node {
    n.(content := text, converted := true)
  }

  /** The loop of the comment rule from element `j` on; `first` holds
      while no text line has been seen and `cls` tells the lines apart (the
      rule passes LineOf; the facts about the loop below hold for any
      classifier). The loop stops before code or at a closing line;
      every other line is rewritten by Step. A blank line right after the
      top is removed with its line feed, so a missing line feed there stops
      the conversion. */
  function RunFrom(t: seq<Node>, j: nat, first: bool, cls: Node -> Line): (r: Result<Run, string>)
    requires j <= |t|
    ensures r.Success? ==> |r.value.nodes| == |t| && j <= r.value.stop <= |t|
    ensures r.Success? && !r.value.open ==> r.value.stop < |t|
    decreases |t| - j
  {
    if j == |t| || !(t[j].kind.Comment? || t[j].kind.Newline?) then Success(Run(t, j, true))
    else if cls(t[j]).Close? then Success(CloseAt(t, j))
    else if cls(t[j]).Blank? && first && j + 1 == |t| then Failure("banner blank line without a line feed")
    else RunFrom(Step(t, j, first, cls), j + 1, StepFirst(t, j, first, cls), cls)
  }

  /** The closing line ends the doc comment; a blank doc line just before
      it goes, with its line feed. */
  function CloseAt(t: seq<Node>, j: nat): (r: Run)
    requires j < |t|
    ensures |r.nodes| == |t| && r.stop == j && !r.open
    ensures r.nodes[j] == Rewrite(t[j], " */")
    ensures forall k :: 0 <= k < |t| && k != j && k + 1 != j && k + 2 != j ==> r.nodes[k] == t[k]
  {
    var u := t[j := Rewrite(t[j], " */")];
    if j >= 2 && StarOnly(t[j - 2].content) then Run(CancelRange(u, j - 2, j), j, false)
    else Run(u, j, false)
  }

  /** The stream the loop continues on after element `j`, when it
      continues. */
  function Step(t: seq<Node>, j: nat, first: bool, cls: Node -> Line): (u: seq<Node>)
    requires j < |t|
    ensures |u| == |t|
  {
    match cls(t[j])
    case Blank => if !first then t[j := Rewrite(t[j], " *")] else CancelRange(t, j, j + 2)
    case TextLine(x) => t[j := Rewrite(t[j], x)]
    case _ => t
  }

  /** The loop only rewrites and cancels: kinds stay and canceled
      elements stay canceled. */
  lemma {:induction false} RunMonotone(t: seq<Node>, j: nat, first: bool, cls: Node -> Line)
    requires j <= |t| && RunFrom(t, j, first, cls).Success?
    ensures Monotone(t, RunFrom(t, j, first, cls).value.nodes)
    decreases |t| - j
  {
    if j < |t| && (t[j].kind.Comment? || t[j].kind.Newline?) && !cls(t[j]).Close? {
      var u, f := Step(t, j, first, cls), StepFirst(t, j, first, cls);
      assert RunFrom(t, j, first, cls) == RunFrom(u, j + 1, f, cls);
      StepMonotone(t, j, first, cls);
      RunMonotone(u, j + 1, f, cls);
      MonotoneTransitive(t, u, RunFrom(u, j + 1, f, cls).value.nodes);
    } else if j < |t| && (t[j].kind.Comment? || t[j].kind.Newline?) {
      assert RunFrom(t, j, first, cls) == Success(CloseAt(t, j));
      CloseMonotone(t, j);
    }
  }

  lemma StepMonotone(t: seq<Node>, j: nat, first: bool, cls: Node -> Line)
    requires j < |t|
    ensures Monotone(t, Step(t, j, first, cls))
  {
  }

  lemma CloseMonotone(t: seq<Node>, j: nat)
    requires j < |t|
    ensures Monotone(t, CloseAt(t, j).nodes)
  {
  }

  /** The loop's flag after element `j`. */
  function StepFirst(t: seq<Node>, j: nat, first: bool, cls: Node -> Line): bool
    requires j < |t|
  {
    if cls(t[j]).TextLine? then false else first
  }

  /** One step of the loop: it stops, or continues on Step. */
  lemma Unroll(t: seq<Node>, j: nat, first: bool, cls: Node -> Line)
    requires j < |t| && (t[j].kind.Comment? || t[j].kind.Newline?)
    requires !cls(t[j]).Close? && !(cls(t[j]).Blank? && first && j + 1 == |t|)
    ensures RunFrom(t, j, first, cls) == RunFrom(Step(t, j, first, cls), j + 1, StepFirst(t, j, first, cls), cls)
  {
  }

  /** A run that ends open went past its first element. */
  lemma UnrollOpen(t: seq<Node>, j: nat, first: bool, cls: Node -> Line)
    requires j < |t| && (t[j].kind.Comment? || t[j].kind.Newline?)
    requires RunFrom(t, j, first, cls).Success? && RunFrom(t, j, first, cls).value.open
    ensures RunFrom(t, j, first, cls) == RunFrom(Step(t, j, first, cls), j + 1, StepFirst(t, j, first, cls), cls)
  {
    Unroll(t, j, first, cls);
  }

  /** A step changes the element it is at and, for a blank line at the
      top, the line feed after it; nothing else. */
  lemma StepFrame(t: seq<Node>, j: nat, first: bool, cls: Node -> Line)
    requires j < |t|
    ensures forall k :: 0 <= k < |t| && k != j && k != j + 1 ==> Step(t, j, first, cls)[k] == t[k]
    ensures forall k :: 0 <= k < |t| && k != j ==> Step(t, j, first, cls)[k].content == t[k].content
  {
  }

  /** What the loop leaves alone: everything after the element it stopped
      at. */
  lemma {:induction false} RunAfterStop(t: seq<Node>, j: nat, first: bool, cls: Node -> Line)
    requires j <= |t| && RunFrom(t, j, first, cls).Success?
    ensures var r := RunFrom(t, j, first, cls).value;
      forall k :: r.stop < k < |t| ==> r.nodes[k] == t[k]
    decreases |t| - j
  {
    if j < |t| && (t[j].kind.Comment? || t[j].kind.Newline?) && !cls(t[j]).Close? {
      var u, f := Step(t, j, first, cls), StepFirst(t, j, first, cls);
      assert RunFrom(t, j, first, cls) == RunFrom(u, j + 1, f, cls) by {
        Unroll(t, j, first, cls);
      }
      StepFrame(t, j, first, cls);
      RunAfterStop(u, j + 1, f, cls);
    }
  }

  /** ... and everything before the two elements ahead of its start. */
  lemma {:induction false} RunBeforeStart(t: seq<Node>, j: nat, first: bool, cls: Node -> Line)
    requires j <= |t| && RunFrom(t, j, first, cls).Success?
    ensures var r := RunFrom(t, j, first, cls).value;
      forall k :: 0 <= k < j - 2 ==> r.nodes[k] == t[k]
    decreases |t| - j
  {
    if j < |t| && (t[j].kind.Comment? || t[j].kind.Newline?) {
      if cls(t[j]).Close? {
        assert RunFrom(t, j, first, cls) == Success(CloseAt(t, j));
      } else {
        var u, f := Step(t, j, first, cls), StepFirst(t, j, first, cls);
        assert RunFrom(t, j, first, cls) == RunFrom(u, j + 1, f, cls) by {
          Unroll(t, j, first, cls);
        }
        StepFrame(t, j, first, cls);
        RunBeforeStart(u, j + 1, f, cls);
      }
    }
  }

  /** The elements the loop passed over are comments and line feeds. */
  lemma {:induction false} RunPassed(t: seq<Node>, j: nat, first: bool, cls: Node -> Line)
    requires j <= |t| && RunFrom(t, j, first, cls).Success?
    ensures var r := RunFrom(t, j, first, cls).value;
      forall k :: j <= k < r.stop ==> t[k].kind.Comment? || t[k].kind.Newline?
    decreases |t| - j
  {
    if j < |t| && (t[j].kind.Comment? || t[j].kind.Newline?) && !cls(t[j]).Close? {
      var u, f := Step(t, j, first, cls), StepFirst(t, j, first, cls);
      assert RunFrom(t, j, first, cls) == RunFrom(u, j + 1, f, cls) by {
        Unroll(t, j, first, cls);
      }
      RunPassed(u, j + 1, f, cls);
      var stop := RunFrom(u, j + 1, f, cls).value.stop;
      forall k | j <= k < stop ensures t[k].kind.Comment? || t[k].kind.Newline? {
        if k > j {
          assert u[k].kind == t[k].kind;
        }
      }
    } else if j < |t| && (t[j].kind.Comment? || t[j].kind.Newline?) {
      assert RunFrom(t, j, first, cls).value.stop == j by {
        assert RunFrom(t, j, first, cls) == Success(CloseAt(t, j));
      }
    } else {
      assert RunFrom(t, j, first, cls) == Success(Run(t, j, true));
    }
  }

  /** A block left open: the loop stopped at the first element that is
      neither a comment nor a line feed (or at the end), nothing before its
      start changed, and the element it stopped at keeps its text. */
  lemma {:induction false} RunOpen(t: seq<Node>, j: nat, first: bool, cls: Node -> Line)
    requires j <= |t| && RunFrom(t, j, first, cls).Success? && RunFrom(t, j, first, cls).value.open
    ensures var r := RunFrom(t, j, first, cls).value;
      && (r.stop == |t| || !(t[r.stop].kind.Comment? || t[r.stop].kind.Newline?))
      && (forall k :: 0 <= k < j ==> r.nodes[k] == t[k])
      && (r.stop < |t| ==> r.nodes[r.stop].content == t[r.stop].content)
    decreases |t| - j
  {
    if j < |t| && (t[j].kind.Comment? || t[j].kind.Newline?) {
      var u, f := Step(t, j, first, cls), StepFirst(t, j, first, cls);
      UnrollOpen(t, j, first, cls);
      RunOpen(u, j + 1, f, cls);
      var r := RunFrom(u, j + 1, f, cls).value;
      StepFrame(t, j, first, cls);
      OpenStepCarry(t, u, j, r.nodes, r.stop);
    } else {
      assert RunFrom(t, j, first, cls) == Success(Run(t, j, true));
    }
  }

  /** The facts RunOpen states, carried back over one step of the loop. */
  lemma OpenStepCarry(t: seq<Node>, u: seq<Node>, j: nat, nodes: seq<Node>, stop: nat)
    requires Monotone(t, u) && |nodes| == |t| && j < stop <= |t|
    requires stop == |t| || !(u[stop].kind.Comment? || u[stop].kind.Newline?)
    requires forall k :: 0 <= k < j + 1 ==> nodes[k] == u[k]
    requires stop < |t| ==> nodes[stop].content == u[stop].content
    requires forall k :: 0 <= k < |t| && k != j && k != j + 1 ==> u[k] == t[k]
    requires forall k :: 0 <= k < |t| && k != j ==> u[k].content == t[k].content
    ensures stop == |t| || !(t[stop].kind.Comment? || t[stop].kind.Newline?)
    ensures forall k :: 0 <= k < j ==> nodes[k] == t[k]
    ensures stop < |t| ==> nodes[stop].content == t[stop].content
  {
  }

  /** A closed block ends on a closing line, whose text now ends the doc
      comment. */
  lemma {:induction false} RunClosed(t: seq<Node>, j: nat, first: bool, cls: Node -> Line)
    requires j <= |t| && RunFrom(t, j, first, cls).Success? && !RunFrom(t, j, first, cls).value.open
    ensures var r := RunFrom(t, j, first, cls).value;
      r.nodes[r.stop].content == " */" && r.nodes[r.stop].converted
    decreases |t| - j
  {
    if cls(t[j]).Close? {
      assert RunFrom(t, j, first, cls) == Success(CloseAt(t, j));
    } else {
      var u, f := Step(t, j, first, cls), StepFirst(t, j, first, cls);
      assert RunFrom(t, j, first, cls) == RunFrom(u, j + 1, f, cls) by {
        Unroll(t, j, first, cls);
      }
      RunClosed(u, j + 1, f, cls);
    }
  }

  /** The loop never changes the text of the elements before its start:
      steps act at or after it, and the closing line only cancels the two
      elements before it. */
  lemma {:induction false} RunKeepsEarlierContent(t: seq<Node>, j: nat, first: bool, cls: Node -> Line)
    requires j <= |t| && RunFrom(t, j, first, cls).Success?
    ensures var r := RunFrom(t, j, first, cls).value;
      forall k :: 0 <= k < j ==> r.nodes[k].content == t[k].content
    decreases |t| - j
  {
    if j < |t| && (t[j].kind.Comment? || t[j].kind.Newline?) {
      if cls(t[j]).Close? {
        assert RunFrom(t, j, first, cls) == Success(CloseAt(t, j));
        CloseAtContent(t, j);
      } else {
        var u, f := Step(t, j, first, cls), StepFirst(t, j, first, cls);
        assert RunFrom(t, j, first, cls) == RunFrom(u, j + 1, f, cls) by {
          Unroll(t, j, first, cls);
        }
        StepFrame(t, j, first, cls);
        RunKeepsEarlierContent(u, j + 1, f, cls);
      }
    } else {
      assert RunFrom(t, j, first, cls) == Success(Run(t, j, true));
    }
  }

  /** Closing a block changes the text of the closing line only. */
  lemma CloseAtContent(t: seq<Node>, j: nat)
    requires j < |t|
    ensures forall k :: 0 <= k < |t| && k != j ==> CloseAt(t, j).nodes[k].content == t[k].content
  {
  }

  /** Every framed text line the loop passed over now reads the rewritten
      text the classifier gives for it. */
  lemma {:induction false} RunRewritesText(t: seq<Node>, j: nat, first: bool)
    requires j <= |t| && RunFrom(t, j, first, LineOf).Success?
    ensures var r := RunFrom(t, j, first, LineOf).value;
      forall k :: j <= k < r.stop && LineOf(t[k]).TextLine? ==> r.nodes[k].content == LineOf(t[k]).text
    decreases |t| - j
  {
    if j < |t| && (t[j].kind.Comment? || t[j].kind.Newline?) {
      if LineOf(t[j]).Close? {
        assert RunFrom(t, j, first, LineOf) == Success(CloseAt(t, j));
      } else {
        var u, f := Step(t, j, first, LineOf), StepFirst(t, j, first, LineOf);
        assert RunFrom(t, j, first, LineOf) == RunFrom(u, j + 1, f, LineOf) by {
          Unroll(t, j, first, LineOf);
        }
        StepFrame(t, j, first, LineOf);
        StepMonotone(t, j, first, LineOf);
        assert LineOf(t[j]).TextLine? ==> u[j].content == LineOf(t[j]).text;
        RunRewritesText(u, j + 1, f);
        RunKeepsEarlierContent(u, j + 1, f, LineOf);
        var r := RunFrom(u, j + 1, f, LineOf).value;
        RewriteStepCarry(t, u, j, r.nodes, r.stop);
      }
    } else {
      assert RunFrom(t, j, first, LineOf) == Success(Run(t, j, true));
    }
  }

  /** The text that closes a block left open. */
  const Closing: string := "\n */\n"

  /** Whether the first comment starts a banner once `#` is `//`. */
  predicate OpensBanner(c: string) {
    StartsWith(Hashless(c), "//####")
  }

  /** `genCode` of the comment class at element `i`, as written: a
      converted comment is left alone; otherwise a block
      left open gets its closing text on the element after the block, and
      the conversion stops when there is none. */
  function BannerAt(s: seq<Node>, i: nat): (r: Result<seq<Node>, string>)
    requires i < |s|
    ensures r.Success? ==> Monotone(s, r.value)
  {
    if s[i].converted then Success(s)
    else if !OpensBanner(s[i].content) then Success(SetContentAt(s, i, Hashless(s[i].content)))
    else
      var t := SetContentAt(s, i, "/**");
      match RunFrom(t, i + 1, true, LineOf)
      case Failure(e) => Failure(e)
      case Success(run) =>
        RunMonotone(t, i + 1, true, LineOf);
        MonotoneTransitive(s, t, run.nodes);
        if !run.open then Success(run.nodes)
        else if run.stop < |s| then
          var v := SetContentAt(run.nodes, run.stop, run.nodes[run.stop].content + Closing);
          MonotoneTransitive(s, run.nodes, v);
          Success(v)
        else Failure("unclosed banner at the end of the document")
  }

  /** The last element in [lo, hi) that is not canceled, or `lo`. */
  function LastLive(u: seq<Node>, lo: nat, hi: nat): (k: nat)
    requires lo < hi <= |u|
    ensures lo <= k < hi
    ensures forall q :: k < q < hi ==> u[q].canceled
    ensures k > lo ==> !u[k].canceled
    decreases hi
  {
    if hi - 1 == lo || !u[hi - 1].canceled then hi - 1 else LastLive(u, lo, hi - 1)
  }

  /** The corrected closing step on its own. */
  function CloseOpen(u: seq<Node>, i: nat, stop: nat): seq<Node>
    requires i < stop <= |u|
  {
    var k := LastLive(u, i, stop);
    SetContentAt(u, k, u[k].content + Closing)
  }

  /** The comment rule with the block closed on its own last line (a
      converted comment is again left alone): the
      closing text goes to the last element of the block that is still
      shown (the opening line at the latest), and the code after the block
      is left alone. */
  function BannerFixed(s: seq<Node>, i: nat): (r: Result<seq<Node>, string>)
    requires i < |s|
    ensures r.Success? ==> Monotone(s, r.value)
  {
    if s[i].converted then Success(s)
    else if !OpensBanner(s[i].content) then Success(SetContentAt(s, i, Hashless(s[i].content)))
    else
      var t := SetContentAt(s, i, "/**");
      match RunFrom(t, i + 1, true, LineOf)
      case Failure(e) => Failure(e)
      case Success(run) =>
        RunMonotone(t, i + 1, true, LineOf);
        MonotoneTransitive(s, t, run.nodes);
        if !run.open then Success(run.nodes)
        else Success(CloseOpen(run.nodes, i, run.stop))
  }

  // ---------------------------------------------------------------------
  // Properties

  /** A comment already converted by another rule (the frozen list of a
      `use constant`, say) is left exactly as it is, by both rules, even
      when its text would open a banner. */
  lemma ConvertedCommentKept(s: seq<Node>, i: nat)
    requires i < |s| && s[i].converted
    ensures BannerAt(s, i) == Success(s) && BannerFixed(s, i) == Success(s)
  {
  }

  /** A comment that does not open a banner only has its `#` turned into
      `//`, and the rest of the stream is untouched. */
  lemma PlainComment(s: seq<Node>, i: nat)
    requires i < |s| && !s[i].converted && !OpensBanner(s[i].content)
    ensures BannerAt(s, i).Success?
    ensures BannerAt(s, i).value[i].content ==
      (if |s[i].content| > 0 && s[i].content[0] == '#' then "//" + s[i].content[1..] else s[i].content)
    ensures forall k :: 0 <= k < |s| && k != i ==> BannerAt(s, i).value[k] == s[k]
  {
  }

  /** A banner that is closed: the closing line ends the doc comment and
      nothing after it changes; the as-written and the corrected rule
      agree. */
  lemma ClosedBanner(s: seq<Node>, i: nat)
    requires i < |s| && !s[i].converted && OpensBanner(s[i].content)
    requires RunFrom(SetContentAt(s, i, "/**"), i + 1, true, LineOf).Success?
    requires !RunFrom(SetContentAt(s, i, "/**"), i + 1, true, LineOf).value.open
    ensures BannerAt(s, i) == BannerFixed(s, i)
    ensures var run := RunFrom(SetContentAt(s, i, "/**"), i + 1, true, LineOf).value;
      && BannerAt(s, i).Success?
      && BannerAt(s, i).value[run.stop].content == " */"
      && BannerAt(s, i).value[run.stop + 1..] == s[run.stop + 1..]
  {
    var t := SetContentAt(s, i, "/**");
    RunClosed(t, i + 1, true, LineOf);
    RunAfterStop(t, i + 1, true, LineOf);
  }

  /** The facts RunRewritesText states, carried back over one step of the
      loop. */
  lemma RewriteStepCarry(t: seq<Node>, u: seq<Node>, j: nat, nodes: seq<Node>, stop: nat)
    requires |u| == |t| && |nodes| == |t| && j < stop <= |t|
    requires LineOf(t[j]).TextLine? ==> u[j].content == LineOf(t[j]).text
    requires forall k :: 0 <= k < |t| && k != j ==> u[k].content == t[k].content
    requires forall k :: 0 <= k < |t| ==> u[k].kind == t[k].kind
    requires forall k :: 0 <= k < j + 1 ==> nodes[k].content == u[k].content
    requires forall k :: j + 1 <= k < stop && LineOf(u[k]).TextLine? ==> nodes[k].content == LineOf(u[k]).text
    ensures forall k :: j <= k < stop && LineOf(t[k]).TextLine? ==> nodes[k].content == LineOf(t[k]).text
  {
    forall k | j < k < stop
      ensures LineOf(u[k]) == LineOf(t[k])
    {
      LineOfByText(u[k], t[k]);
    }
  }

  /** A banner, whatever follows it: the rule succeeds unless the block is
      left open at the end of the document; the opening comment then reads
      the doc-comment opener, and every framed text line of the block reads its rewritten
      text. */
  lemma BannerRewritesLines(s: seq<Node>, i: nat)
    requires i < |s| && !s[i].converted && OpensBanner(s[i].content)
    requires RunFrom(SetContentAt(s, i, "/**"), i + 1, true, LineOf).Success?
    ensures var run := RunFrom(SetContentAt(s, i, "/**"), i + 1, true, LineOf).value;
      BannerAt(s, i).Success? <==> !run.open || run.stop < |s|
    ensures var run := RunFrom(SetContentAt(s, i, "/**"), i + 1, true, LineOf).value;
      BannerAt(s, i).Success? ==>
        && BannerAt(s, i).value[i].content == "/**"
        && forall k :: i < k < run.stop && LineOf(s[k]).TextLine? ==>
             BannerAt(s, i).value[k].content == LineOf(s[k]).text
  {
    var t := SetContentAt(s, i, "/**");
    var run := RunFrom(t, i + 1, true, LineOf).value;
    RunKeepsEarlierContent(t, i + 1, true, LineOf);
    RunRewritesText(t, i + 1, true);
    assert forall k :: i < k < |s| ==> t[k] == s[k];
  }

  /** As written, a block left open before some element gets its closing
      text appended to that element, the first one after the block, and
      nothing behind it changes: this is the finding on lines 500-503 for
      every input. */
  lemma UnclosedBannerAppends(s: seq<Node>, i: nat)
    requires i < |s| && !s[i].converted && OpensBanner(s[i].content)
    requires RunFrom(SetContentAt(s, i, "/**"), i + 1, true, LineOf).Success?
    requires RunFrom(SetContentAt(s, i, "/**"), i + 1, true, LineOf).value.open
    requires RunFrom(SetContentAt(s, i, "/**"), i + 1, true, LineOf).value.stop < |s|
    ensures var run := RunFrom(SetContentAt(s, i, "/**"), i + 1, true, LineOf).value;
      && BannerAt(s, i).Success?
      && !(s[run.stop].kind.Comment? || s[run.stop].kind.Newline?)
      && BannerAt(s, i).value[run.stop].content == s[run.stop].content + Closing
      && forall k :: run.stop < k < |s| ==> BannerAt(s, i).value[k] == s[k]
  {
    var t := SetContentAt(s, i, "/**");
    OpenRunFacts(t, i, LineOf);
    RunOpen(t, i + 1, true, LineOf);
  }

  /** The corrected rule closes a block left open before the code that
      follows it: the shown text of the block gains the closing text at its
      end, and the element after the block and everything behind it keep
      their text. */
  lemma FixedClosesBeforeCode(s: seq<Node>, i: nat)
    requires i < |s| && !s[i].converted && OpensBanner(s[i].content) && !s[i].canceled
    requires RunFrom(SetContentAt(s, i, "/**"), i + 1, true, LineOf).Success?
    requires RunFrom(SetContentAt(s, i, "/**"), i + 1, true, LineOf).value.open
    ensures var run := RunFrom(SetContentAt(s, i, "/**"), i + 1, true, LineOf).value;
      && BannerFixed(s, i).Success?
      && Text(BannerFixed(s, i).value[i..run.stop]) == Text(run.nodes[i..run.stop]) + Closing
      && (forall q :: run.stop <= q < |s| ==> BannerFixed(s, i).value[q].content == s[q].content)
      && (forall q :: run.stop < q < |s| ==> BannerFixed(s, i).value[q] == s[q])
  {
    var t := SetContentAt(s, i, "/**");
    var run := RunFrom(t, i + 1, true, LineOf).value;
    assert BannerFixed(s, i) == Success(CloseOpen(run.nodes, i, run.stop));
    OpenRunFacts(t, i, LineOf);
    OpenRunClosed(s, t, i, run.nodes, run.stop);
  }

  /** What the loop guarantees about a block it leaves open, for any line
      classifier: the opening element and everything after the stop are
      unchanged, and so is the text of the element at the stop. */
  lemma OpenRunFacts(t: seq<Node>, i: nat, cls: Node -> Line)
    requires i < |t| && RunFrom(t, i + 1, true, cls).Success? && RunFrom(t, i + 1, true, cls).value.open
    ensures var run := RunFrom(t, i + 1, true, cls).value;
      && |run.nodes| == |t| && i < run.stop <= |t|
      && run.nodes[i] == t[i]
      && (run.stop < |t| ==> run.nodes[run.stop].content == t[run.stop].content)
      && (forall q :: run.stop < q < |t| ==> run.nodes[q] == t[q])
  {
    RunOpen(t, i + 1, true, cls);
    RunAfterStop(t, i + 1, true, cls);
  }

  /** The corrected closing step on the loop's result. */
  lemma OpenRunClosed(s: seq<Node>, t: seq<Node>, i: nat, u: seq<Node>, stop: nat)
    requires i < |s| && !s[i].canceled && t == SetContentAt(s, i, "/**")
    requires |u| == |s| && i < stop <= |s| && u[i] == t[i]
    requires stop < |s| ==> u[stop].content == t[stop].content
    requires forall q :: stop < q < |s| ==> u[q] == t[q]
    ensures Text(CloseOpen(u, i, stop)[i..stop]) == Text(u[i..stop]) + Closing
    ensures forall q :: stop <= q < |s| ==> CloseOpen(u, i, stop)[q].content == s[q].content
    ensures forall q :: stop < q < |s| ==> CloseOpen(u, i, stop)[q] == s[q]
  {
    var v := CloseOpen(u, i, stop);
    assert Text(v[i..stop]) == Text(u[i..stop]) + Closing
        && forall q :: 0 <= q < |u| && (q < i || q >= stop) ==> v[q] == u[q] by {
      CloseOpenText(u, i, stop);
    }
    CarryAfterStop(s, t, u, v, i, stop);
  }

  /** The facts about the three stages combine into facts about the
      result. */
  lemma CarryAfterStop(s: seq<Node>, t: seq<Node>, u: seq<Node>, v: seq<Node>, i: nat, stop: nat)
    requires |t| == |s| && |u| == |s| && |v| == |s| && i < stop <= |s|
    requires forall q :: 0 <= q < |s| && q != i ==> t[q] == s[q]
    requires stop < |s| ==> u[stop].content == t[stop].content
    requires forall q :: stop < q < |s| ==> u[q] == t[q]
    requires forall q :: 0 <= q < |u| && (q < i || q >= stop) ==> v[q] == u[q]
    ensures forall q :: stop <= q < |s| ==> v[q].content == s[q].content
    ensures forall q :: stop < q < |s| ==> v[q] == s[q]
  {
  }

  lemma CloseOpenText(u: seq<Node>, i: nat, stop: nat)
    requires i < stop <= |u| && !u[i].canceled
    ensures Text(CloseOpen(u, i, stop)[i..stop]) == Text(u[i..stop]) + Closing
    ensures forall q :: 0 <= q < |u| && (q < i || q >= stop) ==> CloseOpen(u, i, stop)[q] == u[q]
  {
    var k := LastLive(u, i, stop);
    var v := CloseOpen(u, i, stop);
    var w := u[i..stop];
    assert !w[k - i].canceled;
    forall q | k - i < q < |w| ensures w[q].canceled {
      assert w[q] == u[q + i];
    }
    LiveText(w, k - i, Closing);
    assert w[k - i := u[k].(content := u[k].content + Closing)] == v[i..stop];
  }

  /** Appending to the last shown element appends to the shown text. */
  lemma LiveText(u: seq<Node>, k: nat, extra: string)
    requires k < |u| && !u[k].canceled
    requires forall q :: k < q < |u| ==> u[q].canceled
    ensures Text(u[k := u[k].(content := u[k].content + extra)]) == Text(u) + extra
  {
    var v := u[k := u[k].(content := u[k].content + extra)];
    assert u == u[..k] + [u[k]] + u[k + 1..];
    assert v == u[..k] + [v[k]] + u[k + 1..];
    TextAppend(u[..k] + [u[k]], u[k + 1..]);
    TextAppend(u[..k], [u[k]]);
    TextAppend(u[..k] + [v[k]], u[k + 1..]);
    TextAppend(u[..k], [v[k]]);
    AllCanceledText(u[k + 1..]);
    assert Text([u[k]]) == u[k].content;
    assert Text([v[k]]) == u[k].content + extra;
  }

  /** The shape of the counterexample: a banner line, a line feed, one
      framed text line (`# text #` is one, see TextLineExample), a line
      feed, and code. */
  predicate UnclosedShape(s: seq<Node>, x: string) {
    && |s| == 5 && !s[0].converted && OpensBanner(s[0].content)
    && s[1].kind.Newline? && s[2].kind.Comment? && s[3].kind.Newline?
    && LineOf(s[2]) == TextLine(x)
    && !(s[4].kind.Comment? || s[4].kind.Newline?)
  }

  /** As written, a block left open is closed on the code after it: in
      `#####`, `# text #`, `sub` the closing text lands in the `sub`
      token... */
  lemma UnclosedBannerAsWritten(s: seq<Node>, x: string)
    requires UnclosedShape(s, x)
    ensures BannerAt(s, 0).Success?
    ensures BannerAt(s, 0).value[4].content == s[4].content + Closing
  {
    UnclosedResult(s, x);
  }

  /** ... and the shown text of the block itself is never closed. */
  lemma UnclosedBannerNeverClosed(s: seq<Node>, x: string)
    requires UnclosedShape(s, x)
    requires forall q :: 0 <= q < 4 ==> !s[q].canceled
    ensures BannerAt(s, 0).Success?
    ensures Text(BannerAt(s, 0).value[..4]) == "/**" + s[1].content + x + s[3].content
  {
    UnclosedResult(s, x);
    var t := SetContentAt(s, 0, "/**");
    var u := t[2 := Rewrite(t[2], x)];
    var v := SetContentAt(u, 4, s[4].content + Closing);
    assert v[..4] == [v[0], v[1], v[2], v[3]];
    TextFour(v[0], v[1], v[2], v[3]);
  }

  lemma UnclosedResult(s: seq<Node>, x: string)
    requires UnclosedShape(s, x)
    ensures var t := SetContentAt(s, 0, "/**");
      var u := t[2 := Rewrite(t[2], x)];
      BannerAt(s, 0) == Success(SetContentAt(u, 4, s[4].content + Closing))
  {
    UnclosedRun(s, x);
  }

  /** On the shape, the loop rewrites the text line and stops, still
      open, at the code. */
  lemma UnclosedRun(s: seq<Node>, x: string)
    requires UnclosedShape(s, x)
    ensures var t := SetContentAt(s, 0, "/**");
      RunFrom(t, 1, true, LineOf) == Success(Run(t[2 := Rewrite(t[2], x)], 4, true))
  {
    var t := SetContentAt(s, 0, "/**");
    var u := t[2 := Rewrite(t[2], x)];
    assert RunFrom(t, 1, true, LineOf) == RunFrom(t, 2, true, LineOf) by {
      Unroll(t, 1, true, LineOf);
    }
    assert RunFrom(t, 2, true, LineOf) == RunFrom(u, 3, false, LineOf) by {
      Unroll(t, 2, true, LineOf);
    }
    assert RunFrom(u, 3, false, LineOf) == RunFrom(u, 4, false, LineOf) by {
      Unroll(u, 3, false, LineOf);
    }
  }

  /** The counterexample itself: `#####`, `# text #` and any code token.
      The closing text lands on the code, and the block's own text stays
      open. */
  function UnclosedExample(code: Node): seq<Node> {
    [Fresh(Comment, "#####"), Fresh(Newline, "\n"), Fresh(Comment, "# text #"), Fresh(Newline, "\n"), code]
  }

  lemma UnclosedExampleShape(code: Node)
    requires !(code.kind.Comment? || code.kind.Newline?)
    ensures UnclosedShape(UnclosedExample(code), " * text")
  {
    var s := UnclosedExample(code);
    assert s[0] == Fresh(Comment, "#####") && s[2] == Fresh(Comment, "# text #");
    BannerOpeners();
    TextLineExample();
  }

  lemma UnclosedExampleClosesCode(code: Node)
    requires !(code.kind.Comment? || code.kind.Newline?)
    ensures BannerAt(UnclosedExample(code), 0).Success?
    ensures BannerAt(UnclosedExample(code), 0).value[4].content == code.content + Closing
  {
    UnclosedExampleShape(code);
    UnclosedBannerAsWritten(UnclosedExample(code), " * text");
  }

  lemma UnclosedExampleOpen(code: Node)
    requires !(code.kind.Comment? || code.kind.Newline?)
    ensures BannerAt(UnclosedExample(code), 0).Success?
    ensures Text(BannerAt(UnclosedExample(code), 0).value[..4]) == "/**\n * text\n"
  {
    var s := UnclosedExample(code);
    assert forall q :: 0 <= q < 4 ==> !s[q].canceled;
    assert s[1].content == "\n" && s[3].content == "\n";
    UnclosedExampleShape(code);
    UnclosedBannerNeverClosed(s, " * text");
    OpenBlockText();
  }

  /** The corrected rule on the shape closes the doc comment on its last
      line and leaves the code alone. */
  lemma FixedClosesShape(s: seq<Node>, x: string)
    requires UnclosedShape(s, x)
    requires forall q :: 0 <= q < 4 ==> !s[q].canceled
    ensures BannerFixed(s, 0).Success?
    ensures BannerFixed(s, 0).value[4] == s[4]
    ensures Text(BannerFixed(s, 0).value[..4]) == "/**" + s[1].content + x + (s[3].content + Closing)
  {
    var t := SetContentAt(s, 0, "/**");
    var u := t[2 := Rewrite(t[2], x)];
    var v := SetContentAt(u, 3, s[3].content + Closing);
    assert BannerFixed(s, 0) == Success(v) by {
      UnclosedRun(s, x);
      assert LastLive(u, 0, 4) == 3;
    }
    ShownFour(v, "/**", s[1].content, x, s[3].content + Closing);
  }

  /** The corrected rule on the counterexample. */
  lemma UnclosedExampleFixed(code: Node)
    requires !(code.kind.Comment? || code.kind.Newline?)
    ensures BannerFixed(UnclosedExample(code), 0).Success?
    ensures BannerFixed(UnclosedExample(code), 0).value[4] == code
    ensures Text(BannerFixed(UnclosedExample(code), 0).value[..4]) == "/**\n * text\n\n */\n"
  {
    var s := UnclosedExample(code);
    assert forall q :: 0 <= q < 4 ==> !s[q].canceled;
    assert s[1].content == "\n" && s[3].content == "\n";
    UnclosedExampleShape(code);
    FixedClosesShape(s, " * text");
    ClosedBlockText();
  }

  lemma ShownFour(v: seq<Node>, a: string, b: string, c: string, d: string)
    requires |v| >= 4 && !v[0].canceled && !v[1].canceled && !v[2].canceled && !v[3].canceled
    requires v[0].content == a && v[1].content == b && v[2].content == c && v[3].content == d
    ensures Text(v[..4]) == a + b + c + d
  {
    assert v[..4] == [v[0], v[1], v[2], v[3]];
    TextFour(v[0], v[1], v[2], v[3]);
  }

  lemma ClosedBlockText()
    ensures "/**" + "\n" + " * text" + ("\n" + Closing) == "/**\n * text\n\n */\n"
  {
  }

  lemma OpenBlockText()
    ensures "/**" + "\n" + " * text" + "\n" == "/**\n * text\n"
  {
  }

  lemma TextFour(a: Node, b: Node, c: Node, d: Node)
    requires !a.canceled && !b.canceled && !c.canceled && !d.canceled
    ensures Text([a, b, c, d]) == a.content + b.content + c.content + d.content
  {
    assert Text([d]) == d.content by {
      assert [d][1..] == [];
    }
    assert Text([c, d]) == c.content + d.content by {
      assert [c, d][1..] == [d];
    }
    assert Text([b, c, d]) == b.content + c.content + d.content by {
      assert [b, c, d][1..] == [c, d];
    }
    assert [a, b, c, d][1..] == [b, c, d];
  }

  /** The framed line `# text #` becomes ` * text`. */
  lemma TextLineExample()
    ensures LineOf(Fresh(Comment, "# text #")) == TextLine(" * text")
  {
    calc {
      LineOf(Fresh(Comment, "# text #"));
      { NotBlankExample(); FramedExample(); }
      TextLine(DropName(" *" + " " + RTrim("text ")));
      { TrimmedExample(); }
      TextLine(DropName(" * text"));
      { DropNameExample(); }
      TextLine(" * text");
    }
  }

  lemma TrimmedExample()
    ensures " *" + " " + RTrim("text ") == " * text"
  {
    assert RTrim("text ") == "text" by {
      assert "text "[..4] == "text";
    }
  }

  lemma NotBlankExample()
    ensures !BlankLine("# text #")
  {
    var s := "# text #";
    assert BeforeEnd(s) == s;
    assert s[1..|s| - 1][1] == s[2];
  }

  lemma FramedExample()
    ensures FramedText("# text #") == Some((" ", "text "))
  {
    var s := "# text #";
    assert SpanSpace(s, 1) == 2 by {
      assert SpanSpace(s, 2) == 2;
    }
    var rest := s[2..];
    assert rest == "text #";
    assert FrameEnd(rest, 5) by {
      assert rest[6..] == "";
      assert rest[..5] == "text ";
    }
    assert LastFrameEnd(rest, 6) == Some(5);
    assert s[1..2] == " ";
    assert rest[..5] == "text ";
  }

  lemma DropNameExample()
    ensures DropName(" * text") == " * text"
  {
    var c := " * text";
    assert SpanSpace(c, 0) == 1 by {
      assert SpanSpace(c, 1) == 1;
    }
    assert SpanSpace(c, 2) == 3 by {
      assert SpanSpace(c, 3) == 3;
    }
    assert SpanWord(c, 3) == 7 by {
      SpanWordExact(c, 3, |c|);
    }
    assert c[7..] == "";
  }

  /** The old `Name - description` convention: the name and dash go, the
      description keeps the line's indentation. */
  lemma NameDropped(w: string, name: string, d: string)
    requires |w| > 0 && AllSpace(w)
    requires |name| > 0 && forall j :: 0 <= j < |name| ==> IsWordChar(name[j])
    requires |d| > 0 && !IsSpace(d[0])
    ensures DropName(" *" + w + name + " - " + d) == " *" + w + d
  {
    var c := " *" + w + name + " - " + d;
    var b := 2 + |w|;
    var e := b + |name|;
    NameDroppedSlices(w, name, d);
    NameDroppedSpans(c, b, e);
    DropNameAt(c, b, e);
  }

  /** Where the parts of a `Name - description` line sit. */
  lemma NameDroppedSlices(w: string, name: string, d: string)
    ensures var c := " *" + w + name + " - " + d;
      var b := 2 + |w|; var e := b + |name|;
      c[..b] == " *" + w && c[2..b] == w && c[b..e] == name
      && c[e..] == " - " + d && c[e + 3..] == d
  {
    var c := " *" + w + name + " - " + d;
    var b := 2 + |w|;
    var e := b + |name|;
    assert c == (" *" + w) + name + (" - " + d);
    assert c[..b] == " *" + w;
    assert c[e..] == " - " + d;
  }

  /** The spans `DropName` measures, from the parts of the line. */
  lemma NameDroppedSpans(c: string, b: nat, e: nat)
    requires 2 < b < e < |c| - 3
    requires c[..2] == " *" && AllSpace(c[2..b]) && !IsSpace(c[e + 3])
    requires forall j :: b <= j < e ==> IsWordChar(c[j])
    requires c[e..e + 3] == " - "
    ensures SpanSpace(c, 0) == 1 && c[1] == '*'
    ensures SpanSpace(c, 2) == b && SpanWord(c, b) == e && StartsWith(c[e..], " - ")
  {
    assert c[0] == ' ' && c[1] == '*';
    assert forall j :: 2 <= j < b ==> IsSpace(c[j]) by {
      forall j | 2 <= j < b ensures IsSpace(c[j]) { assert c[2..b][j - 2] == c[j]; }
    }
    assert !IsSpace(c[b]) by { assert IsWordChar(c[b]); }
    SpanSpaceExact(c, 2, b);
    assert c[e] == ' ';
    SpanWordExact(c, b, e);
    assert c[e..][..3] == c[e..e + 3];
  }

  lemma DropNameAt(c: string, b: nat, e: nat)
    requires 2 < b < e <= |c| && SpanSpace(c, 0) == 1 && c[1] == '*'
    requires SpanSpace(c, 2) == b && SpanWord(c, b) == e && StartsWith(c[e..], " - ")
    ensures DropName(c) == c[..b] + c[e + 3..]
  {
  }

  /** The three line shapes, on the lines a banner is drawn with. */
  lemma LineShapes(n: nat)
    ensures BlankLine("#" + Spaces(n) + "#")
    ensures CloseLine("#####")
    ensures !CloseLine("# x #")
    ensures StarOnly(" *")
  {
    var b := "#" + Spaces(n) + "#";
    assert BeforeEnd(b) == b;
    assert b[1..|b| - 1] == Spaces(n);
    assert HashRun("#####", 0) == 5;
    assert HashRun("# x #", 0) == 1;
    assert !IsSpace("# x #"[2]);
    assert SpanSpace(" *", 0) == 1;
  }

  /** Five `#` open a banner; four do not. */
  lemma BannerOpeners()
    ensures OpensBanner("#####") && !OpensBanner("#### x")
  {
    assert Hashless("#####") == "//####";
    assert Hashless("#### x")[..6] == "//### ";
  }
}

=== FILE: casts.dfy ===
/** Cast tokens (`genCode` of the cast class): in scalar context `@` and
    `$#` become element counts of the array that follows; in any other
    context the cast disappears and a following `{…}` block becomes a
    parenthesised expression (or is dropped around a lone `{$name}`). */
module Casts {
  import opened Wrappers
  import opened Strings
  import opened Tokens
  import opened Markers
  import Contexts

  /** The element right after the cast (`$this->next`), as far as the rule
      looks at it: a block with its rendered text (`getRecursiveContent`),
      a symbol with its content, anything else by its class name, or no
      element at all. */
  datatype Follower =
    | BlockNext(text: string)
    | SymbolNext(content: string)
    | OtherNext(className: string)
    | NoNext

  /** What happens to the follower. */
  datatype FollowerEdit =
    | Keep
    | CancelAll         // the block and everything inside it are canceled
    | CancelNext        // the symbol is canceled
    | DropBraces        // the block is marked converted and canceled
    | Parenthesise      // the block is marked converted, delimiters become ( )

  datatype CastEdit = CastEdit(text: string, follower: FollowerEdit)

  /** `substr($text, 1, -1)`: the text without its first and last
      character, empty when it is shorter than two. */
  function Inner(text: string): (r: string)
    ensures |text| >= 2 ==> text == [text[0]] + r + [text[|text| - 1]]
    ensures |text| < 2 ==> r == ""
  {
    if |text| >= 2 then text[1..|text| - 1] else ""
  }

  /** `\{\$\w+\}` matches at `p`. */
  predicate BracedScalarAt(t: string, p: nat) {
    && p + 2 <= |t| && t[p] == '{' && t[p + 1] == '$'
    && var e := SpanWord(t, p + 2);
       e > p + 2 && e < |t| && t[e] == '}'
  }

  /** `preg_match('/\{\$\w+\}/', $text)`: the block holds a braced scalar
      somewhere. */
  predicate HasBracedScalar(t: string) {
    exists p :: 0 <= p <= |t| && BracedScalarAt(t, p)
  }

  /** The count expression for the follower in scalar context. */
  function CountOf(f: Follower): Result<(string, FollowerEdit), string> {
    match f
    case BlockNext(t) => Success(("count(" + Inner(t) + ")", CancelAll))
    case SymbolNext(c) => Success(("count(" + c + ")", CancelNext))
    case OtherNext(cls) => Failure("Unknown cast following type: " + cls)
    case NoNext => Failure("Unknown cast following type: ")
  }

  /** `genCode` of the cast class. `ctx` is the context the cast was given. */
  function CastCode(content: string, ctx: Ctx, f: Follower): (r: Result<CastEdit, string>)
    ensures r.Failure? <==>
      (content == "$#" || content == "@") && ctx == Scalar && !(f.BlockNext? || f.SymbolNext?)
    ensures (content == "$#" || content == "@") && ctx != Scalar ==> r.Success? && r.value.text == ""
    ensures r.Success? && !r.value.follower.Keep? ==>
      (content == "$#" || content == "@") && (f.BlockNext? || f.SymbolNext?)
    ensures r.Success? && (r.value.follower.CancelAll? || r.value.follower.CancelNext?) ==> ctx == Scalar
  {
    if content == "$#" || content == "@" then
      if ctx == Scalar then
        match CountOf(f)
        case Failure(e) => Failure(e)
        case Success((count, edit)) =>
          Success(CastEdit(if content == "$#" then "(" + count + "-1)" else count, edit))
      else
        match f
        case BlockNext(t) =>
          Success(CastEdit("", if HasBracedScalar(t) then DropBraces else Parenthesise))
        case _ => Success(CastEdit("", Keep))
    else Success(CastEdit(CheckComment(content), Keep))
  }

  /** The follower after the edit (the rest of a canceled subtree is not
      part of this element). */
  function EditFollower(n: Node, e: FollowerEdit): (r: Node)
    ensures r.kind == n.kind && r.content == n.content && r.ctx == n.ctx
    ensures n.canceled ==> r.canceled
    ensures e.Keep? ==> r == n
    ensures e.CancelNext? || e.CancelAll? || e.DropBraces? ==> r.canceled
    ensures e.Parenthesise? ==> r.canceled == n.canceled
    ensures e.DropBraces? || e.Parenthesise? ==> r.converted
    ensures e.Parenthesise? ==> r.open == "(" && r.close == ")"
    ensures !e.Parenthesise? ==> r.open == n.open && r.close == n.close
  {
    match e
    case Keep => n
    case CancelAll => Cancel(n)
    case CancelNext => Cancel(n)
    case DropBraces => Cancel(n).(converted := true)
    case Parenthesise => n.(open := "(", close := ")", converted := true)
  }

  // ---------------------------------------------------------------------
  // Properties

  /** `$#` is always the `@` count minus one, on the same follower and with
      the same effect on it; both fail together. */
  lemma LastIndexIsCountMinusOne(f: Follower)
    ensures CastCode("$#", Scalar, f).Success? <==> CastCode("@", Scalar, f).Success?
    ensures CastCode("@", Scalar, f).Success? ==>
      CastCode("$#", Scalar, f).value
        == CastEdit("(" + CastCode("@", Scalar, f).value.text + "-1)", CastCode("@", Scalar, f).value.follower)
  {
  }

  /** In scalar context a counting cast fails exactly when neither a block
      nor a symbol follows it; `@$a` counts `$a` and consumes it, `@{…}`
      counts the block's interior and consumes the block. */
  lemma ScalarCountForms(content: string, f: Follower)
    requires content == "@" || content == "$#"
    ensures CastCode(content, Scalar, f).Failure? <==> !(f.BlockNext? || f.SymbolNext?)
    ensures f.SymbolNext? && content == "@" ==>
      CastCode(content, Scalar, f) == Success(CastEdit("count(" + f.content + ")", CancelNext))
    ensures f.BlockNext? && content == "@" ==>
      CastCode(content, Scalar, f) == Success(CastEdit("count(" + Inner(f.text) + ")", CancelAll))
  {
  }

  /** Outside scalar context a counting cast vanishes and never fails; a
      following block keeps its content and loses its braces or gets
      parentheses, depending on whether it holds a braced scalar. */
  lemma ArrayContextDropsCast(content: string, ctx: Ctx, f: Follower)
    requires content == "@" || content == "$#"
    requires ctx != Scalar
    ensures CastCode(content, ctx, f).Success?
    ensures CastCode(content, ctx, f).value.text == ""
    ensures CastCode(content, ctx, f).value.follower
         == (if f.BlockNext? then (if HasBracedScalar(f.text) then DropBraces else Parenthesise) else Keep)
  {
  }

  /** Every other cast is left in the output as a review comment from which
      the cast can be read back, and the follower is left alone. */
  lemma OtherCastsMarked(content: string, ctx: Ctx, f: Follower)
    requires content != "@" && content != "$#"
    ensures CastCode(content, ctx, f).Success?
    ensures CastCode(content, ctx, f).value.follower == Keep
    ensures CheckCommentText(CastCode(content, ctx, f).value.text) == Some(content)
  {
    CheckCommentRoundTrip(content);
  }

  /** The context rule gives `$#` scalar context whatever its neighbours, so
      `$#` is never a plain cast: it always becomes a count. */
  lemma LastIndexAlwaysCounts(nb: Contexts.Neighbours, f: Follower)
    requires f.BlockNext? || f.SymbolNext?
    ensures Contexts.Classify(Cast, "$#", nb) == Success(Contexts.Decision(Scalar, true))
    ensures var ctx := Contexts.Classify(Cast, "$#", nb).value.ctx;
      CastCode("$#", ctx, f).Success? && StartsWith(CastCode("$#", ctx, f).value.text, "(count(")
  {
    Contexts.CastContexts("$#", nb);
    var x := match f case BlockNext(t) => Inner(t) case SymbolNext(c) => c case _ => "";
    assert CastCode("$#", Scalar, f).value.text == "(" + ("count(" + x + ")") + "-1)";
    CountMinusOneStarts(x);
  }

  lemma CountMinusOneStarts(x: string)
    ensures StartsWith("(" + ("count(" + x + ")") + "-1)", "(count(")
  {
    var t := "(" + ("count(" + x + ")") + "-1)";
    assert t[..7] == "(count(";
  }

  /** The braced-scalar test sees `{$name}` anywhere in the block text. */
  lemma BracedScalarFound(pre: string, name: string, post: string)
    requires |name| >= 1 && forall j :: 0 <= j < |name| ==> IsWordChar(name[j])
    ensures HasBracedScalar(pre + "{$" + name + "}" + post)
  {
    var t := pre + "{$" + name + "}" + post;
    var p := |pre|;
    var e := p + 2 + |name|;
    assert forall j :: p + 2 <= j < e ==> t[j] == name[j - p - 2];
    assert t[e] == '}';
    assert SpanWord(t, p + 2) == e by {
      SpanWordExact(t, p + 2, e);
    }
    assert BracedScalarAt(t, p);
  }
}

=== FILE: conditionals.dfy ===
/** Conditional keywords (`tokenWordConditionals`): a backward scan decides
    whether `if`/`unless` is a statement modifier (`expr if cond;`) or opens
    a statement of its own. A modifier statement is rebuilt as a PHP `if`
    block around the left expression; a lone `unless` becomes `if` with its
    condition group negated. */
module Conditionals {
  import opened Wrappers
  import opened Strings
  import opened Tokens

  // ---------------------------------------------------------------------
  // The backward scan

  /** A structure block or a terminator ends the backward scan. */
  predicate Boundary(n: Node) {
    n.kind.Block? || IsSemicolon(n)
  }

  /** Code in front of the keyword: an element that is neither white space
      nor a boundary and whose text is not empty in PHP's sense (so `"0"`
      counts as no text). */
  predicate CodeBefore(n: Node) {
    !IsWs(n.kind) && !Boundary(n) && !PhpEmpty(n.content)
  }

  /** The elements the scan steps over: white space, and every other
      element without text that is not a boundary (statement and group
      elements carry their text in their children). */
  predicate Skipped(n: Node) {
    IsWs(n.kind) || (!Boundary(n) && PhpEmpty(n.content))
  }

  /** The scan from the keyword at `i` towards the front of the stream:
      true when code is met before a boundary or the start. */
  function NeedSwitch(s: seq<Node>, i: nat): bool
    requires i <= |s|
    decreases i
  {
    if i == 0 then false
    else
      var n := s[i - 1];
      if IsWs(n.kind) then NeedSwitch(s, i - 1)
      else if n.kind.Block? then false
      else if IsSemicolon(n) then false
      else if !PhpEmpty(n.content) then true
      else NeedSwitch(s, i - 1)
  }

  /** Code at `k` is visible from `i`: only skipped elements lie between. */
  predicate CodeReaches(s: seq<Node>, k: nat, i: nat)
    requires k < i <= |s|
  {
    CodeBefore(s[k]) && forall m :: k < m < i ==> Skipped(s[m])
  }

  /** The keyword is a statement modifier exactly when some code in front
      of it is reached across skipped elements only. */
  lemma {:induction false} NeedSwitchMeans(s: seq<Node>, i: nat)
    requires i <= |s|
    ensures NeedSwitch(s, i) <==> exists k :: 0 <= k < i && CodeReaches(s, k, i)
    decreases i
  {
    if i > 0 {
      var n := s[i - 1];
      NeedSwitchMeans(s, i - 1);
      if Skipped(n) {
        assert !CodeBefore(n);
        if NeedSwitch(s, i - 1) {
          var k :| 0 <= k < i - 1 && CodeReaches(s, k, i - 1);
          assert CodeReaches(s, k, i);
        }
        if exists k :: 0 <= k < i && CodeReaches(s, k, i) {
          var k :| 0 <= k < i && CodeReaches(s, k, i);
          assert k != i - 1;
          assert CodeReaches(s, k, i - 1);
        }
      } else if CodeBefore(n) {
        assert CodeReaches(s, i - 1, i);
      } else {
        assert !IsWs(n.kind) && Boundary(n);
        forall k | 0 <= k < i ensures !CodeReaches(s, k, i) {
          if k < i - 1 {
            assert !Skipped(s[i - 1]);
          }
        }
      }
    }
  }

  /** A keyword right after a terminator or a block, or at the start of
      the stream with only white space in front, opens its own statement. */
  lemma StatementStartIsLone(s: seq<Node>, i: nat, b: nat)
    requires b < i <= |s| && Boundary(s[b])
    requires forall m :: b < m < i ==> IsWs(s[m].kind)
    ensures !NeedSwitch(s, i)
  {
    NeedSwitchMeans(s, i);
    forall k | 0 <= k < i ensures !CodeReaches(s, k, i) {
      if k < b {
        assert !Skipped(s[b]);
      } else if k > b {
        assert IsWs(s[k].kind);
      }
    }
  }

  // ---------------------------------------------------------------------
  // The lone form

  /** Without code in front: `unless` becomes `if`, and the condition group
      that must follow it gets the delimiters `(! (` and `))`; `if` and the
      other keywords are left alone. */
  function LoneAt(s: seq<Node>, i: nat): (r: Result<seq<Node>, string>)
    requires i < |s|
    ensures r.Success? ==> Monotone(s, r.value)
  {
    if s[i].content != "unless" then Success(s)
    else if !(i + 1 < |s| && s[i + 1].kind.Condition?) then Failure("Missing PpiStructureCondition")
    else Success(s[i := s[i].(content := "if")][i + 1 := s[i + 1].(open := "(! (", close := "))")])
  }

  /** A lone `unless` fails exactly when no condition group follows it; on
      success the keyword reads `if`, the group renders as the negation of
      its old interior, and nothing else changes. */
  lemma LoneUnless(s: seq<Node>, i: nat, inner: string)
    requires i < |s| && s[i].content == "unless"
    ensures LoneAt(s, i).Success? <==> i + 1 < |s| && s[i + 1].kind.Condition?
    ensures LoneAt(s, i).Success? ==>
      var t := LoneAt(s, i).value;
      && t[i].content == "if"
      && t[i + 1].open + inner + t[i + 1].close == "(! (" + inner + "))"
      && t[i + 1].content == s[i + 1].content
      && forall j :: 0 <= j < |s| && j != i && j != i + 1 ==> t[j] == s[j]
  {
  }

  /** Any other lone keyword leaves the stream as it is. */
  lemma LoneIfUnchanged(s: seq<Node>, i: nat)
    requires i < |s| && s[i].content != "unless"
    ensures LoneAt(s, i) == Success(s)
  {
  }

  // ---------------------------------------------------------------------
  // The modifier form: texts

  /** Start of the trailing run of `\s` characters. */
  function TrailStart(t: string): (e: nat)
    ensures e <= |t|
    ensures forall j :: e <= j < |t| ==> IsSpace(t[j])
    ensures e == 0 || !IsSpace(t[e - 1])
    decreases |t|
  {
    if |t| > 0 && IsSpace(t[|t| - 1]) then TrailStart(t[..|t| - 1]) else |t|
  }

  /** `preg_replace('/;\s*$/', '', t)`: a terminator followed by nothing
      but white space is removed together with that white space. */
  function DropTerminator(t: string): (r: string)
    ensures StartsWith(t, r)
  {
    var e := TrailStart(t);
    if e > 0 && t[e - 1] == ';' then t[..e - 1] else t
  }

  /** The removed tail is exactly a terminator and white space, and only
      such a tail is removed. */
  lemma DropTerminatorTail(t: string)
    ensures var r := DropTerminator(t);
      r != t <==> (|r| < |t| && t[|r|] == ';' && forall j :: |r| < j < |t| ==> IsSpace(t[j]))
  {
    var r := DropTerminator(t);
    var e := TrailStart(t);
    if r == t && |r| < |t| {
      assert false;
    }
    if r != t {
      assert |r| == e - 1;
    }
  }

  /** The parentheses test as written: text that starts with `(` counts as
      parenthesised. */
  function ParenthesisedAsWritten(r: string): (w: string)
    ensures |w| > 0 && w[0] == '('
    ensures w == r <==> |r| > 0 && r[0] == '('
    ensures w != r ==> |w| == |r| + 2 && w[1..|w| - 1] == r && w[|w| - 1] == ')'
  {
    if |r| > 0 && r[0] == '(' then r else "(" + r + ")"
  }

  /** Parenthesis depth: openers minus closers. */
  function Depth(s: string): int
    decreases |s|
  {
    if |s| == 0 then 0
    else Depth(s[..|s| - 1]) + (if s[|s| - 1] == '(' then 1 else if s[|s| - 1] == ')' then -1 else 0)
  }

  lemma {:induction false} DepthAppend(a: string, b: string)
    ensures Depth(a + b) == Depth(a) + Depth(b)
    decreases |b|
  {
    if |b| == 0 {
      assert a + b == a;
    } else {
      assert (a + b)[..|a + b| - 1] == a + b[..|b| - 1];
      DepthAppend(a, b[..|b| - 1]);
    }
  }

  /** No prefix closes more than it opened, and all opened are closed. */
  predicate Balanced(s: string) {
    Depth(s) == 0 && forall k :: 0 <= k <= |s| ==> Depth(s[..k]) >= 0
  }

  /** The whole text is one parenthesised group: it opens with `(` and that
      parenthesis is closed by the last character, not before. */
  predicate Enclosed(s: string) {
    |s| >= 2 && s[0] == '(' && Depth(s) == 0 && forall k :: 1 <= k < |s| ==> Depth(s[..k]) >= 1
  }

  /** The parentheses test as intended: the condition is wrapped unless it
      already is one parenthesised group. */
  function Parenthesised(r: string): (w: string)
    ensures |w| > 0 && w[0] == '('
    ensures w == r <==> Enclosed(r)
    ensures w != r ==> |w| == |r| + 2 && w[1..|w| - 1] == r && w[|w| - 1] == ')'
  {
    if Enclosed(r) then r else "(" + r + ")"
  }

  /** A balanced condition always ends up as one parenthesised group, and
      one that already is such a group is kept as it is. */
  lemma ParenthesisedEncloses(r: string)
    requires Balanced(r)
    ensures Enclosed(Parenthesised(r))
    ensures Enclosed(r) ==> Parenthesised(r) == r
  {
    if !Enclosed(r) {
      var w := "(" + r + ")";
      DepthAppend("(", r);
      DepthAppend("(" + r, ")");
      assert Depth("(") == 1 && Depth(")") == -1;
      forall k | 1 <= k < |w| ensures Depth(w[..k]) >= 1 {
        assert w[..k] == "(" + r[..k - 1];
        DepthAppend("(", r[..k - 1]);
      }
    }
  }

  /** With the test as written, a condition that starts with a
      parenthesised group and goes on is left unwrapped, and the `if` it
      produces is not one group: `($a) && $b` stays `($a) && $b`. */
  lemma OpenParenNotEnclosed()
    ensures Balanced("($a) && $b")
    ensures ParenthesisedAsWritten("($a) && $b") == "($a) && $b"
    ensures !Enclosed(ParenthesisedAsWritten("($a) && $b"))
  {
    var s := "($a) && $b";
    assert s[..0] == "";
    DepthStep(s, 1);
    DepthStep(s, 2);
    DepthStep(s, 3);
    DepthStep(s, 4);
    assert Depth(s[..4]) == 0;
    forall k | 0 <= k <= |s| ensures Depth(s[..k]) >= 0 {
      if k > 4 {
        DepthAppend(s[..4], s[4..k]);
        assert s[..k] == s[..4] + s[4..k];
        DepthNoParens(s[4..k]);
      }
    }
    DepthAppend(s[..4], s[4..]);
    assert s == s[..4] + s[4..];
    DepthNoParens(s[4..]);
  }

  lemma DepthStep(s: string, k: nat)
    requires 0 < k <= |s|
    ensures Depth(s[..k]) == Depth(s[..k - 1]) + (if s[k - 1] == '(' then 1 else if s[k - 1] == ')' then -1 else 0)
  {
    assert s[..k][..k - 1] == s[..k - 1];
  }

  lemma {:induction false} DepthNoParens(s: string)
    requires '(' !in s && ')' !in s
    ensures Depth(s) == 0
    decreases |s|
  {
    if |s| > 0 {
      assert s[..|s| - 1] == s[..|s| - 1];
      DepthNoParens(s[..|s| - 1]);
    }
  }

  /** The condition of the rebuilt `if`, as written: terminator removed,
      trimmed, wrapped unless it starts with `(`, then finished by
      ConditionFinish. */
  function ConditionText(right: string, negate: bool): (r: string)
    ensures '\n' !in r
  {
    ConditionFinish(ParenthesisedAsWritten(Trim(DropTerminator(right))), negate)
  }

  /** The condition with the corrected parentheses test. */
  function ConditionTextFixed(right: string, negate: bool): (r: string)
    ensures '\n' !in r
  {
    ConditionFinish(Parenthesised(Trim(DropTerminator(right))), negate)
  }

  /** The steps after the parentheses test: negated for `unless`, and every
      white-space run made a single space (line feeds are turned into
      spaces first). */
  function ConditionFinish(w: string, negate: bool): (r: string)
    ensures '\n' !in r
  {
    var t := if negate then "(! " + w + ")" else w;
    CollapsedOneLine(Replace(t, "\n", " "));
    CollapseSpace(Replace(t, "\n", " "))
  }

  /** White space is single spaces only. */
  predicate SingleSpaced(x: string) {
    && (forall i :: 0 <= i < |x| && IsSpace(x[i]) ==> x[i] == ' ')
    && (forall i :: 0 <= i < |x| - 1 ==> !(IsSpace(x[i]) && IsSpace(x[i + 1])))
  }

  /** A condition the clean-up steps leave alone: no padding, single
      spaces. */
  predicate Tidy(x: string) {
    |x| > 0 && !IsTrimChar(x[0]) && !IsTrimChar(x[|x| - 1]) && SingleSpaced(x)
  }

  /** On a tidy condition with its terminator the only step that acts is
      the parentheses test: as written the condition is kept whenever it
      starts with `(`, and the corrected test keeps it only when it is one
      group. */
  lemma TidyCondition(x: string)
    requires Tidy(x)
    ensures ConditionText(x + ";", false) == ParenthesisedAsWritten(x)
    ensures ConditionTextFixed(x + ";", false) == Parenthesised(x)
  {
    TidyPrepared(x);
    TidyWrapped(x);
    FinishTidy(ParenthesisedAsWritten(x));
    FinishTidy(Parenthesised(x));
  }

  /** Removing the terminator and trimming gives a tidy condition back. */
  lemma TidyPrepared(x: string)
    requires Tidy(x)
    ensures Trim(DropTerminator(x + ";")) == x
  {
    var t := x + ";";
    assert TrailStart(t) == |t|;
    assert t[..|t| - 1] == x;
    TrimPadded("", x, "");
    assert "" + x + "" == x;
  }

  /** Either parentheses test keeps a tidy condition single-spaced. */
  lemma TidyWrapped(x: string)
    requires Tidy(x)
    ensures SingleSpaced(ParenthesisedAsWritten(x)) && SingleSpaced(Parenthesised(x))
  {
    WrapSpaced(x);
  }

  lemma WrapSpaced(x: string)
    requires SingleSpaced(x)
    ensures SingleSpaced("(" + x + ")")
  {
    var w := "(" + x + ")";
    forall i | 0 <= i < |w| && IsSpace(w[i]) ensures w[i] == ' ' {
      assert 0 < i < |w| - 1 && w[i] == x[i - 1];
    }
    forall i | 0 <= i < |w| - 1 ensures !(IsSpace(w[i]) && IsSpace(w[i + 1])) {
      if 0 < i < |w| - 2 {
        assert w[i] == x[i - 1] && w[i + 1] == x[i];
      }
    }
  }

  lemma FinishTidy(w: string)
    requires SingleSpaced(w)
    ensures ConditionFinish(w, false) == w
  {
    assert '\n' !in w by {
      if '\n' in w {
        var i :| 0 <= i < |w| && w[i] == '\n';
        assert IsSpace(w[i]);
      }
    }
    ReplaceAfterFree(w, "", "\n", " ");
    assert w + "" == w;
    CollapseFixed(w, false);
  }

  /** The rule as written on a tidy condition that starts with `(`: the
      condition is taken over as it is, so one that is not a single group,
      such as `($a) && $b` (`OpenParenNotEnclosed`, `ExampleTidy`), gives
      an `if` whose condition is not one group. */
  lemma ModifierConditionAsWritten(x: string)
    requires Tidy(x) && x[0] == '('
    ensures ConditionText(x + ";", false) == x
    ensures !Enclosed(x) ==> !Enclosed(ConditionText(x + ";", false))
  {
    TidyCondition(x);
  }

  /** The corrected rule on any balanced tidy condition gives one group,
      wrapping the condition exactly when it is not one already. */
  lemma ModifierConditionFixed(x: string)
    requires Tidy(x) && Balanced(x)
    ensures Enclosed(ConditionTextFixed(x + ";", false))
    ensures ConditionTextFixed(x + ";", false) == (if Enclosed(x) then x else "(" + x + ")")
  {
    TidyCondition(x);
    ParenthesisedEncloses(x);
  }

  /** The statement of the counterexample is tidy. */
  lemma ExampleTidy()
    ensures Tidy("($a) && $b")
  {
    var x := "($a) && $b";
    assert !IsTrimChar(x[0]) && !IsTrimChar(x[|x| - 1]);
    assert forall i :: 0 <= i < |x| && IsSpace(x[i]) ==> i == 4 || i == 7;
  }

  /** The left expression, trimmed and on one line. */
  function BodyText(left: string): string {
    CollapseSpace(Replace(Trim(left), "\n", " "))
  }

  /** The rebuilt statement at indentation `n`. */
  function PostfixText(cond: string, body: string, n: nat): string {
    "if " + cond + " {\n" + Spaces(n) + "    " + body + ";\n" + Spaces(n) + "}"
  }

  // ---------------------------------------------------------------------
  // The modifier form: text properties

  /** Turning line feeds into spaces first changes nothing after the
      white-space runs are collapsed. */
  lemma {:induction false} CollapseAbsorbsLineFeeds(s: string, inRun: bool)
    ensures CollapseFrom(Replace(s, "\n", " "), inRun) == CollapseFrom(s, inRun)
    decreases |s|
  {
    if |s| > 0 {
      CollapseAbsorbsLineFeeds(s[1..], IsSpace(s[0]));
      if s[0] == '\n' {
        assert StartsWith(s, "\n");
        assert Replace(s, "\n", " ") == " " + Replace(s[1..], "\n", " ");
      } else {
        assert !StartsWith(s, "\n");
        assert Replace(s, "\n", " ") == [s[0]] + Replace(s[1..], "\n", " ");
      }
    }
  }

  /** A collapsed text has no line feed. */
  lemma CollapsedOneLine(s: string)
    ensures '\n' !in CollapseSpace(s)
  {
    CollapseShape(s, false);
  }

  /** `unless` is the negated `if`: its condition is `(! C)` where `C` is
      the condition `if` would get from the same text, with either
      parentheses test. */
  lemma UnlessNegatesIf(right: string)
    ensures ConditionText(right, true) == "(! " + ConditionText(right, false) + ")"
    ensures ConditionTextFixed(right, true) == "(! " + ConditionTextFixed(right, false) + ")"
  {
    FinishNegates(ParenthesisedAsWritten(Trim(DropTerminator(right))));
    FinishNegates(Parenthesised(Trim(DropTerminator(right))));
  }

  lemma FinishNegates(w: string)
    requires |w| > 0 && w[0] == '('
    ensures ConditionFinish(w, true) == "(! " + ConditionFinish(w, false) + ")"
  {
    assert ConditionFinish(w, true) == CollapseSpace("(! " + w + ")") by {
      CollapseAbsorbsLineFeeds("(! " + w + ")", false);
    }
    assert ConditionFinish(w, false) == CollapseSpace(w) by {
      CollapseAbsorbsLineFeeds(w, false);
    }
    NegationCollapse(w);
  }

  /** Collapsing white space does not reach across the negation around a
      group. */
  lemma NegationCollapse(w: string)
    requires |w| > 0 && w[0] == '('
    ensures CollapseSpace("(! " + w + ")") == "(! " + CollapseSpace(w) + ")"
  {
    assert CollapseSpace("(! " + w + ")") == CollapseSpace("(! " + w) + CollapseSpace(")") by {
      CollapseAppend("(! " + w, ")");
    }
    assert CollapseSpace("(! " + w) == CollapseSpace("(! ") + CollapseSpace(w) by {
      CollapseAppend("(! ", w);
    }
    assert CollapseSpace("(! ") == "(! ";
    assert CollapseSpace(")") == ")";
  }

  /** The rebuilt statement is three lines: the `if` with its condition,
      the body one level deeper than the statement's indentation, and the
      closing brace at that indentation. */
  lemma PostfixLines(right: string, left: string, negate: bool, n: nat)
    ensures Split(PostfixText(ConditionText(right, negate), BodyText(left), n), '\n')
         == ["if " + ConditionText(right, negate) + " {",
             Spaces(n) + "    " + BodyText(left) + ";",
             Spaces(n) + "}"]
  {
    var w := ParenthesisedAsWritten(Trim(DropTerminator(right)));
    CollapsedOneLine(Replace(if negate then "(! " + w + ")" else w, "\n", " "));
    CollapsedOneLine(Replace(Trim(left), "\n", " "));
    ThreeLines(ConditionText(right, negate), BodyText(left), n);
  }

  lemma ThreeLines(c: string, b: string, n: nat)
    requires '\n' !in c && '\n' !in b
    ensures Split(PostfixText(c, b, n), '\n') == ["if " + c + " {", Spaces(n) + "    " + b + ";", Spaces(n) + "}"]
  {
    var l1 := "if " + c + " {";
    var l2 := Spaces(n) + "    " + b + ";";
    var l3 := Spaces(n) + "}";
    assert PostfixText(c, b, n) == l1 + "\n" + (l2 + "\n" + l3);
    assert '\n' !in l1;
    assert '\n' !in l2;
    assert '\n' !in l3;
    LinesOfThree(l1, l2, l3);
  }

  /** Three line-feed-free lines joined by line feeds split back into them. */
  lemma LinesOfThree(l1: string, l2: string, l3: string)
    requires '\n' !in l1 && '\n' !in l2 && '\n' !in l3
    ensures Split(l1 + "\n" + (l2 + "\n" + l3), '\n') == [l1, l2, l3]
  {
    SplitNoSeparator(l3, '\n');
    LineBefore(l2, l3, [l3]);
    LineBefore(l1, l2 + "\n" + l3, [l2, l3]);
  }

  // ---------------------------------------------------------------------
  // The rule

  /** What the rule takes from the tree around the keyword: whether its
      parent is a statement, the statement's indentation (`getIndent`), the
      rendered left and right operands (`getLeftArg`/`getRightArg`), where
      the left operand begins in the stream, and the position of the
      element after the right operand (`nextSibling`), if there is one.
      The left operand covers the elements from `leftStart` up to the
      keyword and the right operand those between the keyword and `after`;
      both are absorbed into the rebuilt statement. */
  datatype ModifierSite = ModifierSite(
    parentIsStatement: bool, indent: nat, left: string, right: string,
    leftStart: nat, after: Option<nat>)

  /** `tokenWordConditionals` on the keyword at `i`, as written. */
  function ConditionalAt(s: seq<Node>, i: nat, site: ModifierSite): (r: Result<seq<Node>, string>)
    requires i < |s|
    ensures r.Success? ==> Monotone(s, r.value)
  {
    ModifierWith(s, i, site, ConditionText(site.right, s[i].content == "unless"))
  }

  /** The same rule with the corrected parentheses test. */
  function ConditionalFixed(s: seq<Node>, i: nat, site: ModifierSite): (r: Result<seq<Node>, string>)
    requires i < |s|
    ensures r.Success? ==> Monotone(s, r.value)
  {
    ModifierWith(s, i, site, ConditionTextFixed(site.right, s[i].content == "unless"))
  }

  /** The rule around a given condition text. */
  function ModifierWith(s: seq<Node>, i: nat, site: ModifierSite, cond: string): (r: Result<seq<Node>, string>)
    requires i < |s|
    ensures r.Success? ==> Monotone(s, r.value)
  {
    if !NeedSwitch(s, i) then LoneAt(s, i)
    else if !site.parentIsStatement then Success(s)
    else
      var text := PostfixText(cond, BodyText(site.left), site.indent);
      match site.after
      case None => Failure("no element after the condition")
      case Some(k) => Success(Place(s, i, text, site.leftStart, k))
  }

  /** The keyword takes the rebuilt text, the operands on either side of
      it (from `lo` up to the keyword, and from the keyword up to `k`) are
      absorbed, and the element at `k` is canceled when it is a
      terminator. */
  function Place(s: seq<Node>, i: nat, text: string, lo: nat, k: nat): (t: seq<Node>)
    requires i < |s|
    ensures Monotone(s, t)
    ensures t[i].content == text || (i == k && IsSemicolon(s[k]))
    ensures forall j :: 0 <= j < |s| && j != i && (lo <= j < i || i < j < k) ==> t[j].canceled
    ensures k < |s| && IsSemicolon(s[k]) ==> t[k].canceled
    ensures forall j :: 0 <= j < |s| && j != i && j != k && !(lo <= j < i) && !(i < j < k) ==> t[j] == s[j]
  {
    var t := SetContentAt(s, i, text);
    var t := CancelRange(CancelRange(t, lo, i), i + 1, k);
    if k < |s| && IsSemicolon(s[k]) then CancelAt(t, k) else t
  }

  /** A modifier inside a statement takes the whole statement's place: the
      keyword holds the rebuilt `if` (whose lines `PostfixLines` gives),
      the operands around it and the terminator after the condition are
      canceled, and the stream renders as before with the statement
      replaced by the rebuilt `if`. */
  lemma ModifierRebuilt(s: seq<Node>, i: nat, site: ModifierSite, k: nat)
    requires site.leftStart <= i < k < |s| && IsSemicolon(s[k]) && !s[i].canceled
    requires NeedSwitch(s, i) && site.parentIsStatement && site.after == Some(k)
    ensures ConditionalAt(s, i, site).Success?
    ensures var t := ConditionalAt(s, i, site).value;
      && t[i].content == PostfixText(ConditionText(site.right, s[i].content == "unless"), BodyText(site.left), site.indent)
      && t[k].canceled
      && Text(t) == Text(s[..site.leftStart])
                    + PostfixText(ConditionText(site.right, s[i].content == "unless"), BodyText(site.left), site.indent)
                    + Text(s[k + 1..])
  {
    var text := PostfixText(ConditionText(site.right, s[i].content == "unless"), BodyText(site.left), site.indent);
    assert ConditionalAt(s, i, site) == Success(Place(s, i, text, site.leftStart, k));
    PlaceText(s, i, text, site.leftStart, k);
  }

  /** Placing the text over a statement renders the stream with the
      statement replaced by that text. */
  lemma PlaceText(s: seq<Node>, i: nat, text: string, lo: nat, k: nat)
    requires lo <= i < k < |s| && IsSemicolon(s[k]) && !s[i].canceled
    ensures Text(Place(s, i, text, lo, k)) == Text(s[..lo]) + text + Text(s[k + 1..])
  {
    StatementReplaced(s, Place(s, i, text, lo, k), lo, i, k);
  }

  /** An edit that cancels everything from `lo` to `k` except the element
      at `i` renders the stream with that stretch replaced by `i`'s new
      text. */
  lemma StatementReplaced(s: seq<Node>, t: seq<Node>, lo: nat, i: nat, k: nat)
    requires lo <= i <= k < |s| && |t| == |s| && !t[i].canceled
    requires forall j :: lo <= j <= k && j != i ==> t[j].canceled
    requires forall j :: 0 <= j < |s| && (j < lo || j > k) ==> t[j] == s[j]
    ensures Text(t) == Text(s[..lo]) + t[i].content + Text(s[k + 1..])
  {
    ThreeParts(t, lo, k + 1);
    MiddleShown(t, lo, i, k);
    SameOutside(s, t, lo, k);
  }

  lemma SameOutside(s: seq<Node>, t: seq<Node>, lo: nat, k: nat)
    requires lo <= k < |s| && |t| == |s|
    requires forall j :: 0 <= j < |s| && (j < lo || j > k) ==> t[j] == s[j]
    ensures t[..lo] == s[..lo] && t[k + 1..] == s[k + 1..]
  {
    assert forall j :: 0 <= j < lo ==> t[..lo][j] == s[..lo][j];
    var a, b := t[k + 1..], s[k + 1..];
    forall j | 0 <= j < |b| ensures a[j] == b[j] {
      assert a[j] == t[k + 1 + j];
    }
  }

  lemma ThreeParts(t: seq<Node>, lo: nat, hi: nat)
    requires lo <= hi <= |t|
    ensures Text(t) == Text(t[..lo]) + Text(t[lo..hi]) + Text(t[hi..])
  {
    assert t == t[..lo] + t[lo..hi] + t[hi..];
    TextAppend(t[..lo] + t[lo..hi], t[hi..]);
    TextAppend(t[..lo], t[lo..hi]);
  }

  lemma MiddleShown(t: seq<Node>, lo: nat, i: nat, k: nat)
    requires lo <= i <= k < |t| && !t[i].canceled
    requires forall j :: lo <= j <= k && j != i ==> t[j].canceled
    ensures Text(t[lo..k + 1]) == t[i].content
  {
    var m := t[lo..k + 1];
    forall q | 0 <= q < |m| && q != i - lo ensures m[q].canceled {
      assert m[q] == t[lo + q];
    }
    assert m[i - lo] == t[i];
    OneShown(m, i - lo);
  }

  /** A modifier whose parent is not a statement is left alone. */
  lemma ModifierOutsideStatement(s: seq<Node>, i: nat, site: ModifierSite)
    requires i < |s| && NeedSwitch(s, i) && !site.parentIsStatement
    ensures ConditionalAt(s, i, site) == Success(s)
  {
  }
}

=== FILE: contexts.dfy ===
/** The context rules of the token classes (`anaContext`), and the pass
    that applies them left to right over a run of sibling tokens. */
module Contexts {
  import opened Wrappers
  import opened Tokens

  /** What a rule decides: the context, and whether it is set with
      `setContextChain` (`chained`, which also hands it to the enclosing
      group) or with plain `setContext`. */
  datatype Decision = Decision(ctx: Ctx, chained: bool)

  /** The tree neighbourhood the rules read. Navigation itself belongs to
      the element base class and enters here as data. */
  datatype Neighbours = Neighbours(
    prevIsNewline: bool,        // $this->prev->isNewline()
    prevCtx: Ctx,               // $this->prev->context
    prevSiblingCtx: Ctx,        // context of the nearest earlier non-whitespace sibling; Unset if none
    nextNonWsOpen: string,      // opening delimiter of the next non-whitespace element
    nextOpen: string,           // opening delimiter of the next element
    groupChildren: seq<string>) // contents of the children of the element after that

  /** The four cast sigils the cast rule knows. */
  predicate KnownCast(content: string) {
    content == "@" || content == "%" || content == "\\" || content == "$#"
  }

  /** The token classes that inherit the base token rule. */
  predicate DefaultKind(k: Kind) {
    k.Whitespace? || k.Newline? || k.Pod? || k.Regexp? || k.QuoteLike? || k.Label?
    || k.StructureToken? || k.OtherToken?
  }

  /** Base token rule: scalar at the start of a line, otherwise the context
      of the previous non-whitespace sibling. */
  function DefaultRule(nb: Neighbours): Decision {
    if nb.prevIsNewline then Decision(Scalar, false) else Decision(nb.prevSiblingCtx, false)
  }

  function CastRule(content: string, nb: Neighbours): Result<Decision, string> {
    if content == "@" then Success(Decision(nb.prevCtx, false))     // may be scalar or array
    else if content == "%" then Success(Decision(Hash, true))
    else if content == "\\" then Success(Decision(Neutral, true))
    else if content == "$#" then Success(Decision(Scalar, true))
    else Failure("unknown cast: " + content)
  }

  function OperatorRule(content: string, nb: Neighbours): Decision {
    if content == "," then Decision(Scalar, false)        // separates scalars, even in a list
    else if content == "." then Decision(Str, true)
    else if content == "=" then Decision(nb.prevSiblingCtx, false)  // the lvalue decides
    else Decision(Scalar, true)
  }

  /** Symbols by sigil; anything not `@` or `%` is treated like `$`. */
  function SymbolRule(content: string): Decision {
    if |content| > 0 && content[0] == '@' then Decision(Array, true)
    else if |content| > 0 && content[0] == '%' then Decision(Hash, true)
    else Decision(Scalar, true)
  }

  predicate ArrayBuiltin(w: string) {
    w == "shift" || w == "unshift" || w == "pop" || w == "push" || w == "split"
    || w == "delete" || w == "keys"
  }

  predicate StringBuiltin(w: string) {
    w == "join" || w == "uc" || w == "lc" || w == "ucwords"
  }

  predicate ScalarBuiltin(w: string) {
    w == "defined" || w == "length"
  }

  function WordRule(w: string, nb: Neighbours): Decision {
    if ArrayBuiltin(w) then Decision(Array, true)
    else if StringBuiltin(w) then Decision(Str, true)
    else if ScalarBuiltin(w) then Decision(Scalar, true)
    else if w == "my" then
      Decision(if nb.nextNonWsOpen == "(" then Array else Scalar, false)
    else if w == "return" then
      // "return (1, 2)" is a list, "return (1)" is not
      Decision(if nb.nextOpen == "(" && "," in nb.groupChildren then Array else Scalar, false)
    else Decision(Scalar, false)
  }

  /** `anaContext` of a token. Only an unknown cast fails: the source prints
      a diagnostic and stops. */
  function Classify(k: Kind, content: string, nb: Neighbours): (r: Result<Decision, string>)
    requires IsToken(k)
    ensures r.Failure? <==> k.Cast? && !KnownCast(content)
    ensures r.Success? && r.value.ctx == Unset ==> r.value.ctx == nb.prevCtx || r.value.ctx == nb.prevSiblingCtx
  {
    match k
    case QuoteSingle | QuoteLiteral | QuoteDouble | QuoteInterpolate => Success(Decision(Str, false))
    case Number => Success(Decision(Scalar, false))
    case Comment => Success(Decision(Neutral, false))
    case QuoteLikeWords => Success(Decision(Str, true))
    case Symbol | ArrayIndex | Magic => Success(SymbolRule(content))
    case Cast => CastRule(content, nb)
    case Operator => Success(OperatorRule(content, nb))
    case Word => Success(WordRule(content, nb))
    case _ => Success(DefaultRule(nb))
  }

  /** A comma is scalar whatever surrounds it. */
  lemma CommaAlwaysScalar(nb: Neighbours)
    ensures Classify(Operator, ",", nb) == Success(Decision(Scalar, false))
  {
  }

  /** The operator rules: `=` copies its lvalue's context, `.` is string,
      everything else except the comma is scalar and chained. */
  lemma OperatorContexts(content: string, nb: Neighbours)
    ensures content == "=" ==> Classify(Operator, content, nb) == Success(Decision(nb.prevSiblingCtx, false))
    ensures content == "." ==> Classify(Operator, content, nb) == Success(Decision(Str, true))
    ensures content != "," && content != "." && content != "=" ==>
      Classify(Operator, content, nb) == Success(Decision(Scalar, true))
  {
  }

  /** The cast rules: `@` takes the previous element's context, `%` is hash,
      `\` neutral, `$#` scalar; any other sigil aborts. */
  lemma CastContexts(content: string, nb: Neighbours)
    ensures content == "@" ==> Classify(Cast, content, nb) == Success(Decision(nb.prevCtx, false))
    ensures content == "%" ==> Classify(Cast, content, nb) == Success(Decision(Hash, true))
    ensures content == "\\" ==> Classify(Cast, content, nb) == Success(Decision(Neutral, true))
    ensures content == "$#" ==> Classify(Cast, content, nb) == Success(Decision(Scalar, true))
    ensures !KnownCast(content) ==> Classify(Cast, content, nb).Failure?
  {
  }

  /** `my` is a list declaration exactly when a parenthesis follows it, and
      `return` is a list exactly when its parenthesised group has a comma
      child. */
  lemma MyAndReturnContexts(nb: Neighbours)
    ensures Classify(Word, "my", nb).value.ctx == Array <==> nb.nextNonWsOpen == "("
    ensures Classify(Word, "return", nb).value.ctx == Array
        <==> nb.nextOpen == "(" && "," in nb.groupChildren
  {
  }

  /** The rules that read the neighbourhood at all. */
  predicate ReadsNeighbours(k: Kind, content: string) {
    || DefaultKind(k)
    || (k.Cast? && content == "@")
    || (k.Operator? && content == "=")
    || (k.Word? && (content == "my" || content == "return"))
  }

  /** Every other token gets the same decision wherever it stands. */
  lemma FixedRulesIgnoreNeighbours(k: Kind, content: string, nb1: Neighbours, nb2: Neighbours)
    requires IsToken(k)
    requires !ReadsNeighbours(k, content)
    ensures Classify(k, content, nb1) == Classify(k, content, nb2)
  {
  }

  // -----------------------------------------------------------------------
  // The pass over one run of sibling tokens

  /** Tree facts about what follows each token, which the run cannot see. */
  datatype Ahead = Ahead(nextNonWsOpen: string, nextOpen: string, groupChildren: seq<string>)

  /** Index of the nearest non-whitespace element before `i`, or -1. */
  function PrevNonWs(s: seq<Node>, i: nat): (j: int)
    requires i <= |s|
    ensures -1 <= j < i
    ensures j >= 0 ==> !IsWs(s[j].kind)
    ensures forall m :: j < m < i && 0 <= m ==> IsWs(s[m].kind)
    decreases i
  {
    if i == 0 then -1 else if !IsWs(s[i - 1].kind) then i - 1 else PrevNonWs(s, i - 1)
  }

  /** The neighbourhood of token `i` of a run, reading contexts from `t`
      (the run as far as the pass has got) and classes from `s`; `before`
      is the element just before the run in the linear stream. */
  function NeighboursAt(s: seq<Node>, t: seq<Node>, i: nat, before: Node, ahead: Ahead): Neighbours
    requires i <= |s| == |t|
  {
    var prev := if i == 0 then before else t[i - 1];
    var j := PrevNonWs(s, i);
    Neighbours(prev.kind.Newline?, prev.ctx, if j < 0 then Unset else t[j].ctx,
               ahead.nextNonWsOpen, ahead.nextOpen, ahead.groupChildren)
  }

  /** Conditions under which no token of a run is left without context: the
      element before the run has a context, horizontal white space is not a
      token of its own (it lives in the leading-space field), a first token
      that inherits sits at the start of a line, and every assignment has a
      left-hand side before it. */
  predicate Anchored(s: seq<Node>, before: Node) {
    && before.ctx != Unset
    && (forall i :: 0 <= i < |s| ==> !s[i].kind.Whitespace?)
    && (|s| > 0 && DefaultKind(s[0].kind) ==> before.kind.Newline?)
    && (forall i :: 0 <= i < |s| && s[i].kind.Operator? && s[i].content == "=" ==> PrevNonWs(s, i) >= 0)
  }

  predicate IsComma(n: Node) {
    n.kind.Operator? && n.content == ","
  }

  /** The rule's decision is set whenever everything it may copy is set. */
  lemma DecisionSet(k: Kind, content: string, nb: Neighbours)
    requires IsToken(k)
    requires nb.prevCtx != Unset
    requires DefaultKind(k) && !nb.prevIsNewline ==> nb.prevSiblingCtx != Unset
    requires k.Operator? && content == "=" ==> nb.prevSiblingCtx != Unset
    ensures Classify(k, content, nb).Success? ==> Classify(k, content, nb).value.ctx != Unset
  {
  }

  /** Token `j` of the run carries the context its rule gives it in the
      neighbourhood `t` provides, and is otherwise unchanged. */
  predicate RuleHolds(s: seq<Node>, t: seq<Node>, j: nat, before: Node, ahead: Ahead) {
    && j < |s| == |t|
    && IsToken(s[j].kind)
    && t[j] == s[j].(ctx := t[j].ctx)
    && var d := Classify(s[j].kind, s[j].content, NeighboursAt(s, t, j, before, ahead));
       d.Success? && t[j].ctx == d.value.ctx
  }

  /** Whether the rule holds for token `j` depends only on the run up to `j`. */
  lemma RuleFrame(s: seq<Node>, t: seq<Node>, t': seq<Node>, j: nat, before: Node, ahead: Ahead)
    requires j < |s| == |t| == |t'|
    requires forall m :: 0 <= m <= j ==> t[m] == t'[m]
    ensures RuleHolds(s, t, j, before, ahead) <==> RuleHolds(s, t', j, before, ahead)
  {
    assert NeighboursAt(s, t, j, before, ahead) == NeighboursAt(s, t', j, before, ahead);
  }

  /** Assigns every token of a run its context, left to right, so that each
      rule sees the contexts already given to the tokens before it. Stops at
      the first unknown cast. */
  method InferRun(s: seq<Node>, before: Node, ahead: seq<Ahead>) returns (r: Result<seq<Node>, string>)
    requires |ahead| == |s|
    requires forall i :: 0 <= i < |s| ==> IsToken(s[i].kind)
    ensures r.Failure? <==> exists i :: 0 <= i < |s| && s[i].kind.Cast? && !KnownCast(s[i].content)
    ensures r.Success? ==> |r.value| == |s|
    ensures r.Success? ==> forall i :: 0 <= i < |s| ==> RuleHolds(s, r.value, i, before, ahead[i])
    ensures r.Success? ==> forall i :: 0 <= i < |s| && IsComma(s[i]) ==> r.value[i].ctx == Scalar
    ensures r.Success? && Anchored(s, before) ==> forall i :: 0 <= i < |s| ==> r.value[i].ctx != Unset
  {
    var t := s;
    var i := 0;
    while i < |s|
      invariant 0 <= i <= |s| == |t|
      invariant forall j :: i <= j < |s| ==> t[j] == s[j]
      invariant forall j :: 0 <= j < i ==> RuleHolds(s, t, j, before, ahead[j])
      invariant Anchored(s, before) ==> forall j :: 0 <= j < i ==> t[j].ctx != Unset
    {
      var nb := NeighboursAt(s, t, i, before, ahead[i]);
      var d := Classify(s[i].kind, s[i].content, nb);
      if d.Failure? {
        assert s[i].kind.Cast? && !KnownCast(s[i].content);
        return Failure(d.error);
      }
      if Anchored(s, before) {
        if i > 0 && DefaultKind(s[i].kind) && !t[i - 1].kind.Newline? {
          assert RuleHolds(s, t, i - 1, before, ahead[i - 1]);
          assert t[i - 1].kind == s[i - 1].kind;
          assert !IsWs(s[i - 1].kind);
          assert PrevNonWs(s, i) == i - 1;
        }
        DecisionSet(s[i].kind, s[i].content, nb);
      }
      var t' := t[i := t[i].(ctx := d.value.ctx)];
      forall j | 0 <= j < i
        ensures RuleHolds(s, t', j, before, ahead[j]) <==> RuleHolds(s, t, j, before, ahead[j])
      {
        RuleFrame(s, t, t', j, before, ahead[j]);
      }
      assert NeighboursAt(s, t', i, before, ahead[i]) == nb;
      t := t';
      i := i + 1;
    }
    r := Success(t);
    forall i | 0 <= i < |s| ensures !(s[i].kind.Cast? && !KnownCast(s[i].content)) {
      assert RuleHolds(s, t, i, before, ahead[i]);
    }
    forall i | 0 <= i < |s| && IsComma(s[i]) ensures t[i].ctx == Scalar {
      assert RuleHolds(s, t, i, before, ahead[i]);
      CommaAlwaysScalar(NeighboursAt(s, t, i, before, ahead[i]));
    }
  }
}

=== FILE: headers.dfy ===
/** The three word rules that assemble a header: `my` declarations, the
    `sub` header and the `package` statement, which becomes a class. */
module Headers {
  import opened Wrappers
  import opened Strings
  import opened Tokens

  // ---------------------------------------------------------------------
  // my

  /** What `tokenWordMy` reads: whether the word is inside a sub, whether an
      `=` comes before the terminator, whether a parenthesised list follows
      and holds an expression statement, the rendered symbols of that
      expression, the indentation of the statement, and the two
      non-whitespace elements after the word. */
  datatype MySite = MySite(
    withinSub: bool,
    hasInit: bool,
    nextIsList: bool,
    listHoldsExpression: bool,
    vars: seq<string>,
    indent: nat,
    peek0: string,
    peek1IsSemicolon: bool)

  datatype MyOutcome =
    | Private                  // outside a sub: a class property
    | Declare(text: string)    // `my` becomes one `= null;` line per variable;
                               // the rest of the statement up to the terminator is canceled
    | KillWord                 // `my` and its whitespace are removed
    | KillAndInitialise        // ... and the terminator becomes ` = null;`
    | KeepWord                 // a list without an expression: nothing to do

  /** One assignment per declared variable. */
  function Assignments(vars: seq<string>): (r: seq<string>)
    ensures |r| == |vars|
    ensures forall i :: 0 <= i < |vars| ==> r[i] == vars[i] + " = null;"
  {
    seq(|vars|, i requires 0 <= i < |vars| => vars[i] + " = null;")
  }

  /** The declaration text: the assignments, one per line, the lines after
      the first indented like the statement. */
  function DeclarationText(vars: seq<string>, indent: nat): string {
    Join(Assignments(vars), "\n" + Spaces(indent))
  }

  /** The string-building loop of `tokenWordMy`: a line break and the
      indentation go in front of every assignment but the first. */
  method BuildDeclaration(vars: seq<string>, indent: nat) returns (s: string)
    ensures s == DeclarationText(vars, indent)
  {
    var sep := "\n" + Spaces(indent);
    s := "";
    var k := 0;
    while k < |vars|
      invariant 0 <= k <= |vars|
      invariant s == Join(Assignments(vars[..k]), sep)
      invariant k > 0 ==> s != ""
    {
      var a := vars[k] + " = null;";
      if s != "" {
        s := s + sep;
      }
      assert Assignments(vars[..k + 1]) == Assignments(vars[..k]) + [a];
      if k > 0 {
        JoinSnoc(Assignments(vars[..k]), a, sep);
      }
      s := s + a;
      k := k + 1;
    }
    assert vars[..k] == vars;
  }

  function MyCode(site: MySite): (r: MyOutcome)
    ensures r == Private <==> !site.withinSub
    ensures r.Declare? ==> site.nextIsList && !site.hasInit && r.text == DeclarationText(site.vars, site.indent)
    ensures r == KillAndInitialise ==> !site.nextIsList && site.peek1IsSemicolon
  {
    if !site.withinSub then Private
    else if site.nextIsList then
      if site.hasInit then KillWord
      else if site.listHoldsExpression then Declare(DeclarationText(site.vars, site.indent))
      else KeepWord
    else if site.peek0 == "=" then KillWord
    else if site.peek1IsSemicolon then KillAndInitialise
    else KillWord
  }

  /** The declaration text read line by line: the first assignment, then
      each further assignment behind the indentation. */
  lemma DeclarationLines(vars: seq<string>, indent: nat)
    requires |vars| >= 1
    requires forall i :: 0 <= i < |vars| ==> '\n' !in vars[i]
    ensures var lines := Split(DeclarationText(vars, indent), '\n');
      && |lines| == |vars|
      && lines[0] == vars[0] + " = null;"
      && forall i :: 1 <= i < |vars| ==> lines[i] == Spaces(indent) + (vars[i] + " = null;")
  {
    var a := Assignments(vars);
    var ls := Indented(a, Spaces(indent));
    assert Split(DeclarationText(vars, indent), '\n') == ls by {
      assert DeclarationText(vars, indent) == Join(ls, "\n") by {
        assert "\n" + Spaces(indent) == ['\n'] + Spaces(indent);
        JoinIndented(a, '\n', Spaces(indent));
      }
      AssignmentLinesFree(vars, indent);
      SplitOfJoin(ls, '\n');
    }
  }

  lemma AssignmentLinesFree(vars: seq<string>, indent: nat)
    requires |vars| >= 1
    requires forall i :: 0 <= i < |vars| ==> '\n' !in vars[i]
    ensures forall i :: 0 <= i < |vars| ==> '\n' !in Indented(Assignments(vars), Spaces(indent))[i]
  {
    var ls := Indented(Assignments(vars), Spaces(indent));
    forall i | 0 <= i < |vars| ensures '\n' !in ls[i] {
      assert '\n' !in " = null;";
      assert '\n' !in vars[i] + " = null;";
      if i > 0 {
        assert ls[i] == Spaces(indent) + (vars[i] + " = null;");
      }
    }
  }

  /** Which outcome applies: outside a sub always a property; a list is
      taken apart only when nothing initialises it; a single variable gets
      an explicit `null` exactly when it is declared bare before the
      terminator. */
  lemma MyOutcomes(site: MySite)
    ensures MyCode(site) == Private <==> !site.withinSub
    ensures MyCode(site).Declare? <==>
      site.withinSub && site.nextIsList && !site.hasInit && site.listHoldsExpression
    ensures MyCode(site) == KillAndInitialise <==>
      site.withinSub && !site.nextIsList && site.peek0 != "=" && site.peek1IsSemicolon
    ensures MyCode(site) == KeepWord ==> site.nextIsList
  {
  }

  // ---------------------------------------------------------------------
  // sub

  /** The statement the `sub` word sits in. */
  datatype SubParent =
    | VariableStatement          // `my $f = sub { … }`: an anonymous function
    | SubStatement               // a named sub
    | OtherParent(className: string)

  /** The object argument is implicit in a PHP method. */
  function DropReceiver(args: seq<string>): (r: seq<string>)
    ensures |args| > 0 && (args[0] == "$self" || args[0] == "$this") ==> r == args[1..]
    ensures |args| == 0 || (args[0] != "$self" && args[0] != "$this") ==> r == args
  {
    if |args| > 0 && (args[0] == "$self" || args[0] == "$this") then args[1..] else args
  }

  /** `tokenWordSub`: the header text. `name` is the camel-cased name
      after the word, `args` the argument names found in the first lines
      of the body. */
  function SubHeader(parent: SubParent, name: string, args: seq<string>): (r: Result<string, string>)
    ensures r.Failure? <==> parent.OtherParent?
    ensures parent.SubStatement? ==> ParamText(r.value, name) == Some(Join(DropReceiver(args), ", "))
  {
    match parent
    case VariableStatement => Success("function ()")
    case SubStatement => Success("function " + name + "(" + Join(DropReceiver(args), ", ") + ")")
    case OtherParent(c) => Failure("Bad context " + c + ", Could not convert \n")
  }

  /** The parameter text of a header: what lies between the first `(` after
      the name and the final `)`. */
  function ParamText(header: string, name: string): Option<string> {
    var p := "function " + name + "(";
    if |header| > |p| && header[..|p|] == p && header[|header| - 1] == ')' then
      Some(header[|p|..|header| - 1])
    else None
  }

  /** The header of a named sub lists the arguments in order, without the
      receiver: cut at the commas, the parameter text gives back each
      argument (after the one-space indentation). */
  lemma SubHeaderParams(name: string, args: seq<string>)
    requires |DropReceiver(args)| >= 1
    requires forall i :: 0 <= i < |args| ==> ',' !in args[i]
    ensures SubHeader(SubStatement, name, args).Success?
    ensures ParamText(SubHeader(SubStatement, name, args).value, name).Some?
    ensures var ps := Split(ParamText(SubHeader(SubStatement, name, args).value, name).value, ',');
      ps == Indented(DropReceiver(args), " ")
  {
    var xs := DropReceiver(args);
    var h := "function " + name + "(" + Join(xs, ", ") + ")";
    var p := "function " + name + "(";
    assert h[..|p|] == p;
    assert h[|p|..|h| - 1] == Join(xs, ", ");
    JoinIndented(xs, ',', " ");
    assert ", " == [','] + " ";
    var ls := Indented(xs, " ");
    forall i | 0 <= i < |ls| ensures ',' !in ls[i] {
      if i > 0 {
        assert ls[i] == " " + xs[i];
        assert xs[i] in args;
      } else {
        assert xs[0] in args;
      }
    }
    SplitOfJoin(ls, ',');
  }

  /** A method's `$self`/`$this` argument never shows up: the header is the
      one the remaining arguments give. */
  lemma ReceiverDropped(name: string, receiver: string, rest: seq<string>)
    requires receiver == "$self" || receiver == "$this"
    requires |rest| == 0 || (rest[0] != "$self" && rest[0] != "$this")
    ensures SubHeader(SubStatement, name, [receiver] + rest) == SubHeader(SubStatement, name, rest)
  {
    assert ([receiver] + rest)[1..] == rest;
  }

  // ---------------------------------------------------------------------
  // package

  /** `tokenWordPackage`: the class header for the package name `text`;
      the part before the last `::` becomes the namespace. */
  function ClassHeader(text: string, camel: string -> string, package: string -> string): (r: string)
    ensures StartsWith(r, "class ") || StartsWith(r, "namespace ")
    ensures EndsWith(r, "\n{")
  {
    var (ns, className) := match SplitAtLast(text, "::")
      case Some((a, b)) => (package(a), b)
      case None => ("", text);
    (if PhpEmpty(ns) then "" else "namespace " + ns + ";\n\n")
    + "class " + UcFirst(camel(className)) + "\n{"
  }

  /** A qualified name gives a namespace line, a blank line, the class line
      and the opening brace; the class is the part after the last `::`. */
  lemma NamespacedHeaderLines(pkg: string, cls: string, camel: string -> string, package: string -> string)
    requires ':' !in cls
    requires !PhpEmpty(package(pkg))
    requires '\n' !in package(pkg) && '\n' !in camel(cls)
    ensures Split(ClassHeader(pkg + "::" + cls, camel, package), '\n')
         == ["namespace " + package(pkg) + ";", "", "class " + UcFirst(camel(cls)), "{"]
  {
    SplitAtLastColonFree(pkg, cls);
    var ns := package(pkg);
    var c := UcFirst(camel(cls));
    assert '\n' !in c by {
      forall j | 0 <= j < |c| ensures c[j] != '\n' {
        if j > 0 {
          assert c[j] == camel(cls)[1..][j - 1];
        } else {
          assert c[0] == ToUpper(camel(cls)[0]);
        }
      }
    }
    assert '\n' !in "namespace " + ns + ";" by {
      assert '\n' !in "namespace " && '\n' !in ";";
    }
    assert '\n' !in "class " + c by {
      assert '\n' !in "class ";
    }
    assert ClassHeader(pkg + "::" + cls, camel, package)
        == ("namespace " + ns + ";") + "\n" + "" + "\n" + ("class " + c) + "\n" + "{";
    FourLines("namespace " + ns + ";", "", "class " + c, "{");
  }

  /** Four lines joined by line feeds are cut back into those four. */
  lemma FourLines(a: string, b: string, c: string, d: string)
    requires '\n' !in a && '\n' !in b && '\n' !in c && '\n' !in d
    ensures Split(a + "\n" + b + "\n" + c + "\n" + d, '\n') == [a, b, c, d]
  {
    var r3 := c + "\n" + d;
    var r2 := b + "\n" + r3;
    var r1 := a + "\n" + r2;
    SplitNoSeparator(d, '\n');
    LineBefore(c, d, [d]);
    LineBefore(b, r3, [c, d]);
    LineBefore(a, r2, [b, c, d]);
    ConcatLines(a, b, c, d);
  }

  lemma ConcatLines(a: string, b: string, c: string, d: string)
    ensures a + "\n" + b + "\n" + c + "\n" + d == a + "\n" + (b + "\n" + (c + "\n" + d))
  {
  }

  /** An unqualified name is a class in the global namespace. */
  lemma GlobalClassHeader(name: string, camel: string -> string, package: string -> string)
    requires ':' !in name
    ensures ClassHeader(name, camel, package) == "class " + UcFirst(camel(name)) + "\n{"
  {
    assert SplitAtLast(name, "::").None?;
  }

  /** A package whose helper path is empty or `"0"` (PHP's `empty`) also
      gets no namespace line. */
  lemma EmptyNamespaceOmitted(pkg: string, cls: string, camel: string -> string, package: string -> string)
    requires ':' !in cls && PhpEmpty(package(pkg))
    ensures ClassHeader(pkg + "::" + cls, camel, package) == "class " + UcFirst(camel(cls)) + "\n{"
  {
    SplitAtLastColonFree(pkg, cls);
  }

  /** The package statement over the stream: the word becomes the class
      header, everything after it up to and including the terminator is
      canceled, and the document's closing text becomes `}` and a line
      feed. A statement without a terminator stops the conversion. */
  function PackageAt(s: seq<Node>, i: nat, camel: string -> string, package: string -> string)
    : (r: Result<(seq<Node>, string), string>)
    requires i < |s|
    ensures r.Success? ==> Monotone(s, r.value.0)
  {
    match NameAfter(s, i + 1)
    case None => Failure("package without a name")
    case Some(n) =>
      match NextSemicolon(s, i + 1)
      case None => Failure("package without a terminator")
      case Some(e) =>
        var t := SetContentAt(s, i, ClassHeader(s[n].content, camel, package));
        Success((CancelRange(t, i + 1, e + 1), "}\n"))
  }

  /** The first element at or after `k` that is not whitespace. */
  function NameAfter(s: seq<Node>, k: nat): (r: Option<nat>)
    requires k <= |s|
    ensures r.Some? ==> k <= r.value < |s| && !IsWs(s[r.value].kind)
    decreases |s| - k
  {
    if k == |s| then None
    else if !IsWs(s[k].kind) then Some(k)
    else NameAfter(s, k + 1)
  }

  /** The whole `package …;` statement collapses to the header: after the
      word nothing up to the terminator is left in the output... */
  lemma PackageHidesStatement(s: seq<Node>, i: nat, camel: string -> string, package: string -> string)
    requires i < |s|
    requires PackageAt(s, i, camel, package).Success?
    ensures var e := NextSemicolon(s, i + 1).value;
      Text(PackageAt(s, i, camel, package).value.0[i + 1..e + 1]) == ""
  {
    var e := NextSemicolon(s, i + 1).value;
    var text := ClassHeader(s[NameAfter(s, i + 1).value].content, camel, package);
    var u := CancelRange(SetContentAt(s, i, text), i + 1, e + 1);
    HeaderThenCanceled(s, i, e, text);
    assert PackageAt(s, i, camel, package) == Success((u, "}\n"));
  }

  /** ... the word holds the class header, and the rest of the document is
      untouched. */
  lemma PackageLeavesHeaderOnly(s: seq<Node>, i: nat, camel: string -> string, package: string -> string)
    requires i < |s|
    requires PackageAt(s, i, camel, package).Success?
    ensures var e := NextSemicolon(s, i + 1).value;
      var t := PackageAt(s, i, camel, package).value.0;
      && t[e + 1..] == s[e + 1..]
      && t[..i] == s[..i]
      && t[i].content == ClassHeader(s[NameAfter(s, i + 1).value].content, camel, package)
  {
    var e := NextSemicolon(s, i + 1).value;
    var text := ClassHeader(s[NameAfter(s, i + 1).value].content, camel, package);
    var u := CancelRange(SetContentAt(s, i, text), i + 1, e + 1);
    HeaderThenCanceled(s, i, e, text);
    assert PackageAt(s, i, camel, package) == Success((u, "}\n"));
  }

  /** Setting the header and canceling the rest of the statement leaves
      only the header and what is outside the statement. */
  lemma HeaderThenCanceled(s: seq<Node>, i: nat, e: nat, text: string)
    requires i < e < |s|
    ensures var t := CancelRange(SetContentAt(s, i, text), i + 1, e + 1);
      && Text(t[i + 1..e + 1]) == ""
      && t[e + 1..] == s[e + 1..]
      && t[..i] == s[..i]
      && t[i].content == text
  {
    var t := CancelRange(SetContentAt(s, i, text), i + 1, e + 1);
    AllCanceledText(t[i + 1..e + 1]);
  }
}

=== FILE: markers.dfy ===
/** The two review markers the rewriter leaves in its output where it
    cannot decide: a placeholder variable `$fake/*check:…*/` where an
    expression is needed, and a comment `/*check:…*/` elsewhere. Both keep
    the original text, which can be read back. The call forms the rewriter
    emits in place of Perl operators and builtins are read back the same
    way. */
module Markers {
  import opened Wrappers
  import opened Strings

  function Placeholder(text: string): string {
    "$fake/*check:" + text + "*/"
  }

  /** The partner of Placeholder: the text inside a placeholder. */
  function PlaceholderText(t: string): (r: Option<string>)
    ensures r.Some? ==> Placeholder(r.value) == t
  {
    if |t| >= 15 && t[..13] == "$fake/*check:" && t[|t| - 2..] == "*/" then
      var inner := t[13..|t| - 2];
      assert t == t[..13] + inner + t[|t| - 2..];
      Some(inner)
    else None
  }

  lemma PlaceholderRoundTrip(text: string)
    ensures PlaceholderText(Placeholder(text)) == Some(text)
  {
    var t := Placeholder(text);
    assert t[..13] == "$fake/*check:";
    assert t[|t| - 2..] == "*/";
    assert t[13..|t| - 2] == text;
  }

  function CheckComment(text: string): string {
    "/*check:" + text + "*/"
  }

  /** The partner of CheckComment. */
  function CheckCommentText(t: string): (r: Option<string>)
    ensures r.Some? ==> CheckComment(r.value) == t
  {
    if |t| >= 10 && t[..8] == "/*check:" && t[|t| - 2..] == "*/" then
      var inner := t[8..|t| - 2];
      assert t == t[..8] + inner + t[|t| - 2..];
      Some(inner)
    else None
  }

  lemma CheckCommentRoundTrip(text: string)
    ensures CheckCommentText(CheckComment(text)) == Some(text)
  {
    var t := CheckComment(text);
    assert t[..8] == "/*check:";
    assert t[|t| - 2..] == "*/";
    assert t[8..|t| - 2] == text;
  }

  /** The partner of the call forms `fn(…)` the rewriter emits: the text
      between the parentheses. */
  function CallArgument(fn: string, t: string): Option<string> {
    if |t| >= |fn| + 2 && t[..|fn| + 1] == fn + "(" && t[|t| - 1] == ')' then
      Some(t[|fn| + 1..|t| - 1])
    else None
  }

  /** The argument of a call form is what was put between its parentheses. */
  lemma CallArgumentOf(fn: string, x: string)
    ensures CallArgument(fn, fn + "(" + x + ")") == Some(x)
  {
    var t := fn + "(" + x + ")";
    assert t[..|fn| + 1] == fn + "(";
    assert t[|fn| + 1..|t| - 1] == x;
  }
}

=== FILE: numbers.dfy ===
/** Number tokens (`genCode` of the number class): the module-closing
    statement `1;` that every Perl module ends with has no PHP counterpart,
    so a number statement at the top of the document followed by its
    terminator and a line feed is removed. Otherwise the number keeps its
    text. */
module Numbers {
  import opened Wrappers
  import opened Tokens

  /** Where the number sits in the tree: its parent is a statement, that
      statement's parent is the document, and the number is the statement's
      first child (`prevSibling` is null). */
  datatype NumberSite = NumberSite(parentIsStatement: bool, atTopLevel: bool, firstChild: bool)

  /** The tree-position part of the test. */
  predicate TopStatementStart(site: NumberSite) {
    site.parentIsStatement && site.atTopLevel && site.firstChild
  }

  /** The rule on the number at `i`. The two elements after it are read
      only as far as the test gets: a missing one there stops the
      conversion. A number already converted is left alone. */
  function NumberAt(s: seq<Node>, i: nat, site: NumberSite): (r: Result<seq<Node>, string>)
    requires i < |s| && s[i].kind.Number?
    ensures r.Success? ==> Monotone(s, r.value)
  {
    if s[i].converted || !TopStatementStart(site) then Success(s)
    else if i + 1 >= |s| then Failure("number statement without a following element")
    else if !IsSemicolon(s[i + 1]) then Success(s)
    else if i + 2 >= |s| then Failure("number statement without a line end")
    else if s[i + 2].kind.Newline? then Success(CancelRange(s, i, i + 3))
    else Success(s)
  }

  /** The whole pattern: a top-level number statement, its terminator and
      a line feed. The number's value plays no part (`42;` goes as well as
      `1;`), and neither does where in the document the statement is. */
  predicate ModuleTrailer(s: seq<Node>, i: nat, site: NumberSite)
    requires i < |s|
  {
    && !s[i].converted && TopStatementStart(site)
    && i + 2 < |s| && IsSemicolon(s[i + 1]) && s[i + 2].kind.Newline?
  }

  /** The rule removes the three elements exactly on the pattern and leaves
      the stream alone everywhere else it succeeds; it fails only when the
      stream ends inside the pattern. */
  lemma NumberOutcomes(s: seq<Node>, i: nat, site: NumberSite)
    requires i < |s| && s[i].kind.Number?
    ensures NumberAt(s, i, site).Failure? <==>
      (!s[i].converted && TopStatementStart(site)
       && (i + 1 == |s| || (IsSemicolon(s[i + 1]) && i + 2 == |s|)))
    ensures ModuleTrailer(s, i, site) ==> NumberAt(s, i, site) == Success(CancelRange(s, i, i + 3))
    ensures !ModuleTrailer(s, i, site) && NumberAt(s, i, site).Success? ==> NumberAt(s, i, site) == Success(s)
  {
  }

  /** Removing the trailer takes out exactly its text: what is before and
      after it renders as before. */
  lemma {:induction false} TrailerTextRemoved(s: seq<Node>, i: nat, site: NumberSite)
    requires i < |s| && s[i].kind.Number? && ModuleTrailer(s, i, site)
    ensures NumberAt(s, i, site).Success?
    ensures Text(NumberAt(s, i, site).value) == Text(s[..i]) + Text(s[i + 3..])
  {
    assert NumberAt(s, i, site) == Success(CancelRange(s, i, i + 3));
    CancelRangeText(s, i, i + 3);
  }

  /** A number anywhere below the top level, or not first in its
      statement, is never removed. */
  lemma NestedNumberKept(s: seq<Node>, i: nat, site: NumberSite)
    requires i < |s| && s[i].kind.Number? && !TopStatementStart(site)
    ensures NumberAt(s, i, site) == Success(s)
  {
  }
}

=== FILE: operators.dfy ===
/** Operator tokens (`genCode` of the operator class): word operators
    become symbols, `->` disappears before a non-word, the regex binding
    operators become `preg_match`/`preg_replace` calls, `x` becomes
    `str_repeat` and `-e` becomes `file_exists`. */
module Operators {
  import opened Wrappers
  import opened Strings
  import opened Markers

  /** The word operators that have a symbolic equivalent. */
  function WordOperator(op: string): Option<string> {
    if op == "eq" then Some("===")
    else if op == "ne" then Some("!==")
    else if op == "lt" then Some("<")
    else if op == "gt" then Some(">")
    else if op == "not" then Some("!")
    else if op == "and" then Some("&&")
    else if op == "or" then Some("||")
    else None
  }

  /** Operators with a rule that reads neighbouring elements. */
  predicate NeighbourOperator(op: string) {
    op == "->" || op == "=~" || op == "!~" || op == "x" || op == "-e"
  }

  /** What the operator rule reads around the operator: whether the next
      non-whitespace element is a word, the rendered text of the left and
      right operands (`getLeftArg`/`getRightArg`), and the delimiter split
      of a substitution body (`preg_match` with a look-behind for escaped
      delimiters), which this model does not open up. */
  datatype OpSite = OpSite(
    nextIsWord: bool,
    leftText: string,
    rightText: string,
    splitter: string -> Option<(string, string)>)

  datatype OpOutcome =
    | Rewritten(text: string)   // the operator's content is replaced
    | Canceled                  // the operator is canceled
    | Unchanged

  /** `preg_replace('/\w*$/', '', $s)`: drops the modifier letters after the
      closing delimiter (the run of word characters at the end, or just before
      a final line feed). */
  function StripModifiers(s: string): (r: string)
    ensures |r| <= |s|
    ensures |s| > 0 && s[|s| - 1] == '\n' ==> |r| > 0 && r[|r| - 1] == '\n'
    ensures var body := if |r| > 0 && r[|r| - 1] == '\n' && |s| > 0 && s[|s| - 1] == '\n' then r[..|r| - 1] else r;
            body == [] || !IsWordChar(body[|body| - 1])
    ensures var n := if |s| > 0 && s[|s| - 1] == '\n' then 1 else 0;
            && n <= |r|
            && r[|r| - n..] == s[|s| - n..]
            && StartsWith(s, r[..|r| - n])
            && (forall k :: |r| - n <= k < |s| - n ==> IsWordChar(s[k]))
  {
    var end := if |s| > 0 && s[|s| - 1] == '\n' then |s| - 1 else |s|;
    var p := WordRunStart(s, end);
    StripFacts(s, end, p);
    s[..p] + s[end..]
  }

  lemma StripFacts(s: string, end: nat, p: nat)
    requires end == (if |s| > 0 && s[|s| - 1] == '\n' then |s| - 1 else |s|)
    requires p <= end && (p == 0 || !IsWordChar(s[p - 1]))
    ensures var r := s[..p] + s[end..];
            var n := |s| - end;
            && |r| <= |s| && n <= |r| && |r| - n == p
            && r[..p] == s[..p] && r[p..] == s[end..]
            && (n == 1 ==> |r| > 0 && r[|r| - 1] == '\n')
            && (n == 0 ==> r == s[..p])
            && StartsWith(s, r[..p])
  {
  }

  /** Start of the run of word characters that ends at `end`. */
  function WordRunStart(s: string, end: nat): (p: nat)
    requires end <= |s|
    ensures p <= end
    ensures forall j :: p <= j < end ==> IsWordChar(s[j])
    ensures p == 0 || !IsWordChar(s[p - 1])
    decreases end
  {
    if end > 0 && IsWordChar(s[end - 1]) then WordRunStart(s, end - 1) else end
  }

  /** The match of `\(\s*(\$\w+)\s*=` starting exactly at `p`, if any: the
      scalar assigned inside a parenthesised assignment. */
  function ParenAssignAt(v: string, p: nat): (r: Option<string>)
    requires p <= |v|
    ensures r.Some? ==> |r.value| >= 2 && r.value[0] == '$'
    ensures r.Some? ==> forall j :: 1 <= j < |r.value| ==> IsWordChar(r.value[j])
  {
    if p < |v| && v[p] == '(' then
      var q := SpanSpace(v, p + 1);
      if q < |v| && v[q] == '$' then
        var e := SpanWord(v, q + 1);
        var f := SpanSpace(v, e);
        if e > q + 1 && f < |v| && v[f] == '=' then Some(v[q..e]) else None
      else None
    else None
  }

  /** The leftmost position from `p` on where `\(\s*(\$\w+)\s*=`
      matches, or `|v| + 1` when there is none. */
  function FirstAssign(v: string, p: nat): (q: nat)
    requires p <= |v|
    ensures p <= q <= |v| + 1
    ensures q <= |v| ==> ParenAssignAt(v, q).Some?
    ensures forall q' :: p <= q' < q && q' <= |v| ==> ParenAssignAt(v, q').None?
    decreases |v| - p
  {
    if ParenAssignAt(v, p).Some? then p
    else if p == |v| then |v| + 1
    else FirstAssign(v, p + 1)
  }

  /** `preg_match('/\(\s*(\$\w+)\s*=/', $v, $m)`: the leftmost match wins. */
  function ParenAssignTarget(v: string, p: nat): (r: Option<string>)
    requires p <= |v|
    ensures r.Some? ==> exists q :: p <= q <= |v| && ParenAssignAt(v, q) == r
                                    && forall q' :: p <= q' < q ==> ParenAssignAt(v, q').None?
    ensures r.None? ==> forall q :: p <= q <= |v| ==> ParenAssignAt(v, q).None?
  {
    var q := FirstAssign(v, p);
    if q <= |v| then ParenAssignAt(v, q) else None
  }



  /** A substitution arrives as the quoted text `'s…'`. */
  predicate IsSubstitution(regex: string) {
    |regex| >= 2 && regex[..2] == "'s"
  }

  /** The substitution body: the quotes and the `s` stripped, then the
      modifiers. */
  function SubstBody(regex: string): string {
    StripModifiers(if |regex| >= 3 then regex[2..|regex| - 1] else "")
  }

  /** The variable a substitution assigns to: the scalar of a
      parenthesised assignment `($x = …)` in the subject, or the subject. */
  function AssignTarget(v: string): string {
    match ParenAssignTarget(v, 0)
    case Some(x) => x
    case None => v
  }

  /** The `preg_replace` call a split substitution becomes, assigning back
      into the subject `v` (or the target found in it): the trimmed pattern
      and the trimmed replacement single-quoted, then the subject. */
  function SubstCall(v: string, pattern: string, replace: string): string {
    AssignTarget(v) + " = "
      + ("preg_replace" + "(" + ("'" + Trim(pattern) + "', '" + Trim(replace) + "', " + v) + ")")
  }

  /** `cvtRegEx`: the text the binding operator becomes, or None when the
      substitution body cannot be split (the operator is then left as it
      is). `regex` is the rendered right operand, already single-quoted. */
  function RegexBind(leftText: string, regex: string, neg: bool,
                     splitter: string -> Option<(string, string)>): (r: Option<string>)
    ensures !IsSubstitution(regex) ==> r.Some?
    ensures IsSubstitution(regex) ==> (r.Some? <==> splitter(SubstBody(regex)).Some?)
  {
    if IsSubstitution(regex) then
      match splitter(SubstBody(regex))
      case None => None
      case Some((pattern, replace)) => Some(SubstCall(Trim(leftText), pattern, replace))
    else
      var m := "preg_match" + "(" + (Trim(regex) + ", " + Trim(leftText)) + ")";
      Some(if neg then "! " + "(" + m + ")" else m)
  }

  /** `genCode` of an operator token. */
  function OperatorCode(op: string, site: OpSite): (r: OpOutcome)
    ensures r.Canceled? <==> op == "->" && !site.nextIsWord
    ensures WordOperator(op).Some? || op == "x" || op == "-e" ==> r.Rewritten?
    ensures (op == "=~" || op == "!~") && !IsSubstitution(site.rightText) ==> r.Rewritten?
  {
    match WordOperator(op)
    case Some(sym) => Rewritten(sym)
    case None =>
      if op == "->" then (if site.nextIsWord then Unchanged else Canceled)
      else if op == "=~" || op == "!~" then
        match RegexBind(site.leftText, site.rightText, op == "!~", site.splitter)
        case Some(t) => Rewritten(t)
        case None => Unchanged
      else if op == "x" then Rewritten("str_repeat(" + site.leftText + ", " + site.rightText + ")")
      else if op == "-e" then Rewritten("file_exists(" + site.rightText + ")")
      else Unchanged
  }

  /** The seven word operators and their symbols; the result depends on the
      operator's own text only. */
  lemma WordOperatorTable(site: OpSite)
    ensures OperatorCode("eq", site) == Rewritten("===")
    ensures OperatorCode("ne", site) == Rewritten("!==")
    ensures OperatorCode("lt", site) == Rewritten("<")
    ensures OperatorCode("gt", site) == Rewritten(">")
    ensures OperatorCode("not", site) == Rewritten("!")
    ensures OperatorCode("and", site) == Rewritten("&&")
    ensures OperatorCode("or", site) == Rewritten("||")
  {
  }

  /** Any operator outside the table and the five neighbour-reading
      operators keeps its text. */
  lemma OtherOperatorsUnchanged(op: string, site: OpSite)
    requires WordOperator(op).None? && !NeighbourOperator(op)
    ensures OperatorCode(op, site) == Unchanged
  {
  }

  /** A word operator's rewrite is a function of its own text alone. */
  lemma WordOperatorIgnoresSite(op: string, site1: OpSite, site2: OpSite)
    requires WordOperator(op).Some?
    ensures OperatorCode(op, site1) == OperatorCode(op, site2)
    ensures OperatorCode(op, site1).Rewritten?
  {
  }

  /** `->` survives exactly when a word follows it. */
  lemma ArrowKeptBeforeWord(site: OpSite)
    ensures OperatorCode("->", site) == (if site.nextIsWord then Unchanged else Canceled)
  {
  }

  /** `x` always converts into a call whose arguments are its operands,
      untrimmed and in order. */
  lemma StrRepeatCall(site: OpSite)
    ensures OperatorCode("x", site).Rewritten?
    ensures CallArgument("str_repeat", OperatorCode("x", site).text)
      == Some(site.leftText + ", " + site.rightText)
  {
    var arg := site.leftText + ", " + site.rightText;
    assert OperatorCode("x", site) == Rewritten("str_repeat" + "(" + arg + ")") by {
      assert WordOperator("x") == None;
    }
    CallArgumentOf("str_repeat", arg);
  }

  /** `-e` always converts into a call whose argument is its right operand;
      the left operand is never read. */
  lemma FileExistsCall(site: OpSite)
    ensures OperatorCode("-e", site).Rewritten?
    ensures CallArgument("file_exists", OperatorCode("-e", site).text) == Some(site.rightText)
  {
    assert OperatorCode("-e", site) == Rewritten("file_exists" + "(" + site.rightText + ")") by {
      assert WordOperator("-e") == None;
    }
    CallArgumentOf("file_exists", site.rightText);
  }

  /** `!~` on a match is the negation of `=~` on the same operands, while a
      substitution ignores the negation. */
  lemma NegatedMatch(leftText: string, regex: string, splitter: string -> Option<(string, string)>)
    ensures !IsSubstitution(regex) ==>
      RegexBind(leftText, regex, true, splitter)
        == Some("! (" + RegexBind(leftText, regex, false, splitter).value + ")")
    ensures IsSubstitution(regex) ==>
      RegexBind(leftText, regex, true, splitter) == RegexBind(leftText, regex, false, splitter)
  {
    assert "! " + "(" == "! (";
  }

  /** A substitution converts exactly when its body can be split; the
      result assigns back to the subject (or to the scalar of a
      parenthesised assignment in it) a `preg_replace` of the trimmed
      pattern by the trimmed replacement in the trimmed subject. */
  lemma SubstitutionAssignsBack(leftText: string, regex: string, neg: bool,
                                splitter: string -> Option<(string, string)>)
    requires IsSubstitution(regex)
    ensures RegexBind(leftText, regex, neg, splitter).Some? <==> splitter(SubstBody(regex)).Some?
    ensures splitter(SubstBody(regex)).Some? ==>
      var (pattern, replace) := splitter(SubstBody(regex)).value;
      var r := RegexBind(leftText, regex, neg, splitter).value;
      var v := Trim(leftText);
      var a := AssignTarget(v);
      && |r| >= |a| + 3
      && r[..|a| + 3] == a + " = "
      && CallArgument("preg_replace", r[|a| + 3..])
           == Some("'" + Trim(pattern) + "', '" + Trim(replace) + "', " + v)
  {
    match splitter(SubstBody(regex))
    case None =>
    case Some((pattern, replace)) =>
      var v := Trim(leftText);
      var arg := "'" + Trim(pattern) + "', '" + Trim(replace) + "', " + v;
      var call := "preg_replace" + "(" + arg + ")";
      assert RegexBind(leftText, regex, neg, splitter) == Some(AssignTarget(v) + " = " + call);
      AssignmentSplits(AssignTarget(v), call);
      CallArgumentOf("preg_replace", arg);
  }

  /** An assignment `a = c` splits back into its target and its value. */
  lemma AssignmentSplits(a: string, c: string)
    ensures |a + " = " + c| >= |a| + 3
    ensures (a + " = " + c)[..|a| + 3] == a + " = "
    ensures (a + " = " + c)[|a| + 3..] == c
  {
    assert |" = "| == 3;
  }

  /** A match always converts, into a `preg_match` over the trimmed
      operands, negated for `!~`: reading the call back gives the trimmed
      pattern, then the trimmed subject. */
  lemma RegexMatchConverts(leftText: string, regex: string, neg: bool,
                           splitter: string -> Option<(string, string)>)
    requires !IsSubstitution(regex)
    ensures RegexBind(leftText, regex, neg, splitter).Some?
    ensures neg ==> CallArgument("! ", RegexBind(leftText, regex, neg, splitter).value).Some?
    ensures
      var r := RegexBind(leftText, regex, neg, splitter).value;
      CallArgument("preg_match", if neg then CallArgument("! ", r).value else r)
        == Some(Trim(regex) + ", " + Trim(leftText))
  {
    var arg := Trim(regex) + ", " + Trim(leftText);
    CallArgumentOf("preg_match", arg);
    if neg {
      CallArgumentOf("! ", "preg_match" + "(" + arg + ")");
    }
  }


}

=== FILE: quotes.dfy ===
/** Quote-like tokens: regex literals become single-quoted PHP strings,
    double-quoted strings outside a sub have their `$` flagged, `qw(...)`
    becomes an array literal and `qq|...|` becomes a heredoc. */
module Quotes {
  import opened Wrappers
  import opened Strings

  // ---------------------------------------------------------------------
  // Regex literal

  /** `genCode` of the regexp class: the literal, with its single quotes
      escaped, inside single quotes. */
  function RegexpCode(content: string): (r: string)
    ensures |r| >= 2 && r[0] == '\'' && r[|r| - 1] == '\''
    ensures '\'' !in content ==> r == "'" + content + "'"
  {
    "'" + Replace(content, "'", "\\'") + "'"
  }

  /** The partner of RegexpCode: strip the quotes and undo the escaping. */
  function UnquoteRegexp(t: string): Option<string> {
    if |t| >= 2 && t[0] == '\'' && t[|t| - 1] == '\'' then
      Some(Replace(t[1..|t| - 1], "\\'", "'"))
    else None
  }

  /** The quoted literal gives back the original text, and it is longer by
      the two quotes and one backslash per quote in the literal. */
  lemma RegexpRoundTrip(content: string)
    ensures UnquoteRegexp(RegexpCode(content)) == Some(content)
    ensures |RegexpCode(content)| == |content| + 2 + Count(content, '\'')
  {
    var inner := Replace(content, "'", "\\'");
    var t := "'" + inner + "'";
    assert t[1..|t| - 1] == inner;
    ReplaceRoundTrip(content, '\'', "\\'");
    ReplaceCharLength(content, '\'', "\\'");
  }

  // ---------------------------------------------------------------------
  // Double-quoted string

  /** `genCode` of the double-quoted class: outside a sub (a class
      initializer cannot interpolate) every `$` is flagged for review. */
  function DoubleQuoteCode(content: string, withinSub: bool): (r: string)
    ensures '$' !in content ==> r == content
  {
    if withinSub then content else Replace(content, "$", "$/*check*/")
  }

  /** Flagging only inserts a marker after each `$`: removing the markers
      gives back the string; inside a sub, or without `$`, nothing
      changes. */
  lemma DoubleQuoteFlagsOnly(content: string, withinSub: bool)
    ensures !withinSub ==> Replace(DoubleQuoteCode(content, withinSub), "$/*check*/", "$") == content
    ensures withinSub || '$' !in content ==> DoubleQuoteCode(content, withinSub) == content
    ensures |DoubleQuoteCode(content, withinSub)|
         == |content| + (if withinSub then 0 else 9 * Count(content, '$'))
  {
    if !withinSub {
      ReplaceRoundTrip(content, '$', "$/*check*/");
      ReplaceCharLength(content, '$', "$/*check*/");
    }
  }

  // ---------------------------------------------------------------------
  // qw(...)

  /** First line feed at or after `k` (the end of the text if none): PCRE's
      `.` stops there. */
  function LineEnd(c: string, k: nat): (e: nat)
    requires k <= |c|
    ensures k <= e <= |c|
    ensures forall j :: k <= j < e ==> c[j] != '\n'
    ensures e == |c| || c[e] == '\n'
    decreases |c| - k
  {
    if k == |c| || c[k] == '\n' then k else LineEnd(c, k + 1)
  }

  /** The last `)` in c[lo..hi], where the greedy `(.*)\)` backtracks to. */
  function LastClose(c: string, lo: nat, hi: nat): (r: Option<nat>)
    requires lo <= hi <= |c|
    ensures r.Some? ==> lo <= r.value < hi && c[r.value] == ')'
    ensures r.Some? ==> forall j :: r.value < j < hi ==> c[j] != ')'
    ensures r.None? ==> forall j :: lo <= j < hi ==> c[j] != ')'
    decreases hi - lo
  {
    if hi == lo then None
    else if c[hi - 1] == ')' then Some(hi - 1)
    else LastClose(c, lo, hi - 1)
  }

  /** The match of `qw\s*\((.*)\)` that starts at `p`, if any: the list
      text between the parentheses, on the line of the `qw`. */
  function QwAt(c: string, p: nat): Option<string>
    requires p <= |c|
  {
    if OccursAt(c, "qw", p) then
      var q := SpanSpace(c, p + 2);
      if q < |c| && c[q] == '(' then
        match LastClose(c, q + 1, LineEnd(c, q + 1))
        case Some(j) => Some(c[q + 1..j])
        case None => None
      else None
    else None
  }

  /** The leftmost match of `qw\s*\((.*)\)` at or after `p`. */
  function QwBody(c: string, p: nat): Option<string>
    requires p <= |c|
    decreases |c| - p
  {
    if QwAt(c, p).Some? then QwAt(c, p)
    else if p == |c| then None
    else QwBody(c, p + 1)
  }

  /** Each item in single quotes. */
  function QuoteEach(items: seq<string>): (r: seq<string>)
    ensures |r| == |items|
    ensures forall i :: 0 <= i < |items| ==> r[i] == "'" + items[i] + "'"
  {
    if |items| == 0 then [] else ["'" + items[0] + "'"] + QuoteEach(items[1..])
  }

  /** The PHP array literal of the items. */
  function ArrayLiteral(items: seq<string>): string {
    "[ " + Join(QuoteEach(items), ", ") + " ]"
  }

  /** The items of the list, as written: the list text is exploded on
      single spaces. None when the pattern does not match (a list spread
      over several lines). */
  function QwItems(c: string): Option<seq<string>> {
    match QwBody(c, 0)
    case Some(inner) => Some(Split(inner, ' '))
    case None => None
  }

  /** `genCode` of the quote-like-words class: the array literal of the
      items; text the pattern does not match is left alone. */
  function QwCode(c: string): (r: string)
    ensures QwBody(c, 0).None? ==> r == c
    ensures QwBody(c, 0).Some? ==> StartsWith(r, "[ ") && EndsWith(r, " ]")
  {
    match QwItems(c)
    case Some(items) => ArrayLiteral(items)
    case None => c
  }

  /** The list text of a one-line `qw(...)` is what lies between the
      parentheses. */
  lemma QwBodyOfList(body: string)
    requires '\n' !in body
    ensures QwBody("qw(" + body + ")", 0) == Some(body)
  {
    var c := "qw(" + body + ")";
    assert OccursAt(c, "qw", 0);
    assert SpanSpace(c, 2) == 2;
    assert forall j :: 3 <= j < |c| ==> c[j] != '\n' by {
      forall j | 3 <= j < |c| ensures c[j] != '\n' {
        if j < |c| - 1 {
          assert c[j] == body[j - 3];
        }
      }
    }
    assert LineEnd(c, 3) == |c|;
    assert LastClose(c, 3, |c|) == Some(|c| - 1);
    assert c[3..|c| - 1] == body;
  }

  /** Single-space separated words come out as one quoted item each. */
  lemma QwWords(ws: seq<string>)
    requires |ws| >= 1
    requires forall i :: 0 <= i < |ws| ==> ' ' !in ws[i] && '\n' !in ws[i]
    ensures QwItems("qw(" + Join(ws, " ") + ")") == Some(ws)
    ensures QwCode("qw(" + Join(ws, " ") + ")") == ArrayLiteral(ws)
  {
    JoinAvoids(ws, " ", '\n');
    QwBodyOfList(Join(ws, " "));
    SplitOfJoin(ws, ' ');
  }

  /** The list text padded with spaces inside the parentheses. */
  function PaddedQw(ws: seq<string>, before: nat, after: nat): string {
    "qw(" + Spaces(before) + Join(ws, " ") + Spaces(after) + ")"
  }

  /** As written, a list padded inside its parentheses, `qw( a b )`, gets
      one empty item per padding space: more items than words. */
  lemma QwPaddedAsWritten(ws: seq<string>, before: nat, after: nat)
    requires |ws| >= 1
    requires forall i :: 0 <= i < |ws| ==> ' ' !in ws[i] && '\n' !in ws[i]
    ensures QwItems(PaddedQw(ws, before, after)) == Some(Empties(before) + ws + Empties(after))
    ensures before + after > 0 ==> QwItems(PaddedQw(ws, before, after)) != Some(ws)
  {
    PaddedParts(ws, before, after);
  }

  /** The items that are not empty, in order. */
  function NonEmpty(items: seq<string>): (r: seq<string>)
    ensures forall i :: 0 <= i < |r| ==> r[i] != ""
  {
    if |items| == 0 then []
    else if items[0] == "" then NonEmpty(items[1..])
    else [items[0]] + NonEmpty(items[1..])
  }

  /** The quote-like-words items with empty items dropped, so that padding
      and runs of spaces separate words as in Perl. */
  function QwItemsFixed(c: string): Option<seq<string>> {
    match QwBody(c, 0)
    case Some(inner) => Some(NonEmpty(Split(inner, ' ')))
    case None => None
  }

  /** The quote-like-words rule on the corrected items. */
  function QwCodeFixed(c: string): string {
    match QwItemsFixed(c)
    case Some(items) => ArrayLiteral(items)
    case None => c
  }

  /** `n` empty items. */
  function Empties(n: nat): (r: seq<string>)
    ensures |r| == n
    ensures forall i :: 0 <= i < n ==> r[i] == ""
  {
    if n == 0 then [] else [""] + Empties(n - 1)
  }

  lemma {:induction false} NonEmptyConcat(xs: seq<string>, ys: seq<string>)
    ensures NonEmpty(xs + ys) == NonEmpty(xs) + NonEmpty(ys)
    decreases |xs|
  {
    if |xs| > 0 {
      assert (xs + ys)[0] == xs[0];
      assert (xs + ys)[1..] == xs[1..] + ys;
      NonEmptyConcat(xs[1..], ys);
    } else {
      assert xs + ys == ys;
    }
  }

  lemma {:induction false} NonEmptyKeeps(items: seq<string>)
    requires forall i :: 0 <= i < |items| ==> items[i] != ""
    ensures NonEmpty(items) == items
    decreases |items|
  {
    if |items| > 0 {
      NonEmptyKeeps(items[1..]);
      assert [items[0]] + items[1..] == items;
    }
  }

  lemma {:induction false} NonEmptyDropsEmpties(n: nat)
    ensures NonEmpty(Empties(n)) == []
    decreases n
  {
    if n > 0 {
      assert Empties(n)[1..] == Empties(n - 1);
      NonEmptyDropsEmpties(n - 1);
    }
  }

  /** Leading spaces are empty items in front. */
  lemma {:induction false} JoinLeadingEmpties(n: nat, ws: seq<string>)
    requires |ws| >= 1
    ensures Join(Empties(n) + ws, " ") == Spaces(n) + Join(ws, " ")
    decreases n
  {
    if n == 0 {
      assert Empties(0) + ws == ws;
    } else {
      var rest := Empties(n - 1) + ws;
      assert Empties(n) + ws == [""] + rest;
      assert ([""] + rest)[1..] == rest;
      JoinLeadingEmpties(n - 1, ws);
      assert Spaces(n) == " " + Spaces(n - 1);
    }
  }

  /** Trailing spaces are empty items behind. */
  lemma {:induction false} JoinTrailingEmpties(ws: seq<string>, n: nat)
    requires |ws| >= 1
    ensures Join(ws + Empties(n), " ") == Join(ws, " ") + Spaces(n)
    decreases n
  {
    if n == 0 {
      assert ws + Empties(0) == ws;
    } else {
      JoinTrailingEmpties(ws, n - 1);
      assert ws + Empties(n) == (ws + Empties(n - 1)) + [""] by {
        assert Empties(n) == Empties(n - 1) + [""];
      }
      JoinSnoc(ws + Empties(n - 1), "", " ");
      assert Spaces(n - 1) + " " == Spaces(n);
    }
  }

  /** The padded list text is the single-space join of the words with one
      empty item per padding space. */
  lemma PaddedJoin(ws: seq<string>, before: nat, after: nat)
    requires |ws| >= 1
    ensures Join(Empties(before) + ws + Empties(after), " ")
         == Spaces(before) + Join(ws, " ") + Spaces(after)
  {
    JoinTrailingEmpties(Empties(before) + ws, after);
    JoinLeadingEmpties(before, ws);
  }

  lemma PaddedItemsFree(ws: seq<string>, before: nat, after: nat)
    requires forall i :: 0 <= i < |ws| ==> ' ' !in ws[i] && '\n' !in ws[i]
    ensures var parts := Empties(before) + ws + Empties(after);
      forall i :: 0 <= i < |parts| ==> ' ' !in parts[i] && '\n' !in parts[i]
  {
    var parts := Empties(before) + ws + Empties(after);
    forall i | 0 <= i < |parts| ensures ' ' !in parts[i] && '\n' !in parts[i] {
      if i < before {
        assert parts[i] == "";
      } else if i < before + |ws| {
        assert parts[i] == ws[i - before];
      } else {
        assert parts[i] == "";
      }
    }
  }

  /** The list text of the padded form, and its items. */
  lemma PaddedParts(ws: seq<string>, before: nat, after: nat)
    requires |ws| >= 1
    requires forall i :: 0 <= i < |ws| ==> ' ' !in ws[i] && '\n' !in ws[i]
    ensures QwBody(PaddedQw(ws, before, after), 0)
         == Some(Join(Empties(before) + ws + Empties(after), " "))
    ensures Split(Join(Empties(before) + ws + Empties(after), " "), ' ')
         == Empties(before) + ws + Empties(after)
  {
    var parts := Empties(before) + ws + Empties(after);
    var body := Join(parts, " ");
    PaddedItemsFree(ws, before, after);
    assert PaddedQw(ws, before, after) == "qw(" + body + ")" by {
      PaddedJoin(ws, before, after);
    }
    assert QwBody("qw(" + body + ")", 0) == Some(body) by {
      JoinAvoids(parts, " ", '\n');
      QwBodyOfList(body);
    }
    SplitOfJoin(parts, ' ');
  }

  /** With empty items dropped, any padding inside the parentheses gives
      exactly the words. */
  lemma QwFixedPadded(ws: seq<string>, before: nat, after: nat)
    requires |ws| >= 1
    requires forall i :: 0 <= i < |ws| ==> ws[i] != "" && ' ' !in ws[i] && '\n' !in ws[i]
    ensures QwItemsFixed(PaddedQw(ws, before, after)) == Some(ws)
    ensures QwCodeFixed(PaddedQw(ws, before, after)) == ArrayLiteral(ws)
  {
    PaddedParts(ws, before, after);
    NonEmptyConcat(Empties(before) + ws, Empties(after));
    NonEmptyConcat(Empties(before), ws);
    NonEmptyDropsEmpties(before);
    NonEmptyDropsEmpties(after);
    NonEmptyKeeps(ws);
    assert NonEmpty(Empties(before) + ws + Empties(after)) == [] + ws + [];
    assert [] + ws + [] == ws;
  }

  // ---------------------------------------------------------------------
  // qq|...|

  /** `substr($c, 3, -1)`: the text between `qq|` and the closing `|`,
      empty when there is none. */
  function QqBody(c: string): string {
    if |c| >= 4 then c[3..|c| - 1] else ""
  }

  /** The two escapes the heredoc conversion turns into control
      characters: a literal `\n` and a literal `\t`. */
  function Unescape(s: string): string {
    Replace(Replace(s, "\\n", "\n"), "\\t", "\t")
  }

  /** `genCode` of the interpolating-quote class: the body becomes a
      `<<<EOT` heredoc and the escapes are applied to the whole text. */
  function InterpolateCode(c: string): string {
    Unescape("<<<EOT\n" + QqBody(c) + "\nEOT")
  }

  /** The heredoc markers survive the unescaping: the result is the
      heredoc of the unescaped body. */
  lemma InterpolateIsHeredoc(c: string)
    ensures InterpolateCode(c) == "<<<EOT\n" + Unescape(QqBody(c)) + "\nEOT"
  {
    var b := QqBody(c);
    var head := "<<<EOT\n";
    var tail := "\nEOT";
    assert '\\' !in head && '\\' !in tail;
    ReplaceAfterFree(head, b + tail, "\\n", "\n");
    assert head + b + tail == head + (b + tail);
    ReplaceBeforeFree(b, tail, "\\n", "\n");
    var b1 := Replace(b, "\\n", "\n");
    assert head + (b1 + tail) == head + b1 + tail;
    ReplaceAfterFree(head, b1 + tail, "\\t", "\t");
    ReplaceBeforeFree(b1, tail, "\\t", "\t");
    assert head + (Replace(b1, "\\t", "\t") + tail) == head + Replace(b1, "\\t", "\t") + tail;
  }

  /** A body without backslashes is copied verbatim. */
  lemma InterpolatePlain(c: string)
    requires '\\' !in QqBody(c)
    ensures InterpolateCode(c) == "<<<EOT\n" + QqBody(c) + "\nEOT"
  {
    InterpolateIsHeredoc(c);
  }
}

=== FILE: strings.dfy ===
/** Text primitives with the semantics of the PHP string functions and the
    PCRE character classes that the token rewriter relies on: `str_replace`,
    `explode`/`implode`, `trim`/`rtrim`, `str_repeat`, `ucfirst`, and the
    replacement `preg_replace('/\s+/', ' ', …)`. */
module Strings {
  import opened Wrappers

  /** PCRE `\s`: space, tab, line feed, vertical tab, form feed, carriage return. */
  predicate IsSpace(c: char) {
    c == ' ' || c == '\t' || c == '\n' || c == '\U{0B}' || c == '\U{0C}' || c == '\r'
  }

  /** The characters PHP's `trim`/`rtrim` strip by default: space, tab, line
      feed, carriage return, NUL and vertical tab (no form feed, unlike `\s`). */
  predicate IsTrimChar(c: char) {
    c == ' ' || c == '\t' || c == '\n' || c == '\r' || c == '\0' || c == '\U{0B}'
  }

  /** PCRE `\w` outside UTF mode: ASCII letters, digits and underscore. */
  predicate IsWordChar(c: char) {
    ('a' <= c <= 'z') || ('A' <= c <= 'Z') || ('0' <= c <= '9') || c == '_'
  }

  predicate AllSpace(s: string) {
    forall i :: 0 <= i < |s| ==> IsSpace(s[i])
  }

  predicate StartsWith(s: string, p: string) {
    |p| <= |s| && s[..|p|] == p
  }

  predicate EndsWith(s: string, p: string) {
    |p| <= |s| && s[|s| - |p|..] == p
  }

  /** `pat` occurs in `s` starting at index `i`. */
  predicate OccursAt(s: string, pat: string, i: int) {
    0 <= i && i + |pat| <= |s| && s[i..i + |pat|] == pat
  }

  /** `strpos($s, $pat) !== false` */
  predicate Contains(s: string, pat: string) {
    exists i :: 0 <= i <= |s| && OccursAt(s, pat, i)
  }

  /** A text without a colon holds no `::`. */
  lemma NoColonNoPath(s: string)
    requires ':' !in s
    ensures !Contains(s, "::")
  {
    forall i | 0 <= i ensures !OccursAt(s, "::", i) {
      if i + 2 <= |s| {
        assert s[i] != ':';
      }
    }
  }

  /** PHP's `empty()` on a string: the empty string and "0" are both empty. */
  predicate PhpEmpty(s: string) {
    s == "" || s == "0"
  }

  /** Number of occurrences of `c` in `s`. */
  function Count(s: string, c: char): nat {
    if |s| == 0 then 0 else (if s[0] == c then 1 else 0) + Count(s[1..], c)
  }

  /** `str_repeat(' ', n)` */
  function Spaces(n: nat): (r: string)
    ensures |r| == n
    ensures forall i :: 0 <= i < n ==> r[i] == ' '
  {
    if n == 0 then "" else " " + Spaces(n - 1)
  }

  /** End of the maximal run of `\s` characters starting at `k`. */
  function SpanSpace(s: string, k: nat): (e: nat)
    requires k <= |s|
    ensures k <= e <= |s|
    ensures forall j :: k <= j < e ==> IsSpace(s[j])
    ensures e == |s| || !IsSpace(s[e])
    decreases |s| - k
  {
    if k < |s| && IsSpace(s[k]) then SpanSpace(s, k + 1) else k
  }

  /** End of the maximal run of `\w` characters starting at `k`. */
  function SpanWord(s: string, k: nat): (e: nat)
    requires k <= |s|
    ensures k <= e <= |s|
    ensures forall j :: k <= j < e ==> IsWordChar(s[j])
    ensures e == |s| || !IsWordChar(s[e])
    decreases |s| - k
  {
    if k < |s| && IsWordChar(s[k]) then SpanWord(s, k + 1) else k
  }

  /** A space run that ends at a non-space character is what SpanSpace
      finds. */
  lemma SpanSpaceExact(c: string, k: nat, e: nat)
    requires k <= e < |c|
    requires forall j :: k <= j < e ==> IsSpace(c[j])
    requires !IsSpace(c[e])
    ensures SpanSpace(c, k) == e
  {
  }

  /** A word run that ends at a non-word character, or at the end, is what
      SpanWord finds. */
  lemma SpanWordExact(c: string, k: nat, e: nat)
    requires k <= e <= |c|
    requires forall j :: k <= j < e ==> IsWordChar(c[j])
    requires e == |c| || !IsWordChar(c[e])
    ensures SpanWord(c, k) == e
  {
  }

  // ---------------------------------------------------------------------
  // str_replace

  /** `str_replace($needle, $rep, $s)`: scans left to right and replaces
      every non-overlapping occurrence of `needle`. */
  function Replace(s: string, needle: string, rep: string): (r: string)
    requires |needle| > 0
    ensures (forall i :: 0 <= i < |s| ==> s[i] != needle[0]) ==> r == s
    decreases |s|
  {
    if |s| == 0 then []
    else if StartsWith(s, needle) then rep + Replace(s[|needle|..], needle, rep)
    else [s[0]] + Replace(s[1..], needle, rep)
  }

  /** Replacing a single character by a text of length m grows the text by
      m - 1 for every occurrence. */
  lemma {:induction false} ReplaceCharLength(s: string, c: char, rep: string)
    ensures |Replace(s, [c], rep)| == |s| - Count(s, c) + Count(s, c) * |rep|
    decreases |s|
  {
    if |s| > 0 {
      ReplaceCharLength(s[1..], c, rep);
      if s[0] == c {
        assert StartsWith(s, [c]);
        assert Replace(s, [c], rep) == rep + Replace(s[1..], [c], rep);
        assert Count(s, c) == 1 + Count(s[1..], c);
        assert (1 + Count(s[1..], c)) * |rep| == |rep| + Count(s[1..], c) * |rep|;
      } else {
        assert !StartsWith(s, [c]);
      }
    }
  }

  /** Escaping a character and un-escaping it again gives back the text, as
      long as the escape either starts with the character (`$` to
      `$/*check*/`) or is a different character followed by it (`'` to
      `\'`). */
  lemma {:induction false} ReplaceRoundTrip(s: string, c: char, rep: string)
    requires |rep| > 0
    requires rep[0] == c || (|rep| == 2 && rep[1] == c && rep[0] != c)
    ensures Replace(Replace(s, [c], rep), rep, [c]) == s
    decreases |s|
  {
    if |s| > 0 {
      var tail := Replace(s[1..], [c], rep);
      ReplaceRoundTrip(s[1..], c, rep);
      if s[0] == c {
        assert StartsWith(s, [c]);
        assert Replace(s, [c], rep) == rep + tail;
        assert (rep + tail)[|rep|..] == tail;
        assert StartsWith(rep + tail, rep);
      } else {
        assert !StartsWith(s, [c]);
        assert Replace(s, [c], rep) == [s[0]] + tail;
        assert ([s[0]] + tail)[1..] == tail;
        if rep[0] != c && |s| > 1 {
          // the tail never starts with `c`, so the escape cannot start here
          if s[1] == c {
            assert StartsWith(s[1..], [c]);
            assert tail == rep + Replace(s[2..], [c], rep);
          } else {
            assert !StartsWith(s[1..], [c]);
          }
          assert tail[0] != c;
        }
        assert !StartsWith([s[0]] + tail, rep);
      }
    }
  }

  /** A prefix without the needle's first character passes through. */
  lemma {:induction false} ReplaceAfterFree(a: string, b: string, needle: string, rep: string)
    requires |needle| > 0 && needle[0] !in a
    ensures Replace(a + b, needle, rep) == a + Replace(b, needle, rep)
    decreases |a|
  {
    if |a| > 0 {
      var t := a + b;
      assert !StartsWith(t, needle) by {
        assert t[0] == a[0];
        if |needle| <= |t| {
          assert t[..|needle|][0] == t[0];
        }
      }
      assert needle[0] !in a[1..] by {
        forall j | 0 <= j < |a[1..]| ensures a[1..][j] != needle[0] {
          assert a[1..][j] == a[j + 1];
        }
      }
      calc {
        Replace(a + b, needle, rep);
        [t[0]] + Replace(t[1..], needle, rep);
        { assert t[0] == a[0] && t[1..] == a[1..] + b; }
        [a[0]] + Replace(a[1..] + b, needle, rep);
        { ReplaceAfterFree(a[1..], b, needle, rep); }
        [a[0]] + (a[1..] + Replace(b, needle, rep));
        { assert [a[0]] + a[1..] == a; }
        a + Replace(b, needle, rep);
      }
    } else {
      assert a + b == b;
    }
  }

  /** A suffix that holds no occurrence of a two-character needle, and
      cannot complete one begun at the seam, passes through. */
  lemma {:induction false} ReplaceBeforeFree(a: string, b: string, needle: string, rep: string)
    requires |needle| == 2 && needle[0] !in b
    requires |b| == 0 || b[0] != needle[1]
    ensures Replace(a + b, needle, rep) == Replace(a, needle, rep) + b
    decreases |a|
  {
    if |a| == 0 {
      assert a + b == b;
      assert Replace(b, needle, rep) == b;
    } else {
      var n: nat, head: string;
      if StartsWith(a, needle) {
        n, head := 2, rep;
      } else {
        n, head := 1, [a[0]];
      }
      var x := Replace(a[n..], needle, rep);
      calc {
        Replace(a + b, needle, rep);
        { ReplaceStep(a, b, needle, rep); }
        head + Replace(a[n..] + b, needle, rep);
        { ReplaceBeforeFree(a[n..], b, needle, rep); }
        head + (x + b);
        (head + x) + b;
        Replace(a, needle, rep) + b;
      }
    }
  }

  /** One step of the scan over `a + b` when `b` cannot complete a match
      begun in `a`. */
  lemma ReplaceStep(a: string, b: string, needle: string, rep: string)
    requires |needle| == 2 && |a| > 0
    requires |b| == 0 || b[0] != needle[1]
    ensures StartsWith(a, needle) ==> Replace(a + b, needle, rep) == rep + Replace(a[2..] + b, needle, rep)
    ensures !StartsWith(a, needle) ==> Replace(a + b, needle, rep) == [a[0]] + Replace(a[1..] + b, needle, rep)
  {
    var t := a + b;
    if StartsWith(a, needle) {
      assert t[..2] == a[..2];
      assert t[2..] == a[2..] + b;
    } else {
      if |a| >= 2 {
        assert t[..2] == a[..2];
      } else if |b| > 0 {
        assert t[1] == b[0];
      }
      assert !StartsWith(t, needle);
      assert t[1..] == a[1..] + b;
    }
  }

  // ---------------------------------------------------------------------
  // explode / implode

  /** `implode($sep, $parts)` */
  function Join(parts: seq<string>, sep: string): string {
    if |parts| == 0 then []
    else if |parts| == 1 then parts[0]
    else parts[0] + sep + Join(parts[1..], sep)
  }

  /** `explode($c, $s)` for a one-character separator. The three
      postconditions pin the result down completely (see SplitOfJoin). */
  function Split(s: string, c: char): (r: seq<string>)
    ensures |r| == Count(s, c) + 1
    ensures forall i :: 0 <= i < |r| ==> c !in r[i]
    ensures Join(r, [c]) == s
    decreases |s|
  {
    if |s| == 0 then [[]]
    else
      var rest := Split(s[1..], c);
      if s[0] == c then
        assert Join([[]] + rest, [c]) == [c] + Join(rest, [c]);
        assert s == [c] + s[1..];
        [[]] + rest
      else
        var r := [[s[0]] + rest[0]] + rest[1..];
        assert |rest| == 1 ==> Join(r, [c]) == [s[0]] + Join(rest, [c]);
        assert |rest| > 1 ==> Join(r, [c]) == [s[0]] + Join(rest, [c]) by {
          if |rest| > 1 {
            assert r[1..] == rest[1..];
            assert Join(rest, [c]) == rest[0] + [c] + Join(rest[1..], [c]);
          }
        }
        assert s == [s[0]] + s[1..];
        r
  }

  lemma {:induction false} SplitNoSeparator(x: string, c: char)
    requires c !in x
    ensures Split(x, c) == [x]
    decreases |x|
  {
    if |x| > 0 {
      assert x[1..] == x[1..];
      assert c !in x[1..] by {
        forall j | 0 <= j < |x[1..]| ensures x[1..][j] != c {
          assert x[1..][j] == x[j + 1];
        }
      }
      SplitNoSeparator(x[1..], c);
    }
  }

  lemma {:induction false} SplitAfterItem(x: string, y: string, c: char)
    requires c !in x
    ensures Split(x + [c] + y, c) == [x] + Split(y, c)
    decreases |x|
  {
    var s := x + [c] + y;
    if |x| == 0 {
      assert s[0] == c && s[1..] == y;
    } else {
      assert s[0] == x[0];
      assert s[1..] == x[1..] + [c] + y;
      assert c !in x[1..] by {
        forall j | 0 <= j < |x[1..]| ensures x[1..][j] != c {
          assert x[1..][j] == x[j + 1];
        }
      }
      SplitAfterItem(x[1..], y, c);
      assert [x[0]] + x[1..] == x;
    }
  }

  /** A line-feed-free line in front of a text adds one line to its split. */
  lemma LineBefore(x: string, rest: string, lines: seq<string>)
    requires '\n' !in x && Split(rest, '\n') == lines
    ensures Split(x + "\n" + rest, '\n') == [x] + lines
  {
    SplitAfterItem(x, rest, '\n');
  }

  /** explode undoes implode when no item holds the separator. */
  lemma {:induction false} SplitOfJoin(parts: seq<string>, c: char)
    requires |parts| >= 1
    requires forall i :: 0 <= i < |parts| ==> c !in parts[i]
    ensures Split(Join(parts, [c]), c) == parts
    decreases |parts|
  {
    if |parts| == 1 {
      SplitNoSeparator(parts[0], c);
    } else {
      SplitOfJoin(parts[1..], c);
      SplitAfterItem(parts[0], Join(parts[1..], [c]), c);
      assert [parts[0]] + parts[1..] == parts;
    }
  }

  /** implode over one more item. */
  lemma {:induction false} JoinSnoc(parts: seq<string>, x: string, sep: string)
    requires |parts| >= 1
    ensures Join(parts + [x], sep) == Join(parts, sep) + sep + x
    decreases |parts|
  {
    if |parts| == 1 {
      assert (parts + [x])[1..] == [x];
    } else {
      assert (parts + [x])[1..] == parts[1..] + [x];
      JoinSnoc(parts[1..], x, sep);
    }
  }

  /** A character in neither the items nor the separator is not in the
      joined text. */
  lemma {:induction false} JoinAvoids(parts: seq<string>, sep: string, c: char)
    requires forall i :: 0 <= i < |parts| ==> c !in parts[i]
    requires c !in sep
    ensures c !in Join(parts, sep)
    decreases |parts|
  {
    if |parts| > 1 {
      JoinAvoids(parts[1..], sep, c);
    }
  }

  /** The items after the first, each with a prefix: how the lines of a
      join over a separator `c + p` read once the text is cut at `c`. */
  function Indented(parts: seq<string>, p: string): (r: seq<string>)
    requires |parts| >= 1
    ensures |r| == |parts| && r[0] == parts[0]
    ensures forall i :: 1 <= i < |parts| ==> r[i] == p + parts[i]
  {
    [parts[0]] + seq(|parts| - 1, i requires 0 <= i < |parts| - 1 => p + parts[i + 1])
  }

  /** A separator made of a character and a prefix can be read as the
      character alone, with the prefix moved onto the following items. */
  lemma {:induction false} JoinIndented(parts: seq<string>, c: char, p: string)
    requires |parts| >= 1
    ensures Join(parts, [c] + p) == Join(Indented(parts, p), [c])
    decreases |parts|
  {
    if |parts| > 1 {
      var tail := parts[1..];
      JoinIndented(tail, c, p);
      var it := Indented(tail, p);
      var r := Indented(parts, p);
      assert r[1..] == [p + it[0]] + it[1..];
      JoinPrefixFirst(it, [c], p);
      assert Join(r, [c]) == parts[0] + [c] + Join(r[1..], [c]);
    }
  }

  /** A prefix before a join belongs to its first item. */
  lemma JoinPrefixFirst(parts: seq<string>, sep: string, p: string)
    requires |parts| >= 1
    ensures p + Join(parts, sep) == Join([p + parts[0]] + parts[1..], sep)
  {
    var q := [p + parts[0]] + parts[1..];
    assert q[1..] == parts[1..];
  }

  // ---------------------------------------------------------------------
  // trim

  /** `rtrim($s)` */
  function RTrim(s: string): (r: string)
    ensures |r| <= |s| && r == s[..|r|]
    ensures r == [] || !IsTrimChar(r[|r| - 1])
    ensures forall j :: |r| <= j < |s| ==> IsTrimChar(s[j])
    decreases |s|
  {
    if |s| > 0 && IsTrimChar(s[|s| - 1]) then RTrim(s[..|s| - 1]) else s
  }

  /** `ltrim($s)` */
  function LTrim(s: string): (r: string)
    ensures |r| <= |s| && r == s[|s| - |r|..]
    ensures r == [] || !IsTrimChar(r[0])
    ensures forall j :: 0 <= j < |s| - |r| ==> IsTrimChar(s[j])
    decreases |s|
  {
    if |s| > 0 && IsTrimChar(s[0]) then LTrim(s[1..]) else s
  }

  /** `trim($s)` */
  function Trim(s: string): (r: string)
    ensures r == [] || (!IsTrimChar(r[0]) && !IsTrimChar(r[|r| - 1]))
  {
    var m := RTrim(s);
    var r := LTrim(m);
    assert r == [] || r[|r| - 1] == m[|m| - 1];
    r
  }

  /** trim removes exactly the padding around a core that neither starts nor
      ends with a trimmed character. */
  lemma TrimPadded(pre: string, x: string, post: string)
    requires forall j :: 0 <= j < |pre| ==> IsTrimChar(pre[j])
    requires forall j :: 0 <= j < |post| ==> IsTrimChar(post[j])
    requires x == [] || (!IsTrimChar(x[0]) && !IsTrimChar(x[|x| - 1]))
    ensures Trim(pre + x + post) == x
  {
    var s := pre + x + post;
    var r := RTrim(s);
    if x == [] {
      assert |r| == 0;
    } else {
      assert !IsTrimChar(s[|pre| + |x| - 1]);
      assert |r| == |pre| + |x|;
      assert r == pre + x;
      var l := LTrim(r);
      assert !IsTrimChar(r[|pre|]);
      assert |l| == |x|;
      assert l == x;
    }
  }

  // ---------------------------------------------------------------------
  // preg_replace('/\s+/', ' ', $s)

  /** Every maximal run of `\s` characters becomes one space. */
  function CollapseSpace(s: string): string {
    CollapseFrom(s, false)
  }

  /** CollapseSpace scanning `s` when the previous character was (`inRun`)
      or was not white space: only the first space of a run is kept. */
  function CollapseFrom(s: string, inRun: bool): string
    decreases |s|
  {
    if |s| == 0 then []
    else if IsSpace(s[0]) then
      (if inRun then [] else [' ']) + CollapseFrom(s[1..], true)
    else [s[0]] + CollapseFrom(s[1..], false)
  }

  /** After collapsing, the only white space left is single spaces, and the
      first character keeps its class (a non-space one is kept as is). */
  lemma {:induction false} CollapseShape(s: string, inRun: bool)
    ensures var r := CollapseFrom(s, inRun);
      && |r| <= |s|
      && (inRun && |r| > 0 ==> !IsSpace(r[0]))
      && (!inRun && |s| > 0 ==> |r| > 0 && (IsSpace(r[0]) <==> IsSpace(s[0])))
      && (|s| > 0 && !IsSpace(s[0]) ==> r[0] == s[0])
      && (forall i :: 0 <= i < |r| && IsSpace(r[i]) ==> r[i] == ' ')
      && (forall i :: 0 <= i < |r| - 1 ==> !(IsSpace(r[i]) && IsSpace(r[i + 1])))
    decreases |s|
  {
    if |s| > 0 {
      if IsSpace(s[0]) {
        CollapseShape(s[1..], true);
      } else {
        CollapseShape(s[1..], false);
      }
    }
  }

  /** The non-space characters of a text, in order. */
  function Visible(s: string): string {
    if |s| == 0 then []
    else if IsSpace(s[0]) then Visible(s[1..])
    else [s[0]] + Visible(s[1..])
  }

  /** Collapsing white space keeps every other character, in order. */
  lemma {:induction false} CollapseKeepsVisible(s: string, inRun: bool)
    ensures Visible(CollapseFrom(s, inRun)) == Visible(s)
    decreases |s|
  {
    if |s| > 0 {
      var r := CollapseFrom(s, inRun);
      if IsSpace(s[0]) {
        CollapseKeepsVisible(s[1..], true);
        if !inRun {
          assert r == [' '] + CollapseFrom(s[1..], true);
          assert r[1..] == CollapseFrom(s[1..], true);
          assert IsSpace(r[0]);
          assert Visible(r) == Visible(r[1..]);
        } else {
          assert r == [] + CollapseFrom(s[1..], true);
          assert r == CollapseFrom(s[1..], true);
        }
      } else {
        CollapseKeepsVisible(s[1..], false);
        assert r[1..] == CollapseFrom(s[1..], false);
      }
    }
  }

  /** A text whose white space is already single spaces is left alone. */
  lemma {:induction false} CollapseFixed(s: string, inRun: bool)
    requires forall i :: 0 <= i < |s| && IsSpace(s[i]) ==> s[i] == ' '
    requires forall i :: 0 <= i < |s| - 1 ==> !(IsSpace(s[i]) && IsSpace(s[i + 1]))
    requires inRun ==> |s| == 0 || !IsSpace(s[0])
    ensures CollapseFrom(s, inRun) == s
    decreases |s|
  {
    if |s| > 0 {
      assert |s| > 1 ==> !(IsSpace(s[0]) && IsSpace(s[1]));
      CollapseFixed(s[1..], IsSpace(s[0]));
      assert s == [s[0]] + s[1..];
    }
  }

  /** Collapsing twice is collapsing once. */
  lemma CollapseIdempotent(s: string)
    ensures CollapseSpace(CollapseSpace(s)) == CollapseSpace(s)
  {
    CollapseShape(s, false);
    CollapseFixed(CollapseSpace(s), false);
  }

  /** The scan state is irrelevant in front of a non-space character. */
  lemma CollapseStateIrrelevant(s: string)
    requires |s| == 0 || !IsSpace(s[0])
    ensures CollapseFrom(s, true) == CollapseFrom(s, false)
  {
  }

  /** Collapsing a concatenation collapses the parts, the second one
      starting in the state the first one ends in. */
  lemma {:induction false} CollapseFromAppend(a: string, b: string, inRun: bool)
    ensures CollapseFrom(a + b, inRun)
         == CollapseFrom(a, inRun) + CollapseFrom(b, if |a| == 0 then inRun else IsSpace(a[|a| - 1]))
    decreases |a|
  {
    if |a| == 0 {
      assert a + b == b;
    } else {
      assert (a + b)[0] == a[0];
      assert (a + b)[1..] == a[1..] + b;
      CollapseFromAppend(a[1..], b, IsSpace(a[0]));
      if |a| > 1 {
        assert a[1..][|a[1..]| - 1] == a[|a| - 1];
      }
    }
  }

  /** Collapsing distributes over a concatenation whose seam is not inside a
      white-space run. */
  lemma CollapseAppend(a: string, b: string)
    requires a == [] || b == [] || !IsSpace(a[|a| - 1]) || !IsSpace(b[0])
    ensures CollapseSpace(a + b) == CollapseSpace(a) + CollapseSpace(b)
  {
    CollapseFromAppend(a, b, false);
    if b != [] && !IsSpace(b[0]) {
      CollapseStateIrrelevant(b);
    }
  }

  // ---------------------------------------------------------------------
  // (.*)SEP(.*) with a greedy first group: split at the last occurrence

  /** The split `preg_match('/(.*)::(.*)/', …)` computes: the first group is
      greedy, so the separator found is the last one. */
  function SplitAtLast(s: string, sep: string): (r: Option<(string, string)>)
    requires |sep| > 0
    ensures r.None? ==> forall i :: !OccursAt(s, sep, i)
    ensures r.Some? ==> s == r.value.0 + sep + r.value.1
    ensures r.Some? ==> forall i :: |r.value.0| < i ==> !OccursAt(s, sep, i)
    decreases |s|
  {
    if |s| < |sep| then None
    else if s[|s| - |sep|..] == sep then
      var a := s[..|s| - |sep|];
      assert s == a + sep + [];
      Some((a, []))
    else
      var init := s[..|s| - 1];
      match SplitAtLast(init, sep)
      case None =>
        assert forall i :: !OccursAt(s, sep, i) by {
          forall i | OccursAt(s, sep, i) ensures false {
            OccursBeforeEnd(s, sep, i);
          }
        }
        None
      case Some((a, b)) =>
        var last := s[|s| - 1];
        assert s == a + sep + (b + [last]);
        assert forall i :: |a| < i ==> !OccursAt(s, sep, i) by {
          forall i | |a| < i && OccursAt(s, sep, i) ensures false {
            OccursBeforeEnd(s, sep, i);
          }
        }
        Some((a, b + [last]))
  }

  /** An occurrence that does not end the text lies in the text without its
      last character. */
  lemma OccursBeforeEnd(s: string, sep: string, i: int)
    requires |s| >= |sep| > 0 && s[|s| - |sep|..] != sep && OccursAt(s, sep, i)
    ensures OccursAt(s[..|s| - 1], sep, i)
  {
    assert i + |sep| < |s|;
    assert s[i..i + |sep|] == s[..|s| - 1][i..i + |sep|];
  }

  /** When the part after a `::` holds no colon, that `::` is the one the
      greedy split finds. */
  lemma SplitAtLastColonFree(a: string, b: string)
    requires ':' !in b
    ensures SplitAtLast(a + "::" + b, "::") == Some((a, b))
  {
    var s := a + "::" + b;
    assert OccursAt(s, "::", |a|);
    var r := SplitAtLast(s, "::");
    var x := r.value.0;
    assert s[|x| + 1] == ':';
    assert |x| == |a|;
    assert x == s[..|a|];
  }

  // ---------------------------------------------------------------------
  // ASCII case

  function ToUpper(c: char): char {
    if 'a' <= c <= 'z' then (c as int - 32) as char else c
  }

  function ToLower(c: char): char {
    if 'A' <= c <= 'Z' then (c as int + 32) as char else c
  }

  /** `strtolower($s)` */
  function Lower(s: string): (r: string)
    ensures |r| == |s|
    ensures forall i :: 0 <= i < |s| ==> r[i] == ToLower(s[i])
  {
    if |s| == 0 then [] else [ToLower(s[0])] + Lower(s[1..])
  }

  /** `ucfirst($s)` */
  function UcFirst(s: string): (r: string)
    ensures |r| == |s|
    ensures |s| > 0 ==> r[0] == ToUpper(s[0]) && r[1..] == s[1..]
  {
    if |s| == 0 then [] else [ToUpper(s[0])] + s[1..]
  }
}

=== FILE: symbols.dfy ===
/** Symbol tokens (`genCode` of the symbol class and of its two
    subclasses): sigils are reduced to PHP's single `$`, package paths become
    namespace paths, names go through the camel-case helper, and `$self`
    becomes `$this`. The array-index and magic subclasses rewrite their text
    and then run the symbol rule on the result, because the `converted` flag
    is only set once the whole `genCode` chain has returned. */
module Symbols {
  import opened Wrappers
  import opened Strings
  import opened Markers

  /** The two naming helpers of the element base class, which this model
      takes as given functions: `cvtCamelCase` and `cvtPackageName`. */
  datatype Naming = Naming(camel: string -> string, package: string -> string)

  /** The first switch of the symbol rule: the sigil is rewritten. */
  function Desigil(name: string): (r: string)
    ensures |name| > 0 && (name[0] == '%' || (name[0] == '@' && name != "@ISA" && name != "@EXPORT"))
            ==> r == "$" + name[1..]
    ensures name == "@ISA" || name == "@EXPORT" ==> r == "//" + name
    ensures |name| > 0 && name[0] == '&' ==> r == name[1..]
    ensures |name| == 0 || (name[0] != '@' && name[0] != '%' && name[0] != '&') ==> r == name
  {
    if |name| == 0 then name
    else if name[0] == '@' then
      (if name == "@ISA" || name == "@EXPORT" then "//" + name else "$" + name[1..])
    else if name[0] == '%' then "$" + name[1..]
    else if name[0] == '&' then name[1..]
    else name
  }

  /** The package path split: a name holding `::` is cut at the last `::`;
      the part before becomes a namespace prefix `\Pkg::`, a leading `$`
      stays with the part after. Returns (path, name). */
  function SplitPath(v: string, nm: Naming): (string, string) {
    if Contains(v, "::") then
      var save := if |v| > 0 && v[0] == '$' then "$" else "";
      var bare := if |v| > 0 && v[0] == '$' then v[1..] else v;
      match SplitAtLast(bare, "::")
      case Some((pkg, rest)) => ("\\" + nm.package(pkg) + "::", save + rest)
      case None => ("", bare)
    else ("", v)
  }

  /** `genCode` of the symbol class on the token text `name`. */
  function SymbolCode(name: string, nm: Naming): (r: string)
    ensures r != "$self"
  {
    var (path, v) := SplitPath(Desigil(name), nm);
    Receiver(if |v| > 0 && v[0] == '$' then path + "$" + nm.camel(v[1..]) else path + nm.camel(v))
  }

  /** The special object reference: `$self` is PHP's `$this`. */
  function Receiver(r: string): string {
    if r == "$self" then "$this" else r
  }

  /** `genCode` of the array-index subclass: only the `$#name` form is
      known; it becomes the last index, `count` minus one. Any other text
      stops the conversion. */
  function ArrayIndexCode(content: string, nm: Naming): (r: Result<string, string>)
    ensures r.Failure? <==> !StartsWith(content, "$#")
  {
    if !StartsWith(content, "$#") then Failure("Unknown array index syntax: " + content)
    else Success(SymbolCode("(count($" + content[2..] + ")-1)", nm))
  }

  /** `genCode` of the magic subclass: numbered and named special variables
      alike become the marker. */
  function MagicCode(content: string, nm: Naming): string {
    SymbolCode(Placeholder(content), nm)
  }

  // ---------------------------------------------------------------------
  // Properties

  /** Without a package path, every sigil but the function sigil `&`
      becomes `$` on the camel-cased name: the array, hash and scalar of the
      same name meet in one PHP variable. `@ISA`/`@EXPORT` are commented
      out instead. */
  lemma SigilsMerge(x: string, nm: Naming)
    requires !Contains(x, "::")
    requires x != "ISA" && x != "EXPORT"
    requires "$" + nm.camel(x) != "$self"
    ensures SymbolCode("$" + x, nm) == "$" + nm.camel(x)
    ensures SymbolCode("@" + x, nm) == "$" + nm.camel(x)
    ensures SymbolCode("%" + x, nm) == "$" + nm.camel(x)
    ensures nm.camel(x) != "$self" && (|x| == 0 || x[0] != '$') ==>
      SymbolCode("&" + x, nm) == nm.camel(x)
  {
    NoColonNoPath("$");
    NoPathConcat("$", x);
    assert ("$" + x)[1..] == x;
    assert ("@" + x)[1..] == x;
    assert ("%" + x)[1..] == x;
    assert ("&" + x)[1..] == x;
    assert "@" + x != "@ISA" && "@" + x != "@EXPORT";
  }

  /** `@ISA` and `@EXPORT` are rewritten to the comment texts `//@ISA` and
      `//@EXPORT` before the name conversions; they come out as those
      comments whenever the camel-case helper leaves such a text alone. */
  lemma ExportListsCommentedOut(nm: Naming)
    ensures SymbolCode("@ISA", nm) == Receiver(nm.camel("//@ISA"))
    ensures SymbolCode("@EXPORT", nm) == Receiver(nm.camel("//@EXPORT"))
    ensures nm.camel("//@ISA") == "//@ISA" ==> SymbolCode("@ISA", nm) == "//@ISA"
    ensures nm.camel("//@EXPORT") == "//@EXPORT" ==> SymbolCode("@EXPORT", nm) == "//@EXPORT"
  {
    NoColonNoPath("//@ISA");
    NoColonNoPath("//@EXPORT");
    assert Desigil("@ISA") == "//@ISA" && Desigil("@EXPORT") == "//@EXPORT";
    assert SplitPath("//@ISA", nm) == ("", "//@ISA");
    assert SplitPath("//@EXPORT", nm) == ("", "//@EXPORT");
  }

  /** The receiver: `$self` becomes `$this` whenever the camel-case helper
      leaves `self` alone, and so do `@self` and `%self`. */
  lemma SelfIsThis(nm: Naming)
    requires nm.camel("self") == "self"
    ensures SymbolCode("$self", nm) == "$this"
    ensures SymbolCode("@self", nm) == "$this"
    ensures SymbolCode("%self", nm) == "$this"
  {
    NoColonNoPath("$self");
    assert Desigil("@self") == "$self" && Desigil("%self") == "$self";
    assert SplitPath("$self", nm) == ("", "$self");
    assert "$self"[1..] == "self";
  }

  /** A qualified scalar `$Pkg::name` becomes `\Pkg'::$name`: the package part
      is everything up to the last `::`. */
  lemma QualifiedScalar(pkg: string, x: string, nm: Naming)
    requires ':' !in x
    ensures SymbolCode("$" + pkg + "::" + x, nm) == "\\" + nm.package(pkg) + "::$" + nm.camel(x)
  {
    var v := "$" + pkg + "::" + x;
    assert OccursAt(v, "::", 1 + |pkg|);
    assert Desigil(v) == v;
    assert v[1..] == pkg + "::" + x;
    SplitAtLastColonFree(pkg, x);
    var path := "\\" + nm.package(pkg) + "::";
    assert SplitPath(v, nm) == (path, "$" + x);
    assert ("$" + x)[1..] == x;
    var r := path + "$" + nm.camel(x);
    assert r[0] == '\\';
    assert SymbolCode(v, nm) == Receiver(r);
  }

  /** A qualified call `Pkg::name` (no sigil) becomes `\Pkg'::name'`. */
  lemma QualifiedName(pkg: string, x: string, nm: Naming)
    requires ':' !in x
    requires |pkg| == 0 || pkg[0] !in "@%&$"
    requires |x| == 0 || x[0] != '$'
    ensures SymbolCode(pkg + "::" + x, nm) == "\\" + nm.package(pkg) + "::" + nm.camel(x)
  {
    var v := pkg + "::" + x;
    assert OccursAt(v, "::", |pkg|);
    SplitAtLastColonFree(pkg, x);
    if |pkg| == 0 {
      assert v[0] == ':';
    }
    assert v[0] != '$';
    assert Desigil(v) == v;
    assert Contains(v, "::");
    assert SplitAtLast(v, "::") == Some((pkg, x));
    assert "" + x == x;
    var path := "\\" + nm.package(pkg) + "::";
    assert SplitPath(v, nm) == (path, x);
    var r := path + nm.camel(x);
    assert r[0] == '\\';
  }

  /** The last index of `@name` is computed from the array's element count:
      the array-index text is the symbol rule applied to `(count($name)-1)`,
      and `$#` is the only form accepted. */
  lemma ArrayIndexForms(content: string, nm: Naming)
    ensures ArrayIndexCode(content, nm).Failure? <==> !StartsWith(content, "$#")
    ensures StartsWith(content, "$#") && !Contains(content, "::") ==>
      ArrayIndexCode(content, nm) == Success(Receiver(nm.camel("(count($" + content[2..] + ")-1)")))
  {
    if StartsWith(content, "$#") && !Contains(content, "::") {
      var t := "(count($" + content[2..] + ")-1)";
      assert !Contains(content[2..], "::") by {
        forall i | 0 <= i && i + 2 <= |content[2..]| ensures !OccursAt(content[2..], "::", i) {
          assert content[2..][i..i + 2] == content[i + 2..i + 4];
          assert !OccursAt(content, "::", i + 2);
        }
      }
      NoColonNoPath("(count($");
      NoColonNoPath(")-1)");
      NoPathConcat("(count($", content[2..]);
      NoPathConcat("(count($" + content[2..], ")-1)");
      assert Desigil(t) == t;
      assert SplitPath(t, nm) == ("", t);
      assert t[0] != '$';
      assert SymbolCode(t, nm) == Receiver("" + nm.camel(t));
      assert "" + nm.camel(t) == nm.camel(t);
      assert "(count($" + content[2..] + ")-1)" == t;
    }
  }

  /** Special variables keep their original text inside the marker, so the
      marker can be read back: with a camel-case helper that leaves the
      marker alone, the original is recovered by `PlaceholderText`. */
  lemma MagicPlaceholderRoundTrip(content: string, nm: Naming)
    requires !Contains(content, "::")
    requires |content| == 0 || content[0] != ':'
    requires nm.camel(Placeholder(content)[1..]) == Placeholder(content)[1..]
    ensures MagicCode(content, nm) == Placeholder(content)
    ensures PlaceholderText(MagicCode(content, nm)) == Some(content)
  {
    var m := Placeholder(content);
    PlaceholderHasNoPath(content);
    assert m[0] == '$' && m != "$self";
    assert Desigil(m) == m;
    assert SplitPath(m, nm) == ("", m);
    assert "" + "$" + m[1..] == m;
    PlaceholderRoundTrip(content);
  }

  /** The placeholder of a text without `::` (that does not start with a
      colon) holds no `::` either. */
  lemma PlaceholderHasNoPath(content: string)
    requires !Contains(content, "::")
    requires |content| == 0 || content[0] != ':'
    ensures !Contains(Placeholder(content), "::")
  {
    NoColonNoPath("$fake/*check");
    NoColonNoPath("*/");
    assert !Contains(":", "::");
    NoPathConcat("$fake/*check", ":");
    assert "$fake/*check" + ":" == "$fake/*check:";
    NoPathConcat("$fake/*check:", content);
    NoPathConcat("$fake/*check:" + content, "*/");
  }

  // ---------------------------------------------------------------------
  // helpers

  /** Joining two path-free texts creates a `::` only at the seam. */
  lemma NoPathConcat(a: string, b: string)
    requires !Contains(a, "::") && !Contains(b, "::")
    requires |a| == 0 || |b| == 0 || a[|a| - 1] != ':' || b[0] != ':'
    ensures !Contains(a + b, "::")
  {
    var s := a + b;
    forall i | 0 <= i && i + 2 <= |s| ensures !OccursAt(s, "::", i) {
      if i + 2 <= |a| {
        assert s[i..i + 2] == a[i..i + 2];
        assert !OccursAt(a, "::", i);
      } else if i >= |a| {
        assert s[i..i + 2] == b[i - |a|..i - |a| + 2];
        assert !OccursAt(b, "::", i - |a|);
      } else {
        assert s[i] == a[|a| - 1] && s[i + 1] == b[0];
      }
    }
  }
}

=== FILE: tokens.dfy ===
/** The element record of the token tree, seen as the linear stream of
    elements in document order (`prev`/`next`), and the two flags every
    rewrite rule works through: `canceled` (no output, still navigable) and
    `converted` (the rule has run). */
module Tokens {
  import opened Wrappers

  /** Evaluation context (`$this->context`); Unset until the context pass
      assigns it. */
  datatype Ctx = Unset | Scalar | Array | Hash | Str | Neutral

  /** Element classes. Token subclasses without behaviour of their own are
      folded into the class whose rules they inherit: the number radices into
      Number, backtick/command/qr/readline into QuoteLike, match/substitute/
      transliterate into Regexp, and dashed word, heredoc, separator, data,
      end, prototype, attribute and unknown into OtherToken. */
  datatype Kind =
    | Whitespace | Newline | Comment | Pod
    | Number
    | QuoteSingle | QuoteLiteral | QuoteDouble | QuoteInterpolate
    | QuoteLike | QuoteLikeWords
    | Regexp
    | Symbol | ArrayIndex | Magic
    | Cast | Operator | Word | Label
    | StructureToken
    | OtherToken
    // bracketed groups and statements: they are part of the linear stream too
    | Block | List | Condition | Subscript | Constructor
    | Statement | Expression     // Expression: the expression-statement subclass
    | Document

  predicate IsGroup(k: Kind) {
    k.Block? || k.List? || k.Condition? || k.Subscript? || k.Constructor? || k.Statement? || k.Expression?
    || k.Document?
  }

  predicate IsToken(k: Kind) {
    !IsGroup(k)
  }

  /** `isWs()`: whitespace, including the added newline token. */
  predicate IsWs(k: Kind) {
    k.Whitespace? || k.Newline?
  }

  /** The subclasses of the quote token class. */
  predicate IsQuote(k: Kind) {
    k.QuoteSingle? || k.QuoteLiteral? || k.QuoteDouble? || k.QuoteInterpolate?
  }

  /** The symbol token class and its two subclasses. */
  predicate IsSymbolClass(k: Kind) {
    k.Symbol? || k.ArrayIndex? || k.Magic?
  }

  /** One element: its class, its current text, its bracket delimiters
      (`startContent`/`endContent`, empty for tokens), its context and the two
      flags. */
  datatype Node = Node(
    kind: Kind,
    content: string,
    open: string,
    close: string,
    ctx: Ctx,
    canceled: bool,
    converted: bool)

  /** `isSemicolon()`: the statement terminator token. */
  predicate IsSemicolon(n: Node) {
    n.kind.StructureToken? && n.content == ";"
  }

  /** Index of the first statement terminator at or after `k`. */
  function NextSemicolon(s: seq<Node>, k: nat): (r: Option<nat>)
    requires k <= |s|
    ensures r.Some? ==> k <= r.value < |s| && IsSemicolon(s[r.value])
    ensures r.Some? ==> forall j :: k <= j < r.value ==> !IsSemicolon(s[j])
    ensures r.None? ==> forall j :: k <= j < |s| ==> !IsSemicolon(s[j])
    decreases |s| - k
  {
    if k == |s| then None
    else if IsSemicolon(s[k]) then Some(k)
    else NextSemicolon(s, k + 1)
  }

  /** A fresh token as the parser hands it over. */
  function Fresh(k: Kind, text: string): Node {
    Node(k, text, "", "", Unset, false, false)
  }

  /** The guard around every rewrite rule: a converted element is left
      alone; otherwise it takes the rule's text and is marked converted.
      Nothing else about the element changes. */
  function Convert(n: Node, text: string): (r: Node)
    ensures n.converted ==> r == n
    ensures !n.converted ==> r.content == text && r.converted
    ensures r.kind == n.kind && r.ctx == n.ctx && r.canceled == n.canceled
    ensures r.open == n.open && r.close == n.close
  {
    if n.converted then n else n.(content := text, converted := true)
  }

  /** Re-running any rule on a converted element changes nothing. */
  lemma ConvertIdempotent(n: Node, first: string, second: string)
    ensures Convert(Convert(n, first), second) == Convert(n, first)
  {
  }

  function Cancel(n: Node): Node {
    n.(canceled := true)
  }

  /** Stream edits never un-cancel, never change an element's class and
      never add or remove elements. */
  predicate Monotone(s: seq<Node>, t: seq<Node>) {
    && |s| == |t|
    && (forall i :: 0 <= i < |s| ==> t[i].kind == s[i].kind)
    && (forall i :: 0 <= i < |s| ==> s[i].canceled ==> t[i].canceled)
  }

  lemma MonotoneTransitive(s: seq<Node>, t: seq<Node>, u: seq<Node>)
    requires Monotone(s, t) && Monotone(t, u)
    ensures Monotone(s, u)
  {
  }

  /** Cancel the element at `i` if there is one (`$obj->cancel()` where the
      element may be missing at the end of the stream). */
  function CancelAt(s: seq<Node>, i: int): (t: seq<Node>)
    ensures Monotone(s, t)
    ensures forall j :: 0 <= j < |s| ==> t[j] == (if j == i then Cancel(s[j]) else s[j])
  {
    if 0 <= i < |s| then s[i := Cancel(s[i])] else s
  }

  /** `cancelUntil` / `cancelAll` over the linear stream: every element
      with index in [from, to) is canceled. */
  function CancelRange(s: seq<Node>, from: nat, to: nat): (t: seq<Node>)
    ensures Monotone(s, t)
    ensures forall j :: 0 <= j < |s| ==> t[j] == (if from <= j < to then Cancel(s[j]) else s[j])
  {
    seq(|s|, j requires 0 <= j < |s| => if from <= j < to then Cancel(s[j]) else s[j])
  }

  /** Set the text of the element at `i`, as a rule does to a neighbour:
      the neighbour is not marked converted, so its own rule still runs
      when the walk reaches it. */
  function SetContentAt(s: seq<Node>, i: nat, text: string): (t: seq<Node>)
    requires i < |s|
    ensures Monotone(s, t)
    ensures t[i] == s[i].(content := text)
    ensures forall j :: 0 <= j < |s| && j != i ==> t[j] == s[j]
  {
    s[i := s[i].(content := text)]
  }

  /** The text of a run of tokens: the contents of the elements that are
      not canceled, in order. */
  function Text(s: seq<Node>): string {
    if |s| == 0 then "" else (if s[0].canceled then "" else s[0].content) + Text(s[1..])
  }

  lemma {:induction false} TextAppend(a: seq<Node>, b: seq<Node>)
    ensures Text(a + b) == Text(a) + Text(b)
    decreases |a|
  {
    if |a| == 0 {
      assert a + b == b;
    } else {
      assert (a + b)[0] == a[0];
      assert (a + b)[1..] == a[1..] + b;
      TextAppend(a[1..], b);
    }
  }

  /** Canceling a range takes exactly its text out of the stream's text. */
  lemma CancelRangeText(s: seq<Node>, from: nat, to: nat)
    requires from <= to <= |s|
    ensures Text(CancelRange(s, from, to)) == Text(s[..from]) + Text(s[to..])
  {
    var t := CancelRange(s, from, to);
    var a, m, b := t[..from], t[from..to], t[to..];
    assert Text(m) == "" by {
      forall j | 0 <= j < |m| ensures m[j].canceled {
        assert m[j] == t[from + j];
      }
      AllCanceledText(m);
    }
    assert a == s[..from] && b == s[to..];
    calc {
      Text(t);
      { assert t == (a + m) + b; }
      Text((a + m) + b);
      { TextAppend(a + m, b); }
      Text(a + m) + Text(b);
      { TextAppend(a, m); }
      Text(a) + Text(m) + Text(b);
      Text(s[..from]) + Text(s[to..]);
    }
  }

  /** A run where only the element at `p` is shown renders as its text. */
  lemma OneShown(u: seq<Node>, p: nat)
    requires p < |u| && !u[p].canceled
    requires forall q :: 0 <= q < |u| && q != p ==> u[q].canceled
    ensures Text(u) == u[p].content
  {
    var a, b := u[..p], u[p + 1..];
    assert u == a + [u[p]] + b;
    TextAppend(a + [u[p]], b);
    TextAppend(a, [u[p]]);
    assert Text([u[p]]) == u[p].content by {
      assert [u[p]][1..] == [];
    }
    assert Text(a) == "" by {
      forall q | 0 <= q < |a| ensures a[q].canceled {
        assert a[q] == u[q];
      }
      AllCanceledText(a);
    }
    assert Text(b) == "" by {
      forall q | 0 <= q < |b| ensures b[q].canceled {
        assert b[q] == u[p + 1 + q];
      }
      AllCanceledText(b);
    }
  }

  /** A run of canceled elements contributes no text. */
  lemma {:induction false} AllCanceledText(s: seq<Node>)
    requires forall j :: 0 <= j < |s| ==> s[j].canceled
    ensures Text(s) == ""
    decreases |s|
  {
    if |s| > 0 {
      AllCanceledText(s[1..]);
    }
  }
}

=== FILE: words.dfy ===
/** Word tokens (`genCode` of the word class): the dispatch that decides
    between a package path, a quoted bare hash key, a camel-cased name and
    the keyword rules, and the keyword rules that only touch the word and
    its immediate neighbours. The declaration, sub and package headers are
    in Headers, the postfix conditionals in Conditionals. */
module Words {
  import opened Wrappers
  import opened Strings
  import opened Tokens
  import opened Markers
  import Contexts

  // ---------------------------------------------------------------------
  // Dispatch

  /** The keyword rules of the switch in `genCode`. */
  datatype KeywordRule =
    | DeclareRule                   // my
    | SplitRule                     // split
    | WithArgRule(fn: string)       // a builtin with one implicit argument
    | RenameRule(to: string)        // a builtin renamed in place
    | SubRule | PackageRule | UseRule | ForeachRule | ConditionalRule
    | KillRule                      // STDERR, local: word and whitespace removed
    | GotoRule
    | LoopControlRule(to: string)   // last, next
    | NoRule

  /** The words the switch in `genCode` has a case for. */
  const SwitchWords: set<string> := {
    "my", "split", "shift", "pop", "uc", "lc", "delete", "keys", "close",
    "unshift", "push", "length", "defined", "sub", "package", "require", "use",
    "elsif", "foreach", "if", "unless", "STDERR", "local", "goto", "last", "next"}

  function KeywordRuleOf(w: string): (r: KeywordRule)
    ensures r.NoRule? <==> w !in SwitchWords
    ensures r.KillRule? <==> w == "STDERR" || w == "local"
  {
    if w == "my" then DeclareRule
    else if w == "split" then SplitRule
    else if w == "shift" then WithArgRule("array_shift")
    else if w == "pop" then WithArgRule("array_pop")
    else if w == "uc" then WithArgRule("strtoupper")
    else if w == "lc" then WithArgRule("strtolower")
    else if w == "delete" then WithArgRule("unset")
    else if w == "keys" then WithArgRule("array_keys")
    else if w == "close" then WithArgRule("close")
    else if w == "unshift" then RenameRule("array_unshift")
    else if w == "push" then RenameRule("array_push")
    else if w == "length" then RenameRule("strlen")
    else if w == "defined" then WithArgRule("/*check*/isset")
    else if w == "sub" then SubRule
    else if w == "package" then PackageRule
    else if w == "require" || w == "use" then UseRule
    else if w == "elsif" then RenameRule("elseif")
    else if w == "foreach" then ForeachRule
    else if w == "if" || w == "unless" then ConditionalRule
    else if w == "STDERR" || w == "local" then KillRule
    else if w == "goto" then GotoRule
    else if w == "last" then LoopControlRule("break")
    else if w == "next" then LoopControlRule("continue")
    else NoRule
  }

  /** What the dispatch reads about the word's place in the tree. */
  datatype WordSite = WordSite(
    parentIsExpression: bool,   // parent is an expression statement
    bareSubscriptKey: bool,     // ... inside a subscript, with no siblings
    nextContent: string,        // content of the next element
    reserved: bool,             // isReservedWord
    parentIsStatement: bool)    // parent is a statement of any kind

  datatype WordAction =
    | SetContent(text: string)  // the word's text is replaced
    | Unchanged                 // left as it is (a non-statement parent is reported)
    | KillWithWs                // the word and the whitespace after it are removed
    | PackageName               // the package-path rule applies
    | Keyword(rule: KeywordRule)  // a keyword rule that looks at neighbours applies

  /** `quoteBareWord`: a bare word becomes a single-quoted string unless it
      already starts with a quote. */
  function QuoteBare(w: string): (r: string)
    ensures |r| > 0 && (r[0] == '"' || r[0] == '\'')
    ensures r == w <==> |w| > 0 && (w[0] == '"' || w[0] == '\'')
    ensures r != w ==> |r| == |w| + 2 && r[1..|r| - 1] == w
  {
    if |w| > 0 && (w[0] == '"' || w[0] == '\'') then w else "'" + w + "'"
  }

  /** Bare hash key position: alone in a subscript, or before `=>`. */
  predicate HashKeyPosition(site: WordSite) {
    site.parentIsExpression && (site.bareSubscriptKey || site.nextContent == "=>")
  }

  /** `genCode` of the word class, up to the keyword rule it hands over to. */
  function WordDispatch(w: string, site: WordSite, camel: string -> string): (r: WordAction)
    ensures r.PackageName? <==> Contains(w, "::")
    ensures r.KillWithWs? ==> w == "STDERR" || w == "local"
    ensures r.Keyword? ==> site.reserved && site.parentIsStatement && w in SwitchWords
  {
    if Contains(w, "::") then PackageName
    else if HashKeyPosition(site) then SetContent(QuoteBare(w))
    else if !site.reserved then SetContent(camel(w))
    else if !site.parentIsStatement then Unchanged
    else match KeywordRuleOf(w)
      case RenameRule(to) => SetContent(to)
      case KillRule => KillWithWs
      case NoRule => Unchanged
      case r => Keyword(r)
  }

  /** A word in hash-key position is quoted whatever it is, keywords
      included, and quoting is idempotent. */
  lemma HashKeysQuoted(w: string, site: WordSite, camel: string -> string)
    requires !Contains(w, "::") && HashKeyPosition(site)
    ensures WordDispatch(w, site, camel) == SetContent(QuoteBare(w))
    ensures QuoteBare(QuoteBare(w)) == QuoteBare(w)
    ensures |QuoteBare(w)| > 0 && (QuoteBare(w)[0] == '"' || QuoteBare(w)[0] == '\'')
  {
  }

  /** A word that is not reserved is a name: it is only camel-cased. */
  lemma NamesCamelCased(w: string, site: WordSite, camel: string -> string)
    requires !Contains(w, "::") && !HashKeyPosition(site) && !site.reserved
    ensures WordDispatch(w, site, camel) == SetContent(camel(w))
  {
  }

  /** The renames of the keyword switch, as a table of their own. */
  const RenamedWords: map<string, string> :=
    map["unshift" := "array_unshift", "push" := "array_push", "length" := "strlen", "elsif" := "elseif"]

  /** A keyword in a statement is renamed in place exactly when it is in
      the table, and then to the table's name. */
  lemma RenamedBuiltins(w: string, site: WordSite, camel: string -> string)
    requires !HashKeyPosition(site) && site.reserved && site.parentIsStatement
    ensures w in RenamedWords ==> WordDispatch(w, site, camel) == SetContent(RenamedWords[w])
    ensures WordDispatch(w, site, camel).SetContent? ==> w in RenamedWords
  {
    if w in RenamedWords {
      assert w == "unshift" || w == "push" || w == "length" || w == "elsif";
      NoColonNoPath(w);
    }
  }

  /** The words that are removed together with their whitespace. */
  lemma KilledWords(w: string, site: WordSite, camel: string -> string)
    requires w == "STDERR" || w == "local"
    requires !HashKeyPosition(site) && site.reserved && site.parentIsStatement
    ensures WordDispatch(w, site, camel) == KillWithWs
  {
    NoColonNoPath(w);
  }

  /** In a statement, a keyword the switch has no rule for is exactly a
      keyword that is kept as it is; `return` is one. */
  lemma UnruledKeywordKept(w: string, site: WordSite, camel: string -> string)
    requires !Contains(w, "::")
    requires !HashKeyPosition(site) && site.reserved && site.parentIsStatement
    ensures KeywordRuleOf(w).NoRule? <==> WordDispatch(w, site, camel) == Unchanged
    ensures WordDispatch("return", site, camel) == Unchanged
  {
    NoColonNoPath("return");
  }

  /** Every word the context rule puts in array context is one the keyword
      switch rewrites into a PHP array call (or `preg_split`/`explode`), and
      the string builtins `join` and `ucwords` keep their names, which PHP
      shares. */
  lemma ContextBuiltinsHaveRules(w: string)
    ensures Contexts.ArrayBuiltin(w) ==>
      KeywordRuleOf(w).SplitRule? || KeywordRuleOf(w).WithArgRule? || KeywordRuleOf(w).RenameRule?
    ensures Contexts.ArrayBuiltin(w) && !KeywordRuleOf(w).SplitRule? ==>
      var fn := if KeywordRuleOf(w).WithArgRule? then KeywordRuleOf(w).fn else KeywordRuleOf(w).to;
      StartsWith(fn, "array_") || fn == "unset"
    ensures Contexts.StringBuiltin(w) ==>
      KeywordRuleOf(w) == (if w == "uc" then WithArgRule("strtoupper")
                           else if w == "lc" then WithArgRule("strtolower") else NoRule)
    ensures Contexts.ScalarBuiltin(w) ==>
      KeywordRuleOf(w) == (if w == "defined" then WithArgRule("/*check*/isset") else RenameRule("strlen"))
  {
    if Contexts.ArrayBuiltin(w) {
      assert StartsWith("array_shift", "array_") && StartsWith("array_unshift", "array_");
      assert StartsWith("array_pop", "array_") && StartsWith("array_push", "array_");
      assert StartsWith("array_keys", "array_");
    }
  }

  // ---------------------------------------------------------------------
  // Package paths in words

  /** `tokenWordPackageName`: the path is converted by the package-name
      helper; a path ending in `\new` right after an `=` is the constructor
      idiom `Pkg->new` and becomes `new Pkg`. */
  function PackageNameCode(w: string, package: string -> string, prevContent: string): (r: string)
    ensures r != package(w) ==>
      |prevContent| > 0 && prevContent[|prevContent| - 1] == '=' && StartsWith(r, "new ")
  {
    var c := package(w);
    if |c| >= 4 && Lower(c[|c| - 4..]) == "\\new"
       && |prevContent| > 0 && prevContent[|prevContent| - 1] == '=' then
      "new " + c[..|c| - 4]
    else c
  }

  /** The constructor idiom, in any letter case of `new`, turns into a
      `new` expression on the class path; anything else is the helper's
      path unchanged. */
  lemma ConstructorIdiom(w: string, package: string -> string, prevContent: string,
                         cls: string, newWord: string)
    requires package(w) == cls + "\\" + newWord && |newWord| == 3 && Lower(newWord) == "new"
    ensures |prevContent| > 0 && prevContent[|prevContent| - 1] == '=' ==>
      PackageNameCode(w, package, prevContent) == "new " + cls
    ensures !(|prevContent| > 0 && prevContent[|prevContent| - 1] == '=') ==>
      PackageNameCode(w, package, prevContent) == package(w)
  {
    var c := package(w);
    assert c[|c| - 4..] == "\\" + newWord;
    assert Lower("\\" + newWord) == "\\" + Lower(newWord);
    assert c[..|c| - 4] == cls;
  }

  /** Conversely, only the constructor idiom changes the helper's path: a
      path that does not end in `\` and `new` (in any letter case), or
      does not follow an `=`, is kept as the helper gives it. */
  lemma OnlyConstructorIdiomChanges(w: string, package: string -> string, prevContent: string)
    ensures PackageNameCode(w, package, prevContent) != package(w) ==>
      var c := package(w);
      && |prevContent| > 0 && prevContent[|prevContent| - 1] == '='
      && |c| >= 4 && c[|c| - 4] == '\\' && Lower(c[|c| - 3..]) == "new"
      && PackageNameCode(w, package, prevContent) == "new " + c[..|c| - 4]
  {
    var c := package(w);
    if PackageNameCode(w, package, prevContent) != c {
      var l := Lower(c[|c| - 4..]);
      assert l == "\\new";
      assert ToLower(c[|c| - 4]) == l[0] == '\\';
      assert Lower(c[|c| - 3..]) == l[1..];
    }
  }

  // ---------------------------------------------------------------------
  // Builtins with one implicit argument

  /** What `convertWordWithArg` reads: whether the word has a next sibling,
      whether the next element is the terminator or a parenthesised list,
      and the rendered right operand (`getRightArg`). */
  datatype ArgSite = ArgSite(
    hasNextSibling: bool,
    nextIsSemicolon: bool,
    nextIsList: bool,
    rightCode: string)

  /** `convertWordWithArg`: with no argument the implicit `@_` cannot be
      named, so a placeholder is left; an explicit argument list needs no
      change; otherwise the right operand becomes the call's argument. */
  function WithArgCode(w: string, fn: string, a: ArgSite): (r: string)
    ensures !a.hasNextSibling || a.nextIsSemicolon ==> PlaceholderText(r) == Some(w)
  {
    if !a.hasNextSibling || a.nextIsSemicolon then PlaceholderRoundTrip(w); Placeholder(w)
    else if a.nextIsList then w
    else fn + "(" + Trim(a.rightCode) + ")"
  }

  /** The three outcomes: the word comes back from the placeholder, the
      trimmed argument comes back from the call, or the word is kept. */
  lemma WithArgForms(w: string, fn: string, a: ArgSite)
    ensures !a.hasNextSibling || a.nextIsSemicolon ==>
      PlaceholderText(WithArgCode(w, fn, a)) == Some(w)
    ensures a.hasNextSibling && !a.nextIsSemicolon && a.nextIsList ==>
      WithArgCode(w, fn, a) == w
    ensures a.hasNextSibling && !a.nextIsSemicolon && !a.nextIsList ==>
      CallArgument(fn, WithArgCode(w, fn, a)) == Some(Trim(a.rightCode))
  {
    PlaceholderRoundTrip(w);
    CallArgumentOf(fn, Trim(a.rightCode));
  }

  // ---------------------------------------------------------------------
  // split

  /** The characters the `split` rule takes as a sign of a pattern. As
      written the class is `[\().*]`: the backslash in the PHP source only
      escapes the parenthesis, so a backslash itself does not count. */
  predicate PatternChar(c: char) {
    c == '(' || c == ')' || c == '.' || c == '*'
  }

  /** The element the split rule inspects: the one after `split`, after
      skipping a parenthesised list and then an expression statement. */
  function SplitOperand(s: seq<Node>, i: nat): (r: Option<Node>)
    requires i < |s|
  {
    var j := i + 1;
    var j := if j < |s| && s[j].kind.List? then j + 1 else j;
    var j := if j < |s| && s[j].kind.Expression? then j + 1 else j;
    if j < |s| then Some(s[j]) else None
  }

  /** `tokenWordSplit`: `explode` for a quoted separator with no pattern
      character, `preg_split` otherwise. */
  function SplitCode(operand: Option<Node>): (r: string)
    ensures r == "explode" || r == "preg_split"
    ensures r == "explode" ==> operand.Some? && IsQuote(operand.value.kind)
  {
    match operand
    case Some(n) =>
      if IsQuote(n.kind) && !(exists k :: 0 <= k < |n.content| && PatternChar(n.content[k]))
      then "explode" else "preg_split"
    case None => "preg_split"
  }

  /** `explode` is chosen exactly for a plain quoted separator. */
  lemma SplitChoosesExplode(operand: Option<Node>)
    ensures SplitCode(operand) == "explode" <==>
      operand.Some? && IsQuote(operand.value.kind)
      && forall k :: 0 <= k < |operand.value.content| ==> !PatternChar(operand.value.content[k])
    ensures SplitCode(operand) != "explode" ==> SplitCode(operand) == "preg_split"
  {
  }

  // ---------------------------------------------------------------------
  // Labels, goto, last and next

  /** `genCode` of the label class: `EXIT` is reserved in PHP. */
  function LabelCode(content: string): (r: string)
    ensures r != "EXIT:"
    ensures r != content <==> content == "EXIT:"
  {
    if content == "EXIT:" then "EXIT_LABEL:" else content
  }

  /** The label name `goto` uses for `name`. */
  function GotoTarget(name: string): string {
    if name == "EXIT" then "EXIT_LABEL" else name
  }

  /** `tokenWordGoto`: the label after `goto` is renamed like the label
      itself. */
  function GotoAt(s: seq<Node>, i: nat): (t: seq<Node>)
    requires i < |s|
    ensures Monotone(s, t)
    ensures forall j :: 0 <= j < |s| && j != i + 1 ==> t[j] == s[j]
    ensures i + 1 < |s| ==> t[i + 1] == s[i + 1].(content := GotoTarget(s[i + 1].content))
  {
    if i + 1 < |s| && s[i + 1].content == "EXIT" then SetContentAt(s, i + 1, "EXIT_LABEL")
    else s
  }

  /** A label and a `goto` naming it are renamed alike, whatever the name. */
  lemma LabelMatchesGoto(name: string)
    requires ':' !in name
    ensures LabelCode(name + ":") == GotoTarget(name) + ":"
  {
    if name + ":" == "EXIT:" {
      assert name == (name + ":")[..|name|];
    }
  }

  /** `tokenWordLast` / `tokenWordNext`: the keyword becomes `break` or
      `continue`; a loop label after it (PHP has none) is commented out. */
  function LoopControlAt(s: seq<Node>, i: nat, keyword: string): (t: seq<Node>)
    requires i < |s|
    ensures Monotone(s, t)
    ensures t[i] == s[i].(content := keyword)
    ensures forall j :: 0 <= j < |s| && j != i && j != i + 1 ==> t[j] == s[j]
    ensures i + 1 < |s| ==>
      t[i + 1] == (if s[i + 1].kind.Word? then s[i + 1].(content := CheckComment(s[i + 1].content)) else s[i + 1])
  {
    var t := SetContentAt(s, i, keyword);
    if i + 1 < |s| && s[i + 1].kind.Word? then SetContentAt(t, i + 1, CheckComment(s[i + 1].content))
    else t
  }

  /** The label survives inside the comment. */
  lemma LoopLabelKept(s: seq<Node>, i: nat, keyword: string)
    requires i + 1 < |s| && s[i + 1].kind.Word?
    ensures CheckCommentText(LoopControlAt(s, i, keyword)[i + 1].content) == Some(s[i + 1].content)
  {
    CheckCommentRoundTrip(s[i + 1].content);
  }

  // ---------------------------------------------------------------------
  // foreach

  /** `tokenWordForeach` over the stream: an optional `my`, the loop
      variable, then the parenthesised list, whose rendered interior
      `exprText` and subtree end `listEnd` are supplied by the base class.
      All of them are canceled and the keyword becomes PHP's
      `foreach (expr as $var)`. */
  function ForeachAt(s: seq<Node>, i: nat, exprText: string, listEnd: nat)
    : (r: Result<(string, seq<Node>), string>)
    requires i < |s|
    ensures r.Success? ==> Monotone(s, r.value.1)
  {
    var hasMy := i + 1 < |s| && s[i + 1].content == "my";
    var v := if hasMy then i + 2 else i + 1;
    if !(v < |s| && IsSymbolClass(s[v].kind)) then
      Failure("Foreach invalid variable token")
    else if !(v + 1 < |s| && s[v + 1].kind.List?) then
      Failure("Foreach invalid expression token")
    else
      var t := CancelRange(s, i + 1, v + 1);
      var t := CancelRange(t, v + 1, if listEnd > v + 1 then listEnd else v + 2);
      Success(("foreach (" + exprText + " as " + s[v].content + ")", t))
  }

  /** The loop succeeds exactly on the `foreach [my] $var (…)` shape; it
      cancels the `my`, the variable and the list with its whole subtree,
      changes nothing else, and the header names the variable and the list
      in PHP's order. */
  lemma ForeachShape(s: seq<Node>, i: nat, exprText: string, listEnd: nat)
    requires i < |s|
    ensures var v := if i + 1 < |s| && s[i + 1].content == "my" then i + 2 else i + 1;
      ForeachAt(s, i, exprText, listEnd).Success? <==>
        v + 1 < |s| && IsSymbolClass(s[v].kind) && s[v + 1].kind.List?
    ensures var v := if i + 1 < |s| && s[i + 1].content == "my" then i + 2 else i + 1;
      ForeachAt(s, i, exprText, listEnd).Success? ==>
        var (text, t) := ForeachAt(s, i, exprText, listEnd).value;
        && text == "foreach (" + exprText + " as " + s[v].content + ")"
        && t[v].canceled && t[v + 1].canceled && t[i + 1].canceled
        && t[i] == s[i]
    ensures var v := if i + 1 < |s| && s[i + 1].content == "my" then i + 2 else i + 1;
      var hi := if listEnd > v + 1 then listEnd else v + 2;
      ForeachAt(s, i, exprText, listEnd).Success? ==>
        var t := ForeachAt(s, i, exprText, listEnd).value.1;
        && (forall j :: i + 1 <= j < hi && j < |s| ==> t[j].canceled)
        && (forall j :: 0 <= j < |s| && (j <= i || j >= hi) ==> t[j] == s[j])
  {
  }

  // ---------------------------------------------------------------------
  // use / require

  /** A synthetic element holding text, as `insertLeftText` creates it:
      already converted, so no rule touches it. */
  function Inserted(text: string): Node {
    Node(OtherToken, text, "", "", Unset, false, true)
  }

  /** Mark elements converted: their text is left as it is. */
  function Freeze(s: seq<Node>): (t: seq<Node>)
    ensures |t| == |s|
    ensures forall j :: 0 <= j < |s| ==> t[j] == s[j].(converted := true)
  {
    seq(|s|, j requires 0 <= j < |s| => s[j].(converted := true))
  }

  /** `tokenWordUse`: the keyword becomes `use`; whatever follows the
      module name up to the terminator is frozen and wrapped in a comment.
      A missing terminator ends the conversion. */
  function UseAt(s: seq<Node>, i: nat): (r: Result<seq<Node>, string>)
    requires i < |s|
    ensures r.Failure? <==> i + 2 >= |s| || NextSemicolon(s, i + 2).None?
    ensures r.Success? ==> |r.value| >= |s| && r.value[..i] == s[..i] && r.value[i].content == "use"
  {
    var t := SetContentAt(s, i, "use");
    var k := i + 2;
    if k >= |s| then Failure("use without a terminator")
    else if IsSemicolon(s[k]) then Success(t)
    else match NextSemicolon(s, k)
      case None => Failure("use without a terminator")
      case Some(e) =>
        Success(t[..k] + [Inserted("/*")] + Freeze(s[k..e]) + [Inserted("*/")] + s[e..])
  }

  /** The rest of a `use` line is commented out and otherwise kept: its
      text is the original text between `/*` and `*/`, nothing it holds is
      rewritten, and the terminator follows. */
  lemma UseCommentsOutRest(s: seq<Node>, i: nat)
    requires i < |s|
    requires i + 2 < |s| && !IsSemicolon(s[i + 2])
    requires NextSemicolon(s, i + 2).Some?
    ensures UseAt(s, i).Success?
    ensures var e := NextSemicolon(s, i + 2).value;
      var t := UseAt(s, i).value;
      && |t| == |s| + 2
      && t[i].content == "use"
      && Text(t[i + 2..e + 2]) == "/*" + Text(s[i + 2..e]) + "*/"
      && (forall j :: i + 3 <= j < e + 1 ==> t[j].converted && t[j].content == s[j - 1].content)
      && t[e + 2..] == s[e..]
  {
    var e := NextSemicolon(s, i + 2).value;
    var pre := SetContentAt(s, i, "use")[..i + 2];
    CommentedOut(s, UseAt(s, i).value, i, e, pre);
  }

  /** The facts about a `use` line once its rest is wrapped in a comment. */
  lemma CommentedOut(s: seq<Node>, t: seq<Node>, i: nat, e: nat, pre: seq<Node>)
    requires i + 2 <= e < |s|
    requires |pre| == i + 2 && pre[i].content == "use"
    requires t == pre + [Inserted("/*")] + Freeze(s[i + 2..e]) + [Inserted("*/")] + s[e..]
    ensures && |t| == |s| + 2
      && t[i].content == "use"
      && Text(t[i + 2..e + 2]) == "/*" + Text(s[i + 2..e]) + "*/"
      && (forall j :: i + 3 <= j < e + 1 ==> t[j].converted && t[j].content == s[j - 1].content)
      && t[e + 2..] == s[e..]
  {
    CommentedOutText(s, t, i, e, pre);
    CommentedOutFrozen(s, t, i, e, pre);
  }

  lemma CommentedOutText(s: seq<Node>, t: seq<Node>, i: nat, e: nat, pre: seq<Node>)
    requires i + 2 <= e < |s|
    requires |pre| == i + 2
    requires t == pre + [Inserted("/*")] + Freeze(s[i + 2..e]) + [Inserted("*/")] + s[e..]
    ensures Text(t[i + 2..e + 2]) == "/*" + Text(s[i + 2..e]) + "*/"
    ensures t[e + 2..] == s[e..]
  {
    var open, mid, close := [Inserted("/*")], Freeze(s[i + 2..e]), [Inserted("*/")];
    SpliceParts(pre, open, mid, close, s[e..]);
    calc {
      Text(open + mid + close);
      { TextAppend(open + mid, close); TextAppend(open, mid); }
      Text(open) + Text(mid) + Text(close);
      { FreezeText(s[i + 2..e]); }
      "/*" + Text(s[i + 2..e]) + "*/";
    }
  }

  lemma CommentedOutFrozen(s: seq<Node>, t: seq<Node>, i: nat, e: nat, pre: seq<Node>)
    requires i + 2 <= e < |s|
    requires |pre| == i + 2 && pre[i].content == "use"
    requires t == pre + [Inserted("/*")] + Freeze(s[i + 2..e]) + [Inserted("*/")] + s[e..]
    ensures |t| == |s| + 2 && t[i].content == "use"
    ensures forall j :: i + 3 <= j < e + 1 ==> t[j].converted && t[j].content == s[j - 1].content
  {
    var mid := Freeze(s[i + 2..e]);
    var head := pre + [Inserted("/*")];
    assert t == head + (mid + ([Inserted("*/")] + s[e..]));
    assert t[i] == pre[i];
    forall j | i + 3 <= j < e + 1
      ensures t[j].converted && t[j].content == s[j - 1].content
    {
      var m := j - i - 3;
      assert t[j] == mid[m];
      assert mid[m] == s[i + 2..e][m].(converted := true);
    }
  }

  /** The pieces of a five-part splice sit where their lengths put them. */
  lemma SpliceParts(p: seq<Node>, a: seq<Node>, m: seq<Node>, c: seq<Node>, q: seq<Node>)
    ensures var t := p + a + m + c + q;
      && |t| == |p| + |a| + |m| + |c| + |q|
      && t[|p|..|p| + |a| + |m| + |c|] == a + m + c
      && t[|p| + |a| + |m| + |c|..] == q
      && (forall j :: 0 <= j < |p| ==> t[j] == p[j])
      && (forall j :: 0 <= j < |m| ==> t[|p| + |a| + j] == m[j])
  {
  }

  lemma {:induction false} FreezeText(s: seq<Node>)
    ensures Text(Freeze(s)) == Text(s)
    decreases |s|
  {
    if |s| > 0 {
      assert Freeze(s)[1..] == Freeze(s[1..]);
      FreezeText(s[1..]);
    }
  }

  /** `use Foo;` only renames the keyword. */
  lemma UsePlain(s: seq<Node>, i: nat)
    requires i + 2 < |s| && IsSemicolon(s[i + 2])
    ensures UseAt(s, i) == Success(SetContentAt(s, i, "use"))
  {
  }
}

=== FILE: wrappers.dfy ===
/** Failure-carrying values used throughout the model: an optional value,
    and a result that is either a value or a diagnostic. */
module Wrappers {

  datatype Option<+T> = None | Some(value: T)

  /** `Failure` stands for the source's `print …; exit(…)` paths: the
      conversion of the file stops with the diagnostic `error`. */
  datatype Result<+R, +E> = Success(value: R) | Failure(error: E)
}
